=== FILE: README.md ===
# Realtime captioning, persistence and translation — a Dafny model

This project models the realtime caption pipeline of a video-meeting app, as
functions and state-transition systems over immutable datatypes. It covers:

- **The server-side speech-to-text session registry**
  (`lib/stt/deepgramSessionStore.ts`): creating sessions, attaching and
  detaching event-stream listeners, forwarding audio, and closing. Provider
  transcript events become segments: the transcript is trimmed, a diarization
  label is inferred, millisecond bounds are computed, and a stable segment id
  is derived. Each segment is persisted, and a `persist_error` notice is sent
  at most once per session.
- **The transcript table behind the REST client** (`lib/supabase/rest.ts`): a
  map keyed by `segment_id` with last-write-wins upsert, and pages of final
  rows for a room. Pages are filtered after a `(start_ms, segment_id)` cursor,
  ordered by that pair and capped by the clamped limit.
- **The route handlers**: transcript segment, transcript poll, translate, and
  the speech-to-text session, ingest and close routes. Each is a total
  function from the request (and the oracles it consults) to a response and
  the new store state.
- **The client hook** (`hooks/useRealtimeTranslator.ts`), split into:
  - settings load and save;
  - call-volume ducking;
  - the local read-aloud queue;
  - the caption map and its four-item window;
  - the live custom-event path with its translation cache;
  - browser speech-recognition segmentation with the 800 ms interim throttle;
  - the `gemini_live` poll loop with its cursor.

Modules, one per file: `Wrappers`, `Js` (the JavaScript semantics relied on:
numbers, JSON values, truthiness, `trim`, `String(int)`, `Math.round`, string
order), `Sorting`, `TranscriptStore`, `SessionStore`, `Http`, one module per
route, `TranslatorSettings`, `Ducking`, `ReadAloud`, `CaptionWindow`,
`LivePath`, `BrowserStt` and `PollPath`.

External services are parameters:

- Supabase HTTP is modelled by its status code and whether its body is an array.
- The speech provider is modelled by whether a key is set and whether the
  connection opens.
- For Gemini HTTP and the translate route as seen by the client, a reply
  datatype says how the call went.
- `speechSynthesis` is modelled by its availability and busy flags.
- `localStorage` is modelled by the parsed entry.
- The clock, random UUIDs, `Number` and `String` on numbers, and `String` on
  objects are modelled by values or functions passed in.

JavaScript numbers are exact reals, with NaN and the infinities kept apart
where the code tests for them.

In these places the model follows the code where a reader might expect
otherwise:

- The session store upserts interim segments as well as finals, so finality
  is not monotone in the table.
- A provider `Error` event broadcasts a notice but does not close the session.
- Millisecond bounds use `Math.round`, not a floor.
- Un-ducking never clears the captured pre-duck volume.
- `applyDucking` returns at once while ducking is off, but turning ducking
  off still restores a ducked call. The settings effect's cleanup runs first,
  and it is the previous render's `applyDucking(false)`, for which ducking was
  still on.
- The custom-event handler keeps the settings of its last subscription. Its
  effect lists only the call, `captionsEnabled`, `readAloudEnabled` and
  `targetLang`, so a change of engine, volume or ducking alone does not reach
  it, nor the `speakNext` and `applyDucking` it calls
  (`LivePath.HandlerSettings`).

## Model

| member | source | states |
|---|---|---|
| TranscriptStore.EnvError | lib/supabase/rest.ts:18-26 | a missing URL is reported first, then a missing service key; no error exactly when both are set |
| TranscriptStore.Write | lib/supabase/rest.ts:33-44 | the upsert on `segment_id` stores the row under its id, adds exactly that key and leaves every other row as it was |
| TranscriptStore.Upsert | lib/supabase/rest.ts:28-53 | an environment error or a non-2xx status fails with that error and changes nothing; success exactly when the environment is set and the status is 2xx, and then the row is stored under its id with the other rows unchanged |
| TranscriptStore.WriteKeepsWellKeyed | lib/supabase/rest.ts:34 | a table whose rows sit under their own `segment_id` keeps that property after a write |
| TranscriptStore.UpsertIdempotent | lib/supabase/rest.ts:34-42 | upserting the same row twice gives the same table as once (merge-duplicates) |
| TranscriptStore.LastWriteWins | lib/supabase/rest.ts:42 | a second write to the same `segment_id` replaces every field of the first, and the row count does not grow |
| TranscriptStore.EffectiveLimit | lib/supabase/rest.ts:63 | `max(1, min(100, limit ?? 20))`: 20 when absent, the limit when in [1, 100], clamped to 1 or 100 outside that range, the infinities clamped, NaN propagated |
| TranscriptStore.PageCap | lib/supabase/rest.ts:63-70 | every page cap lies in 1..100, and is 20 when no limit is given; only a NaN limit leaves the page uncapped |
| TranscriptStore.CursorFilterOf | lib/supabase/rest.ts:72-83 | no cursor filter unless `after_start_ms` is finite; the `(start_ms, segment_id)` pair filter exactly when a non-empty `after_segment_id` is also given; otherwise `start_ms > a` |
| TranscriptStore.RowLeTotalPreorder | lib/supabase/rest.ts:69 | ordering by `start_ms` then `segment_id` is total and transitive |
| TranscriptStore.RowLtTransitive | lib/supabase/rest.ts:69 | the strict page order is transitive |
| TranscriptStore.RowLtIrreflexive | lib/supabase/rest.ts:69 | no row comes strictly after itself |
| TranscriptStore.CollectSelected | lib/supabase/rest.ts:66-69 | collects exactly the rows of the room that are final and pass the cursor, sorted in page order, one per `segment_id` |
| TranscriptStore.SelectPage | lib/supabase/rest.ts:63-83 | the result is a page: selected rows only, strictly ascending, at most the cap, and no selected row is skipped before the last one returned |
| TranscriptStore.ListFinal | lib/supabase/rest.ts:55-102 | environment errors and non-2xx statuses fail with that error; a non-array body gives `[]`; otherwise the answer is the page for the query |
| TranscriptStore.NextPageFollows | lib/supabase/rest.ts:72-79 | a query whose cursor is the last row of a page returns only rows strictly after every row of that page |
| SessionStore.NewSession | lib/stt/deepgramSessionStore.ts:91-106 | the track is `mic` unless given, the language is `multi` when empty, and the model is `nova-2` unless non-empty; no listeners, no audio, open and not yet notified |
| SessionStore.ProviderLanguage | lib/stt/deepgramSessionStore.ts:110 | the provider is asked for `multi` when the session language is `auto`, else for the session language |
| SessionStore.Create | lib/stt/deepgramSessionStore.ts:80-117 | a missing key or a failed connection throws and registers nothing; otherwise the new session is registered under its id, other sessions are untouched, and the registry invariant holds |
| SessionStore.AddSseController | lib/stt/deepgramSessionStore.ts:225-231 | null for an unknown or closed session; otherwise the listener is added and only it receives `hello` |
| SessionStore.RemoveSseController | lib/stt/deepgramSessionStore.ts:233-237 | a no-op for an unknown session; otherwise exactly that listener is removed |
| SessionStore.RemoveTwiceHarmless | lib/stt/deepgramSessionStore.ts:233-237 | removing a listener twice equals removing it once |
| SessionStore.AttachDetachRoundTrip | lib/stt/deepgramSessionStore.ts:225-237 | attaching a new listener and removing it restores the registry |
| SessionStore.Ingest | lib/stt/deepgramSessionStore.ts:239-243 | throws `session_not_found` exactly for an unknown or closed session; otherwise the chunk is appended to that session's audio |
| SessionStore.Released | lib/stt/deepgramSessionStore.ts:248-258 | closing flags the session closed, aborts a running pull and disconnects the provider, and keeps its id, listeners and audio |
| SessionStore.Close | lib/stt/deepgramSessionStore.ts:245-260 | an unknown id changes nothing; otherwise the session is released and removed; the id is never registered afterwards |
| SessionStore.CloseIdempotent | lib/stt/deepgramSessionStore.ts:245-247 | a second close finds nothing and changes nothing |
| SessionStore.ClosedSessionRefusesWork | lib/stt/deepgramSessionStore.ts:239-260 | after close, ingest throws `session_not_found` and no listener can attach |
| SessionStore.NormalizeTranscript | lib/stt/deepgramSessionStore.ts:61-67 | nothing exactly when the top alternative is missing, has no string transcript, or is blank; otherwise the trimmed transcript, with the words defaulting to `[]` |
| SessionStore.Speakers | lib/stt/deepgramSessionStore.ts:70-73 | the set holds exactly the numeric speaker tags of the words |
| SessionStore.FirstTagged | lib/stt/deepgramSessionStore.ts:75 | the index of the first word with a numeric speaker, or the length when none has one |
| SessionStore.InferDiarizeSpeaker | lib/stt/deepgramSessionStore.ts:69-78 | none exactly when no word is tagged; the sole speaker as a string when there is one; the first tagged word's speaker plus `+` when there are several; the label ends in `+` exactly when the speakers are ambiguous |
| SessionStore.MsBounds | lib/stt/deepgramSessionStore.ts:161-164 | `0 <= startMs <= endMs`, missing values reading as 0; a non-negative start rounds to within half a millisecond, a start below -0.5 ms clamps to 0; the end is more than the exact end less half a millisecond, and is the start or within half a millisecond of the exact end |
| SessionStore.NoDurationIsPoint | lib/stt/deepgramSessionStore.ts:162-164 | a missing duration is a zero duration, and the segment then ends where it starts |
| SessionStore.SegmentId | lib/stt/deepgramSessionStore.ts:168 | the id starts with `seg_dg_<session>_` |
| SessionStore.SegmentIdInjective | lib/stt/deepgramSessionStore.ts:166-168 | within a session, two ids are equal exactly when the start and the label are; revisions of one utterance share an id |
| SessionStore.SegmentOf | lib/stt/deepgramSessionStore.ts:160-182 | the segment carries the derived id, `start_ms`/`end_ms` equal to the rounded, clamped `MsBounds` of the event (so `0 <= start <= end`), the top alternative's numeric confidence, finality `is_final or speech_final`, and the session's room, track, speaker and language, with the trimmed text |
| SessionStore.OnTranscript | lib/stt/deepgramSessionStore.ts:153-209 | a closed session, a `SpeechStarted` marker or a blank transcript yield nothing and change nothing; otherwise the segment is upserted and broadcast last in every case; a failed upsert adds one `persist_error` first only if none was sent before, and sets the flag |
| SessionStore.InterimIsPersisted | lib/stt/deepgramSessionStore.ts:184-196 | an interim event is stored like a final one: the table holds the interim revision after a successful upsert |
| SessionStore.PersistErrorAtMostOnce | lib/stt/deepgramSessionStore.ts:197-206 | over any series of transcript events, at most one `persist_error` is sent per session, and none once the flag is set |
| SessionStore.OnOpen | lib/stt/deepgramSessionStore.ts:119-124 | the open event announces itself to every listener and starts pulling exactly when a stream URL is set |
| SessionStore.OnStreamFailure | lib/stt/deepgramSessionStore.ts:142-149 | a failed pull is reported exactly when the session is not closed |
| SessionStore.OnProviderError | lib/stt/deepgramSessionStore.ts:211-213 | an error event sends one notice and leaves the registry unchanged |
| SessionStore.OnProviderClose | lib/stt/deepgramSessionStore.ts:215-218 | a close event sends one notice and closes the session |
| SessionStore.ErrorKeepsSessionOpen | lib/stt/deepgramSessionStore.ts:211-218 | after a provider error the session still accepts audio; after a provider close it refuses it |
| SessionStore.DispatchTranscript | lib/stt/deepgramSessionStore.ts:153-158 | an event for an unknown id changes nothing; the registry keeps its ids and its invariant |
| Js.Trim | lib/stt/deepgramSessionStore.ts:63 | the result is the infix left after dropping leading and trailing whitespace: only whitespace is cut, and the result neither starts nor ends with whitespace |
| Js.TrimEmptyIff | lib/stt/deepgramSessionStore.ts:63-64 | the trimmed text is empty exactly when every character is whitespace |
| Js.TrimIdempotent | app/api/translator/translate/route.ts:16 | trimming twice equals trimming once |
| Js.NonBlankIff | app/api/transcripts/segment/route.ts:20-21 | `s.trim().length > 0` exactly when some character is not whitespace |
| Js.Round | lib/stt/deepgramSessionStore.ts:163-164 | `Math.round` yields the integer within half a unit, with halves rounded up |
| Js.NatToStringInjective | lib/stt/deepgramSessionStore.ts:168 | distinct start times print distinctly in the id |
| Js.IntToStringInjective | hooks/useRealtimeTranslator.ts:382 | distinct clock values print distinctly in the utterance id |
| Js.JsString | app/api/translator/translate/route.ts:27-29 | `String(x)` of a string is the string itself |
| Http.OptionalTrim | app/api/stt/deepgram/close/route.ts:12 | `x?.trim()` is undefined for a missing or null field, the trimmed text for a string, and a TypeError for anything else |
| Http.Param | app/api/transcripts/poll/route.ts:8 | `searchParams.get(name) \|\| ''` |
| SegmentRoute.IsNonEmptyString | app/api/transcripts/segment/route.ts:20-21 | a value passes only when it is a non-empty string |
| SegmentRoute.IsNonEmptyStringIff | app/api/transcripts/segment/route.ts:20-21 | a value passes exactly when it is a string whose `trim()` has positive length |
| SegmentRoute.IsFiniteNumber | app/api/transcripts/segment/route.ts:23-24 | a value passes exactly when it is a finite number; NaN and both infinities fail |
| SegmentRoute.IsBoolean | app/api/transcripts/segment/route.ts:37 | a value passes exactly when it is `true` or `false` |
| SegmentRoute.ValidPayload | app/api/transcripts/segment/route.ts:29-41 | a valid payload is an object tagged `stt.segment` whose six text fields pass `isNonEmptyString`, whose bounds are finite numbers and whose `is_final` is a boolean, and every such payload is valid |
| SegmentRoute.ConfidenceOf | app/api/transcripts/segment/route.ts:54 | the confidence is kept exactly when it is a finite number, and is null otherwise; a kept confidence is the number sent |
| SegmentRoute.DecodeSegment | app/api/transcripts/segment/route.ts:27-57 | accepted exactly when the payload is valid, else 400 `invalid_payload`; an accepted row holds every sent field untrimmed (room, track, speaker, segment id, bounds, finality, source language, text) and the confidence only when it is a finite number |
| SegmentRoute.EncodedFields | app/api/transcripts/segment/route.ts:6-18 | a row's payload reads back field by field as the row |
| SegmentRoute.FieldsValid | app/api/transcripts/segment/route.ts:29-41 | a payload carrying a row's fields passes validation exactly when the row's six text fields are non-blank |
| SegmentRoute.EncodedValid | app/api/transcripts/segment/route.ts:29-41 | a row's payload passes validation exactly when the row's text fields are non-blank |
| SegmentRoute.EncodeDecodeRoundTrip | app/api/transcripts/segment/route.ts:29-57 | decoding a row's payload gives back the row when its text fields are non-blank, else 400 |
| SegmentRoute.SegmentPost | app/api/transcripts/segment/route.ts:26-66 | an invalid payload is 400 and leaves the table; a failed upsert is 500 `db_error` and leaves the table; otherwise `{ok: true}` and the row is stored; 200 exactly when valid and stored |
| SegmentRoute.RepostIdempotent | app/api/transcripts/segment/route.ts:45-57 | posting the same payload twice answers and stores as posting once |
| PollRoute.NumberParam | app/api/transcripts/poll/route.ts:17-19 | a number is parsed exactly when the value is present and non-empty |
| PollRoute.FiniteOnly | app/api/transcripts/poll/route.ts:24-26 | only finite numbers are passed on; NaN and the infinities become undefined |
| PollRoute.DecodePoll | app/api/transcripts/poll/route.ts:7-27 | 400 `room_id_required` exactly when the room is missing or empty; otherwise the room as given, finite-or-absent start and limit, and `after_segment_id` exactly when non-empty |
| PollRoute.PollAlwaysCapped | app/api/transcripts/poll/route.ts:19-26 | every query the route passes on has a page cap in 1..100 |
| PollRoute.PollGet | app/api/transcripts/poll/route.ts:6-36 | 400 without a room; 500 `db_error` when listing throws; otherwise `{items}` holding the store's page (empty when the body is not an array), at most 100 rows |
| TranslateRoute.DecodeRequest | app/api/translator/translate/route.ts:21-29 | 400 `invalid_request` exactly when `text` or `target_lang` is falsy; the text is `String(text).trim()`; a falsy `source_lang` becomes `auto`, and string fields are kept |
| TranslateRoute.Prompt | app/api/translator/translate/route.ts:39-43 | the prompt names `from <src>` exactly when the source is not `auto`, and ends with the text |
| TranslateRoute.ParseGeminiText | app/api/translator/translate/route.ts:14-18 | present exactly when the nested `text` is a string, and then it is that string trimmed |
| TranslateRoute.PlanTranslate | app/api/translator/translate/route.ts:27-43 | an empty trimmed text answers `''`; no key answers the trimmed text; otherwise Gemini is asked with the prompt and the text as fallback |
| TranslateRoute.Translation | app/api/translator/translate/route.ts:63-69 | a usable translation is never empty; a thrown fetch or non-ok status has none; an ok reply has its parsed text exactly when that is non-empty |
| TranslateRoute.CompleteTranslate | app/api/translator/translate/route.ts:49-72 | always 200 with text; an ok reply whose parsed text is non-empty answers exactly that translation (`translated || text`), and every other reply (a thrown fetch, a non-ok status, a body without a string text, an empty translation) answers the fallback |
| TranslateRoute.TranslatePost | app/api/translator/translate/route.ts:20-73 | 400 exactly when the request is rejected, 200 otherwise |
| TranslateRoute.NeverBlankAnswer | app/api/translator/translate/route.ts:31-72 | a request with non-blank text always gets non-empty text back, and the trimmed input itself when there is no key or Gemini fails |
| TranslateRoute.AnswerIsTranslation | app/api/translator/translate/route.ts:49-72 | with non-blank text and a key, an ok reply whose parsed text is non-empty is answered with exactly that translation, and every other reply with the trimmed input |
| TranslateRoute.FallbackIsTrimmed | app/api/translator/translate/route.ts:27-37 | the fallback text the handler answers is already trimmed |
| IngestRoute.IngestPost | app/api/stt/deepgram/ingest/route.ts:7-27 | the checks run in order: 401, 400 `session_id_required`, 400 `empty_audio`; `{ok: true}` exactly when all pass and the store accepts; a store error is 500 `ingest_failed`; only success changes the registry |
| IngestRoute.IngestAppendsInOrder | app/api/stt/deepgram/ingest/route.ts:18-20 | two accepted chunks reach the session in the order posted |
| SessionRoute.DecodeSession | app/api/stt/deepgram/session/route.ts:13-22 | 401 without a user; a non-string `room_id` crashes; a blank one is 400; a non-string `source_lang` or `stream_url` after a valid room crashes; otherwise the trimmed room, the user as speaker, track `mic`, the trimmed `source_lang` or `multi`, and the trimmed stream URL exactly when one is given as a string |
| SessionRoute.SessionPost | app/api/stt/deepgram/session/route.ts:13-39 | decoding failures pass through; a creation failure is 500 `deepgram_session_failed`; 200 `{session_id}` exactly when creation succeeds, with the new session built from the decoded parameters (the trimmed room, the trimmed language or `multi`, the trimmed stream URL) for the user on track `mic`, and every other session unchanged |
| SessionRoute.DefaultLanguageIsMulti | app/api/stt/deepgram/session/route.ts:21 | with no `source_lang`, the session and the provider both use `multi` |
| CloseRoute.ClosePost | app/api/stt/deepgram/close/route.ts:7-17 | 401 without a user; a non-string `session_id` crashes; a blank one is 400; otherwise `{ok: true}` for any id, known or not, and the id is closed and unregistered; only success changes the registry |
| CloseRoute.CloseTwiceSame | app/api/stt/deepgram/close/route.ts:15-16 | repeating a close request answers the same and leaves the same registry |
| TranslatorSettings.Clamp01 | hooks/useRealtimeTranslator.ts:47 | the result lies in [0, 1], equals the input when it is already there, and is the nearest bound otherwise |
| TranslatorSettings.Clamp01Num | hooks/useRealtimeTranslator.ts:91-94 | a stored number clamps into [0, 1], the infinities to the bounds; only NaN has no value |
| TranslatorSettings.StrOr | hooks/useRealtimeTranslator.ts:88-89 | a stored string field overrides the default; anything else keeps it |
| TranslatorSettings.BoolOr | hooks/useRealtimeTranslator.ts:88-89 | a stored boolean field overrides the default; anything else keeps it |
| TranslatorSettings.RealOr | hooks/useRealtimeTranslator.ts:88-89 | a stored finite number overrides the default; anything else keeps it |
| TranslatorSettings.Load | hooks/useRealtimeTranslator.ts:83-96 | nothing stored gives the defaults; each text field and switch is the stored string or boolean when there is one, else its default; the ducked volume is a stored finite number, else the default; the read-aloud volume is `clamp01` of a stored number (the infinities to 1 and 0), the default when no number is stored, and always lies in [0, 1] |
| TranslatorSettings.SavedTextFields | hooks/useRealtimeTranslator.ts:116 | the saved object holds every text setting under its name |
| TranslatorSettings.Save | hooks/useRealtimeTranslator.ts:116 | the persisted object has exactly the eleven settings keys, with both volumes written as finite numbers |
| TranslatorSettings.DefaultsStable | hooks/useRealtimeTranslator.ts:65-77 | the defaults are what an empty store loads and survive a save and load; read-aloud starts off, captions and ducking on, both volumes in [0, 1] |
| TranslatorSettings.SavedOtherFields | hooks/useRealtimeTranslator.ts:116 | the saved object holds every switch and volume under its name |
| TranslatorSettings.SaveLoadRoundTrip | hooks/useRealtimeTranslator.ts:83-120 | saved settings with an in-range volume load back unchanged |
| TranslatorSettings.LoadSaveLoadStable | hooks/useRealtimeTranslator.ts:83-120 | loading, saving and loading again gives the first load |
| Ducking.ApplyDucking | hooks/useRealtimeTranslator.ts:144-168 | a no-op without a speaker, with ducking off, or when already in the asked-for state; ducking sets the clamped ducked volume and captures the current volume (1 when unknown) only when none is captured; un-ducking restores `clamp01(captured ?? 1)` and keeps the capture |
| Ducking.SyncWithSettings | hooks/useRealtimeTranslator.ts:187-196 | without a speaker nothing happens, and nothing happens with ducking off unless the previous settings had read-aloud and ducking both on (then their cleanup runs); with a speaker the call ends up ducked exactly while read-aloud and ducking are both on; turning ducking or read-aloud off while ducked restores the captured volume, and a new ducked volume while ducked is applied after that restore; the captured volume is kept |
| Ducking.DuckingOffRestores | hooks/useRealtimeTranslator.ts:187-196 | turning read-aloud ducking on ducks the call to the ducked volume, and then turning ducking off hands it back at its volume from before |
| Ducking.DuckedVolumeChangeApplies | hooks/useRealtimeTranslator.ts:187-196 | changing the ducked volume while ducked restores the call and ducks it again to the new volume |
| Ducking.DuckRestoreRoundTrip | hooks/useRealtimeTranslator.ts:151-165 | a duck followed by an un-duck hands the call back at its clamped original volume |
| Ducking.ApplyDuckingIdempotent | hooks/useRealtimeTranslator.ts:151-165 | ducking twice, or un-ducking twice, does nothing the second time |
| Ducking.RestoreUsesFirstVolume | hooks/useRealtimeTranslator.ts:154-164 | a later duck cycle restores the volume captured in the first cycle |
| ReadAloud.Ready | hooks/useRealtimeTranslator.ts:267-271 | `speakNext` passes its guards only with read-aloud on, the `local_tts` engine, and a synthesiser present with nothing speaking or pending, and always then |
| ReadAloud.SpeakNext | hooks/useRealtimeTranslator.ts:267-283 | nothing happens unless read-aloud is on with `local_tts`, synthesis exists and is idle, and the queue is non-empty; then the head is dequeued, and spoken exactly when it is non-empty, in the target language at `clamp01(readAloudVolume)`; the utterance's start ducks the call (to the clamped ducked volume when it was not ducked), and nothing else changes the call |
| ReadAloud.Enqueue | hooks/useRealtimeTranslator.ts:226-229 | the text joins the end of the queue, and the head is taken when the synthesiser is ready; into an empty queue, a non-empty text is spoken at once |
| ReadAloud.Drain | hooks/useRealtimeTranslator.ts:267-283 | the `onend` chain speaks at most the queue, leaves a suffix of it, and, once anything was spoken with a speaker and ducking on, leaves the call ducked; nothing spoken leaves the ducking state as it was |
| ReadAloud.DrainSpeaksInOrder | hooks/useRealtimeTranslator.ts:274-281 | a queue with no blank entries is spoken in full, in FIFO order |
| ReadAloud.Stop | hooks/useRealtimeTranslator.ts:285-291 | the queue is emptied and the call is not left ducked; a call not ducked is left alone |
| ReadAloud.StopThenSilent | hooks/useRealtimeTranslator.ts:293-296 | with read-aloud off, stopping leaves nothing to speak and nothing is ever spoken |
| Sorting.Insert | hooks/useRealtimeTranslator.ts:110 | inserting into a sorted sequence keeps it sorted and adds exactly the element |
| CaptionWindow.Put | hooks/useRealtimeTranslator.ts:213-224 | the new item is present; every item is the new one or an old one; old items with other ids stay; the count grows by at most one |
| CaptionWindow.PutKeepsDistinct | hooks/useRealtimeTranslator.ts:214-224 | the caption map never holds two entries for one `segment_id` |
| CaptionWindow.PutFreshAppends | hooks/useRealtimeTranslator.ts:214-224 | a new id is appended at the end (insertion order) |
| CaptionWindow.PutThenLookup | hooks/useRealtimeTranslator.ts:214-224 | after a put, its id maps to the new item and every other id to what it held |
| CaptionWindow.SortByStart | hooks/useRealtimeTranslator.ts:110 | a stable sort by `start_ms`: sorted, a permutation of the captions, and captions with equal starts keep their map order |
| CaptionWindow.InsertStable | hooks/useRealtimeTranslator.ts:110 | inserting a caption at its sorted position puts it before every caption with its start already there |
| CaptionWindow.StableSortUnique | hooks/useRealtimeTranslator.ts:110 | two sorted orders that keep the same order among equal starts are the same sequence, so the stable sort is the one the hook produces |
| CaptionWindow.Window | hooks/useRealtimeTranslator.ts:109-112 | the window is the last `min(4, n)` captions of the stable sort: sorted by start, drawn from the captions, and every caption left out starts no later than any caption shown |
| CaptionWindow.SuffixShowsLatest | hooks/useRealtimeTranslator.ts:111 | a suffix of a sorted sequence is sorted, is drawn from it, and starts no earlier than what it leaves out |
| LivePath.CacheKey | hooks/useRealtimeTranslator.ts:211 | the key `segment_id:targetLang` begins with the segment id |
| LivePath.CacheKeyInjective | hooks/useRealtimeTranslator.ts:211 | for one target language, distinct segments have distinct cache keys |
| LivePath.Translated | hooks/useRealtimeTranslator.ts:247-258 | a failed request or an empty or non-string answer gives the original text; a non-empty answer is used as is |
| LivePath.ApplyCaption | hooks/useRealtimeTranslator.ts:213-230 | the caption is put under its segment id; the text is queued and spoken only for a final segment with read-aloud on and `local_tts`, and the spoken utterance's ducking is recorded; otherwise the queue and the call are left alone |
| LivePath.HandlerSettings | hooks/useRealtimeTranslator.ts:198-265 | the handler sees the current settings exactly when the call, captions, read-aloud or target language changed since its subscription, and otherwise keeps the settings it was subscribed with |
| LivePath.OnCustomEvent | hooks/useRealtimeTranslator.ts:201-259 | under the settings the handler holds: a non-segment, blank text, or captions and read-aloud both off change nothing; cached entries stay non-empty; the queue never gains a blank entry |
| LivePath.AcceptedShowsCaption | hooks/useRealtimeTranslator.ts:202-236 | an accepted event leaves its caption showing the cached or translated text, and keeps other captions |
| LivePath.CacheOnlyOnSuccess | hooks/useRealtimeTranslator.ts:232-258 | the cache changes only on a miss answered by the route, under this segment's key, to the text shown; a failure shows the original text without caching it |
| LivePath.CacheHitIgnoresReply | hooks/useRealtimeTranslator.ts:232-236 | on a cache hit the reply makes no difference |
| LivePath.RedeliveryUsesCache | hooks/useRealtimeTranslator.ts:232-258 | after an answered request, a redelivery of the same segment hits the cache and leaves it unchanged |
| LivePath.NoReadAloudNoQueue | hooks/useRealtimeTranslator.ts:226-229 | with read-aloud off nothing is queued or spoken and the call's volume is not touched |
| LivePath.FinalEventDucks | hooks/useRealtimeTranslator.ts:226-280 | a final segment read aloud by `local_tts` from an idle synthesiser and an empty queue is spoken at once and ducks the call, to the clamped ducked volume when it was not ducked |
| LivePath.EngineSwitchAloneKeepsHandlerStale | hooks/useRealtimeTranslator.ts:198-265 | switching only the engine from `gemini_live` to `local_tts` leaves the subscribed handler on `gemini_live`: a final segment is neither queued nor spoken and the call is not ducked |
| LivePath.ResubscribedSeesCurrent | hooks/useRealtimeTranslator.ts:265 | a re-subscribed handler sees the current engine, ducking switch and both volumes |
| BrowserStt.SpeakerOf | hooks/useRealtimeTranslator.ts:378 | the local user id, or `unknown` when there is none; never empty |
| BrowserStt.UtteranceId | hooks/useRealtimeTranslator.ts:382 | the id `seg_<speaker>_<now>` starts with `seg_` |
| BrowserStt.UtteranceIdInjective | hooks/useRealtimeTranslator.ts:381-383 | two utterances of one speaker get the same id exactly when first heard at the same time |
| BrowserStt.OnText | hooks/useRealtimeTranslator.ts:375-417 | empty text changes nothing; every segment ends at `now - base`; a final is always sent and resets the utterance and the throttle; an interim opens or keeps the utterance and is sent exactly when 800 ms have passed since the last interim sent |
| BrowserStt.SentSegment | hooks/useRealtimeTranslator.ts:390-402 | the segment sent carries the text, finality and confidence of the result, the call, track `mic`, the speaker, the source language, and the active utterance's id (a new one when none was active) |
| BrowserStt.OnResult | hooks/useRealtimeTranslator.ts:368-418 | a blank transcript is ignored; any segment sent carries the trimmed non-blank transcript; a non-blank final is always sent |
| BrowserStt.Run | hooks/useRealtimeTranslator.ts:368-418 | over a run of results, at most one segment per result is sent, each for the call on the `mic` track in the source language, and a non-blank final result last leaves no utterance open |
| BrowserStt.InterimStep | hooks/useRealtimeTranslator.ts:404-410 | one interim: when sent, the throttle moves to now and at least 800 ms had passed; when dropped, the throttle is unchanged |
| BrowserStt.InterimsBounds | hooks/useRealtimeTranslator.ts:404-413 | over interim results, the first segment sent is at least 800 ms after the last one sent before, and the state remembers when the last one was sent |
| BrowserStt.InterimsSpaced | hooks/useRealtimeTranslator.ts:404-410 | over interim results, any two segments sent are at least 800 ms apart |
| BrowserStt.OneUtteranceOneId | hooks/useRealtimeTranslator.ts:381-386 | while an utterance is open, every interim sent carries its id, which stays active |
| BrowserStt.EmittedIsPostable | hooks/useRealtimeTranslator.ts:390-402 | every segment sent from a named call passes the segment route's validation, so it is also persisted |
| BrowserStt.SentIsPostable | hooks/useRealtimeTranslator.ts:390-402 | for trimmed non-blank text, the segment sent from a named call passes the segment route's validation |
| PollPath.LoadCursor | hooks/useRealtimeTranslator.ts:613-617 | the stored cursor when its start is a finite number, with its stored string `after_segment_id`, else `{after_start_ms: -1}` |
| PollPath.SaveCursor | hooks/useRealtimeTranslator.ts:619-625 | the stored object holds the start as a finite number, and the id key exactly when the cursor has an id, with nothing else |
| PollPath.SaveLoadCursor | hooks/useRealtimeTranslator.ts:613-625 | a saved cursor loads back unchanged |
| PollPath.Request | hooks/useRealtimeTranslator.ts:644-648 | the tick asks for the room, the cursor's start, a truthy `after_segment_id` and limit 25 |
| PollPath.RequestDecodes | hooks/useRealtimeTranslator.ts:644-648 | the poll route reads the tick's request back as the cursor's store query |
| PollPath.CursorAlwaysFilters | hooks/useRealtimeTranslator.ts:646-648 | every poll filters by the cursor and caps the page at 25 |
| PollPath.Advance | hooks/useRealtimeTranslator.ts:702 | as written, the cursor takes the item's id, and its start unless that is 0, when it keeps the old start |
| PollPath.AdvanceRefetchesStartZero | hooks/useRealtimeTranslator.ts:702 | as written, a final item at start 0 after the initial cursor is selected again by the next poll |
| PollPath.AdvanceCorrected | hooks/useRealtimeTranslator.ts:702 | the corrected cursor is the item's own `(start_ms, segment_id)` |
| PollPath.AdvanceCorrectedMovesPast | hooks/useRealtimeTranslator.ts:702 | with the corrected cursor the item is never selected again, and a row is selected exactly when it is a final row of the room after the item in page order |
| PollPath.TranslatedText | hooks/useRealtimeTranslator.ts:664-676 | a cached truthy translation is used; otherwise the reply's non-empty text or the item's text, so it is never empty |
| PollPath.FallbackDucking | hooks/useRealtimeTranslator.ts:626-637 | with a speaker and ducking on, one utterance ducks the call and then restores it, so it ends not ducked; a call already ducked is only restored; otherwise nothing happens |
| PollPath.ItemCaption | hooks/useRealtimeTranslator.ts:679-689 | the polled caption has the item's id, bounds and translated text, is final, and names the item's speaker or `unknown`, never an empty speaker |
| PollPath.ProcessItem | hooks/useRealtimeTranslator.ts:626-704 | an item without an id or text changes nothing; otherwise the text is cached even when it is the fallback, shown when captions are on, the notice is shown, and with speech synthesis it is spoken at the clamped volume and the call is ducked and un-ducked around it; the cursor moves by `Advance` as written, or by `AdvanceCorrected` |
| PollPath.ProcessItems | hooks/useRealtimeTranslator.ts:657-704 | over a page, the notice is still shown at most once and cached entries stay non-empty |
| PollPath.ItemCursor | hooks/useRealtimeTranslator.ts:659-703 | an item moves the cursor, by the rule's step, exactly when it is handled |
| PollPath.CursorOnLastProcessed | hooks/useRealtimeTranslator.ts:657-704 | after a page the cursor names the last item handled, or stays where it was when none was handled; its start is that item's with the corrected step, and as written it is the start of the last handled item not starting at 0 |
| PollPath.PageCursor | hooks/useRealtimeTranslator.ts:657-704 | a page moves the loop's cursor exactly as the step applied to each handled item in turn |
| PollPath.CursorAfterLast | hooks/useRealtimeTranslator.ts:659-703 | the cursor steps over a page land on the last handled item, and as written on the start of the last handled item not starting at 0 |
| PollPath.NoItemRefetched | hooks/useRealtimeTranslator.ts:702-703 | for a page in page order, no handled item is selected by the next poll with the corrected step; as written this holds when the last handled item does not start at 0 |
| PollPath.Polling | hooks/useRealtimeTranslator.ts:604-607 | the poll loop runs exactly with read-aloud on and the `gemini_live` engine |
| PollPath.PollingExcludesLocalSpeech | hooks/useRealtimeTranslator.ts:604-607 | the poll loop and local `speakNext` never both run: under polling settings `speakNext` changes nothing, and with read-aloud off neither runs |
| PollPath.Tick | hooks/useRealtimeTranslator.ts:641-708 | nothing happens unless read-aloud uses `gemini_live` and the poll answered a non-empty page; the notice stays once-only and the cache stays filled |
| PollPath.TickRefetchesStartZero | hooks/useRealtimeTranslator.ts:702 | as written, a tick from the initial cursor over one final item at start 0 leaves that item selected by the next poll; with the corrected step it is not |
| PollPath.PageKeepsUnducked | hooks/useRealtimeTranslator.ts:626-637 | with a speaker, ducking and speech synthesis, a call not ducked stays not ducked over a page |
| PollPath.PageUnducks | hooks/useRealtimeTranslator.ts:626-637 | with a speaker, ducking and speech synthesis, a page with a handled item leaves the call not ducked |
| PollPath.PageVolumesGrow | hooks/useRealtimeTranslator.ts:626-637 | a page only appends to the volumes set on the call |
| PollPath.PageFirstVolume | hooks/useRealtimeTranslator.ts:626-637 | from a ducked call, the first volume a page sets is the one captured before the duck |
| PollPath.FallbackUndoesReadAloudDuck | hooks/useRealtimeTranslator.ts:626-637 | while read-aloud keeps the call ducked in the `gemini_live` mode, a tick that speaks a handled item leaves the call not ducked, first restored to its volume from before the duck |
| PollPath.LocalSpeechReducksAfterFallback | hooks/useRealtimeTranslator.ts:267-283 | after a `gemini_live` tick's fallback un-ducked the call, a custom-event handler re-subscribed under settings with read-aloud on `local_tts` (a new call, or a captions, read-aloud or target-language change) ducks it again, to the clamped ducked volume, as the next final segment starts being spoken |

## Left out

- The browser's own streaming socket to the speech provider (hooks/useRealtimeTranslator.ts:455-602) is not part of this model. It is socket, recorder and timer I/O, and it uses a hook the file does not import.
- The events and token routes are not part of this model. They are stream plumbing; the only decision they make is `addSseController`, which is modelled.
- The upstream audio pull loop (`pump`) is reduced to the pull state: pulling, or aborted on close. The chunks it forwards are not modelled.
- Concurrency and promise interleaving are not modelled: every handler runs to completion before the next. Examples are a late interim upsert overwriting a final, and the poll effect's `isCancelled` flag and `clearInterval`. The custom-event unsubscribe is not modelled either; the ducking effect's cleanup is.
- Floating point is not modelled: numbers are exact reals, `Math.round` is `floor(x + 1/2)`, and volumes are clamped reals.
- The text of toasts and notices is not modelled: the poll path only counts the fallback notice, and error notices keep the message as a string parameter.
- Device enumeration, `setSinkId`, the audio element's play and pause listeners, and the utterance's rate and pitch are not modelled. They choose outputs and sounds rather than captions.
- `getDeepgramSession` is a plain lookup and is not modelled.
- Failures of `broadcastSse` for a single listener are ignored by the code and not modelled.
- The recognition lifecycle (`onerror`, `onend` restart, start failure, cleanup) is not modelled; only `onresult` is.
- TranslatorSettings.Load: a stored field of the wrong type is ignored and the default kept. The code's object spread would copy any value, so only well-typed stored fields are modelled. A stored `duckedCallVolume` of `1e999` also reads as the default, while the code keeps Infinity, which `clamp01` turns into 1 where it is used. A NaN volume cannot come out of `JSON.parse` and loads as the default.
- LivePath.Translated: a truthy non-string `data.text` counts as no answer (the original text is shown). The code would show that value.
- PollPath.TranslatedText: a truthy non-string `text` in the reply counts as no answer. The code would show `String` of it.
- PollPath.LoadCursor: a stored non-finite `after_start_ms` (`1e999`) reads as the initial cursor. The code would keep Infinity, and the poll route would then drop the filter. A truthy stored `after_segment_id` that is not a string is read as absent, while the code would send its `String` form.
- LivePath.OnCustomEvent: it takes the settings the handler holds as a parameter, which `LivePath.HandlerSettings` computes from the settings of the last subscription; the model does not keep that subscription in `LiveState`.
- The `details` field of the 500 answers of the segment, poll, session and ingest routes (`e.message`, or `unknown`) is not modelled: the error body carries only the `error` code, because the message text comes from exceptions thrown outside the model.
- ReadAloud.SpeakNext: the utterance's `onstart` is taken to run as the utterance is started, before any later event.
- PollPath.FallbackDucking: each utterance is taken to start and end before the next one starts, as the synthesiser's queue plays them. The timing of `onstart` and `onend` against later ticks is not modelled.
- PollPath.RequestDecodes: it requires that `Number(String(x))` gives back `x`. That holds for finite numbers, but this model does not define printing of numbers.
- BrowserStt.Run: it works on transcripts that are already trimmed, as `OnResult` does first. The spacing and id lemmas are stated over it.
- TranscriptStore.PageCap: a fractional limit caps the page at its floor, and only a NaN limit lifts the cap. The poll route forwards any finite limit, so `?limit=2.5` reaches the store; the floor stands for what the database does with such a limit.
- The order of rows with equal `start_ms` and equal `segment_id` cannot arise (ids are keys). Text order is taken to be code-point order.

## Findings

| source | as written | input that shows it | evidently intended | confidence | as-written member | corrected member |
|---|---|---|---|---|---|---|
| hooks/useRealtimeTranslator.ts:702 | `after_start_ms: Number(item.start_ms \|\| cursor.after_start_ms)` keeps the old start when the item starts at 0 | a room polled from the initial cursor `{after_start_ms: -1}` whose only final segment has `start_ms` 0: the cursor becomes `(-1, id)`, the next query `start_ms > -1` selects the segment again, and it is shown and spoken on every tick | the cursor takes the item's own start, so the next query begins strictly after it | not executed | PollPath.Advance, PollPath.AdvanceRefetchesStartZero, PollPath.TickRefetchesStartZero | PollPath.AdvanceCorrected, PollPath.AdvanceCorrectedMovesPast, PollPath.NoItemRefetched (with the `Corrected` rule of PollPath.ProcessItem) |

=== FILE: browser_stt.dfy ===
/**
 * Browser speech recognition as a caption source: each recognition result
 * becomes an `stt.segment` for the current utterance, interim revisions
 * throttled to one per 800 ms, and the utterance closed by a final result.
 * Every emitted segment is both broadcast to the call and posted to the
 * segment route.
 */
module BrowserStt {
  import opened Wrappers
  import opened Js
  import TS = TranscriptStore
  import SegmentRoute

  /** The minimum spacing of two interim segments, in milliseconds. */
  const MinIntervalMs: int := 800

  /** `activeSegmentIdRef`, `activeSegmentStartMsRef` and `lastInterimSentAtRef`. */
  datatype SegState = SegState(activeId: Option<string>, activeStartMs: int, lastInterimSentAt: int)

  const Idle: SegState := SegState(None, 0, 0)

  /**
   * What the handler reads around a result: the call id, the local user id
   * (`""` when there is none), the source language and the session's start
   * time.
   */
  datatype Context = Context(roomId: string, userId: string, sourceLang: string, base: int)

  /** The last recognition result: its raw transcript (`""` when missing), finality, confidence if numeric, and `Date.now()`. */
  datatype SpeechResult = SpeechResult(transcript: string, isFinal: bool, confidence: Option<real>, now: int)

  datatype Emitted = Emitted(state: SegState, segment: Option<TS.Row>)

  function SpeakerOf(ctx: Context): (r: string)
    ensures ctx.userId != "" ==> r == ctx.userId
    ensures r != ""
  {
    if ctx.userId == "" then "unknown" else ctx.userId
  }

  /** The id of an utterance first heard at `now`: `seg_<speaker>_<now>`. */
  function UtteranceId(speaker: string, now: int): (r: string)
    ensures |r| > 4 && r[..4] == "seg_"
  {
    "seg_" + speaker + "_" + IntToString(now)
  }

  /** Utterances of one speaker first heard at different times have different ids. */
  lemma UtteranceIdInjective(speaker: string, a: int, b: int)
    ensures UtteranceId(speaker, a) == UtteranceId(speaker, b) <==> a == b
  {
    if UtteranceId(speaker, a) == UtteranceId(speaker, b) {
      var p := "seg_" + speaker + "_";
      assert UtteranceId(speaker, a) == p + IntToString(a);
      assert UtteranceId(speaker, b) == p + IntToString(b);
      assert IntToString(a) == UtteranceId(speaker, a)[|p|..];
      assert IntToString(b) == UtteranceId(speaker, b)[|p|..];
      IntToStringInjective(a, b);
    }
  }

  /**
   * `recognition.onresult` after its first line has trimmed the transcript
   * to `text`. Blank text is ignored. Otherwise the utterance is opened if
   * none is active, and the segment covers it from its start (or, when that
   * start is 0, from now) to now. An interim within 800 ms of the last sent
   * one is dropped; a final one resets the utterance.
   */
  function OnText(st: SegState, ctx: Context, text: string, res: SpeechResult): (r: Emitted)
    ensures text == "" ==> r == Emitted(st, None)
    ensures r.segment.Some? ==> r.segment.value.endMs == (res.now - ctx.base) as real
    ensures text != "" && res.isFinal ==> r.state == Idle && r.segment.Some?
    ensures text != "" && !res.isFinal ==>
      && r.state.activeId.Some?
      && (r.segment.Some? <==> res.now - st.lastInterimSentAt >= MinIntervalMs)
      && r.state.lastInterimSentAt == (if r.segment.Some? then res.now else st.lastInterimSentAt)
      && (st.activeId.Some? ==> r.state.activeId == st.activeId && r.state.activeStartMs == st.activeStartMs)
  {
    if text == "" then Emitted(st, None)
    else
      var speaker := SpeakerOf(ctx);
      var begun := if st.activeId.None? then SegState(Some(UtteranceId(speaker, res.now)), res.now - ctx.base, st.lastInterimSentAt) else st;
      var startMs := if begun.activeStartMs != 0 then begun.activeStartMs else res.now - ctx.base;
      var seg := TS.Row(ctx.roomId, "mic", speaker, begun.activeId.value, startMs as real, (res.now - ctx.base) as real,
                        res.isFinal, res.confidence, ctx.sourceLang, text);
      if !res.isFinal then
        if res.now - begun.lastInterimSentAt < MinIntervalMs then Emitted(begun, None)
        else Emitted(begun.(lastInterimSentAt := res.now), Some(seg))
      else Emitted(Idle, Some(seg))
  }

  /**
   * The segment sent: the trimmed text, the result's finality and
   * confidence, the call, the `mic` track, the speaker, the source language,
   * and the active utterance's id (a new one when none was active).
   */
  lemma SentSegment(st: SegState, ctx: Context, text: string, res: SpeechResult)
    ensures var r := OnText(st, ctx, text, res);
            r.segment.Some? ==>
              var seg := r.segment.value;
              && seg.text == text && seg.isFinal == res.isFinal
              && seg.roomId == ctx.roomId && seg.trackId == "mic" && seg.speakerId == SpeakerOf(ctx)
              && seg.sourceLang == ctx.sourceLang && seg.confidence == res.confidence
              && seg.segmentId == (if st.activeId.Some? then st.activeId.value else UtteranceId(SpeakerOf(ctx), res.now))
  {
  }

  /** `recognition.onresult`: a blank transcript is ignored; any segment sent carries the trimmed text of a non-blank one. */
  function OnResult(st: SegState, ctx: Context, res: SpeechResult): (r: Emitted)
    ensures !NonBlank(res.transcript) ==> r == Emitted(st, None)
    ensures r.segment.Some? ==> r.segment.value.text == Trim(res.transcript) && NonBlank(res.transcript)
    ensures NonBlank(res.transcript) && res.isFinal ==> r.state == Idle && r.segment.Some?
  {
    NonBlankIff(res.transcript);
    SentSegment(st, ctx, Trim(res.transcript), res);
    OnText(st, ctx, Trim(res.transcript), res)
  }

  /**
   * Results handled one after another, each transcript already trimmed as
   * `OnResult` does first: the final state and the segments sent, in order.
   */
  function Run(st: SegState, ctx: Context, rs: seq<SpeechResult>): (r: (SegState, seq<TS.Row>))
    ensures |r.1| <= |rs|
    ensures forall i :: 0 <= i < |r.1| ==>
      r.1[i].roomId == ctx.roomId && r.1[i].trackId == "mic" && r.1[i].sourceLang == ctx.sourceLang
    ensures rs != [] && rs[|rs| - 1].isFinal && rs[|rs| - 1].transcript != "" ==> r.0 == Idle
    ensures rs == [] ==> r == (st, [])
    decreases |rs|
  {
    if |rs| == 0 then (st, [])
    else
      var step := OnText(st, ctx, rs[0].transcript, rs[0]);
      SentSegment(st, ctx, rs[0].transcript, rs[0]);
      var rest := Run(step.state, ctx, rs[1..]);
      assert |rs| == 1 ==> rest == (step.state, []);
      assert |rs| > 1 ==> rs[1..][|rs[1..]| - 1] == rs[|rs| - 1];
      (rest.0, (if step.segment.Some? then [step.segment.value] else []) + rest.1)
  }

  predicate AllInterim(rs: seq<SpeechResult>) {
    forall i :: 0 <= i < |rs| ==> !rs[i].isFinal
  }

  /** Any two segments, in the order sent, are at least 800 ms apart. */
  predicate Spaced(segs: seq<TS.Row>) {
    forall i, j :: 0 <= i < j < |segs| ==> segs[j].endMs - segs[i].endMs >= MinIntervalMs as real
  }

  /** One interim result, as the spacing proof needs it: what is sent, and when the last send is. */
  lemma InterimStep(st: SegState, ctx: Context, res: SpeechResult)
    requires !res.isFinal
    ensures var r := OnText(st, ctx, res.transcript, res);
            && (r.segment.None? ==> r.state.lastInterimSentAt == st.lastInterimSentAt)
            && (r.segment.Some? ==>
                 && r.state.lastInterimSentAt == res.now
                 && res.now - st.lastInterimSentAt >= MinIntervalMs
                 && r.segment.value.endMs == (res.now - ctx.base) as real)
  {
  }

  /** `Run` takes one step and continues from the state it leaves. */
  lemma RunCons(st: SegState, ctx: Context, rs: seq<SpeechResult>)
    requires |rs| > 0
    ensures var step := OnText(st, ctx, rs[0].transcript, rs[0]);
            var rest := Run(step.state, ctx, rs[1..]);
            && Run(st, ctx, rs).0 == rest.0
            && Run(st, ctx, rs).1 == (if step.segment.Some? then [step.segment.value] else []) + rest.1
  {
  }

  /**
   * Prepending a segment sent at `now` to a spaced run whose first segment
   * comes at least 800 ms later keeps it spaced, and the run then starts at
   * `now`.
   */
  lemma ConsSpaced(seg: TS.Row, rest: seq<TS.Row>, now: int, base: int)
    requires seg.endMs == (now - base) as real
    requires Spaced(rest)
    requires |rest| > 0 ==> rest[0].endMs >= (now + MinIntervalMs - base) as real
    ensures Spaced([seg] + rest)
    ensures ([seg] + rest)[0].endMs == (now - base) as real
  {
    var segs := [seg] + rest;
    forall i, j | 0 <= i < j < |segs|
      ensures segs[j].endMs - segs[i].endMs >= MinIntervalMs as real
    {
      assert segs[j] == rest[j - 1];
      if i > 0 {
        assert segs[i] == rest[i - 1];
      } else {
        assert (now + MinIntervalMs - base) as real == (now - base) as real + MinIntervalMs as real;
        if j > 1 {
          assert rest[j - 1].endMs - rest[0].endMs >= MinIntervalMs as real;
        }
      }
    }
  }

  /**
   * Where a run of interim results starts and ends: the first segment sent
   * comes at least 800 ms after the last one sent before, the state
   * remembers the last one sent, and nothing sent leaves that unchanged.
   */
  lemma {:induction false} InterimsBounds(st: SegState, ctx: Context, rs: seq<SpeechResult>)
    requires AllInterim(rs)
    ensures var run := Run(st, ctx, rs);
            && (|run.1| == 0 ==> run.0.lastInterimSentAt == st.lastInterimSentAt)
            && (|run.1| > 0 ==>
                 && run.1[0].endMs >= (st.lastInterimSentAt + MinIntervalMs - ctx.base) as real
                 && run.1[|run.1| - 1].endMs == (run.0.lastInterimSentAt - ctx.base) as real)
    decreases |rs|
  {
    if |rs| > 0 {
      var step := OnText(st, ctx, rs[0].transcript, rs[0]);
      AllInterimTail(rs);
      RunCons(st, ctx, rs);
      InterimStep(st, ctx, rs[0]);
      InterimsBounds(step.state, ctx, rs[1..]);
      var rest := Run(step.state, ctx, rs[1..]);
      if step.segment.None? {
        assert [] + rest.1 == rest.1;
      } else {
        var segs := [step.segment.value] + rest.1;
        assert segs[0] == step.segment.value;
        if |rest.1| > 0 {
          assert segs[|segs| - 1] == rest.1[|rest.1| - 1];
        }
      }
    }
  }

  lemma AllInterimTail(rs: seq<SpeechResult>)
    requires AllInterim(rs) && |rs| > 0
    ensures !rs[0].isFinal && AllInterim(rs[1..])
  {
    forall i | 0 <= i < |rs[1..]| ensures !rs[1..][i].isFinal {
      assert rs[1..][i] == rs[i + 1];
    }
  }

  /** Interim revisions are sent at most once per 800 ms, whatever the clock does. */
  lemma {:induction false} InterimsSpaced(st: SegState, ctx: Context, rs: seq<SpeechResult>)
    requires AllInterim(rs)
    ensures Spaced(Run(st, ctx, rs).1)
    decreases |rs|
  {
    if |rs| > 0 {
      var step := OnText(st, ctx, rs[0].transcript, rs[0]);
      AllInterimTail(rs);
      RunCons(st, ctx, rs);
      InterimStep(st, ctx, rs[0]);
      InterimsSpaced(step.state, ctx, rs[1..]);
      var rest := Run(step.state, ctx, rs[1..]);
      if step.segment.None? {
        assert [] + rest.1 == rest.1;
      } else {
        InterimsBounds(step.state, ctx, rs[1..]);
        ConsSpaced(step.segment.value, rest.1, rs[0].now, ctx.base);
      }
    }
  }

  /**
   * All segments sent while an utterance stays open carry its id: interim
   * revisions of one utterance overwrite each other in the store and on
   * screen.
   */
  lemma {:induction false} OneUtteranceOneId(st: SegState, ctx: Context, rs: seq<SpeechResult>)
    requires AllInterim(rs)
    requires st.activeId.Some?
    ensures Run(st, ctx, rs).0.activeId == st.activeId
    ensures forall i :: 0 <= i < |Run(st, ctx, rs).1| ==> Run(st, ctx, rs).1[i].segmentId == st.activeId.value
    decreases |rs|
  {
    if |rs| > 0 {
      var step := OnText(st, ctx, rs[0].transcript, rs[0]);
      AllInterimTail(rs);
      SentSegment(st, ctx, rs[0].transcript, rs[0]);
      OneUtteranceOneId(step.state, ctx, rs[1..]);
      var rest := Run(step.state, ctx, rs[1..]);
      var segs := Run(st, ctx, rs).1;
      assert segs == (if step.segment.Some? then [step.segment.value] else []) + rest.1;
      forall i | 0 <= i < |segs| ensures segs[i].segmentId == st.activeId.value {
        if step.segment.Some? && i > 0 {
          assert segs[i] == rest.1[i - 1];
        } else if step.segment.None? {
          assert segs[i] == rest.1[i];
        }
      }
    }
  }

  /**
   * A segment from a named call with a non-blank source language passes the
   * segment route's validation, so every result sent is also persisted,
   * unless the local user id is blank but present. (The active id is always
   * one `UtteranceId` made, so it is never blank.)
   */
  lemma EmittedIsPostable(st: SegState, ctx: Context, res: SpeechResult)
    requires NonBlank(ctx.roomId) && NonBlank(ctx.sourceLang)
    requires ctx.userId == "" || NonBlank(ctx.userId)
    requires st.activeId.Some? ==> NonBlank(st.activeId.value)
    ensures OnResult(st, ctx, res).segment.Some? ==> SegmentRoute.Postable(OnResult(st, ctx, res).segment.value)
  {
    var text := Trim(res.transcript);
    if OnResult(st, ctx, res).segment.Some? {
      TrimKeepsNonBlank(res.transcript);
      SentIsPostable(st, ctx, text, res);
    }
  }

  /** `EmittedIsPostable` for text already trimmed and known to be non-blank. */
  lemma SentIsPostable(st: SegState, ctx: Context, text: string, res: SpeechResult)
    requires NonBlank(ctx.roomId) && NonBlank(ctx.sourceLang)
    requires ctx.userId == "" || NonBlank(ctx.userId)
    requires st.activeId.Some? ==> NonBlank(st.activeId.value)
    requires NonBlank(text)
    ensures OnText(st, ctx, text, res).segment.Some? ==> SegmentRoute.Postable(OnText(st, ctx, text, res).segment.value)
  {
    var r := OnText(st, ctx, text, res);
    SentSegment(st, ctx, text, res);
    if r.segment.Some? {
      var seg := r.segment.value;
      assert !IsWhitespace(seg.trackId[0]);
      if ctx.userId == "" {
        assert !IsWhitespace(seg.speakerId[0]);
      }
      if st.activeId.None? {
        assert !IsWhitespace(seg.segmentId[0]);
      }
    }
  }
}

=== FILE: caption_window.dfy ===
/**
 * The captions on screen: a record of caption items keyed by segment id, in
 * insertion order, of which the four latest by start time are shown.
 */
module CaptionWindow {
  import opened Wrappers
  import Sorting

  datatype CaptionItem = CaptionItem(
    segmentId: string,
    speakerId: string,
    startMs: real,
    endMs: real,
    text: string,
    isFinal: bool)

  /**
   * `captionsById` as `Object.values` lists it: one item per id, in
   * insertion order. JavaScript lists integer-like keys such as `"42"` first,
   * in ascending numeric order; segment ids here are taken not to be
   * integer-like. The order only shows for captions with equal start times,
   * which the stable sort keeps in this order.
   */
  type Captions = seq<CaptionItem>

  function IdOf(c: CaptionItem): string {
    c.segmentId
  }

  predicate IdsDistinct(c: Captions) {
    Sorting.KeysDistinct(c, IdOf)
  }

  /**
   * `{ ...prev, [item.segment_id]: item }`: an item with a known id replaces
   * the old one in place; a new id is appended.
   */
  function Put(c: Captions, item: CaptionItem): (r: Captions)
    ensures item in r
    ensures forall x :: x in r ==> x == item || x in c
    ensures forall x :: x in c && x.segmentId != item.segmentId ==> x in r
    ensures |r| == |c| || |r| == |c| + 1
    decreases |c|
  {
    if |c| == 0 then [item]
    else if c[0].segmentId == item.segmentId then
      assert forall x :: x in c[1..] ==> x in c;
      [item] + c[1..]
    else
      assert forall x :: x in c[1..] ==> x in c;
      assert forall x :: x in c ==> x == c[0] || x in c[1..];
      [c[0]] + Put(c[1..], item)
  }

  lemma TailDistinct(c: Captions)
    requires IdsDistinct(c) && |c| > 0
    ensures IdsDistinct(c[1..])
  {
    forall i, j | 0 <= i < j < |c[1..]|
      ensures IdOf(c[1..][i]) != IdOf(c[1..][j])
    {
      assert c[1..][i] == c[i + 1] && c[1..][j] == c[j + 1];
    }
  }

  /** A put keeps ids distinct. */
  lemma {:induction false} PutKeepsDistinct(c: Captions, item: CaptionItem)
    requires IdsDistinct(c)
    ensures IdsDistinct(Put(c, item))
    decreases |c|
  {
    if |c| > 0 {
      if c[0].segmentId == item.segmentId {
        var r := Put(c, item);
        forall i, j | 0 <= i < j < |r|
          ensures IdOf(r[i]) != IdOf(r[j])
        {
          assert r[j] == c[j];
          if i > 0 {
            assert r[i] == c[i];
          }
        }
      } else {
        TailDistinct(c);
        PutKeepsDistinct(c[1..], item);
        var rest := Put(c[1..], item);
        var r := [c[0]] + rest;
        forall i, j | 0 <= i < j < |r|
          ensures IdOf(r[i]) != IdOf(r[j])
        {
          if i == 0 {
            var y := rest[j - 1];
            assert y in rest;
            if y != item {
              assert y in c[1..];
              var k :| 0 <= k < |c[1..]| && c[1..][k] == y;
              assert c[k + 1] == y;
            }
          } else {
            assert r[i] == rest[i - 1] && r[j] == rest[j - 1];
          }
        }
      }
    }
  }

  /** A put under a new id appends. */
  lemma {:induction false} PutFreshAppends(c: Captions, item: CaptionItem)
    requires forall i :: 0 <= i < |c| ==> c[i].segmentId != item.segmentId
    ensures Put(c, item) == c + [item]
    decreases |c|
  {
    if |c| > 0 {
      assert c[0].segmentId != item.segmentId;
      PutFreshAppends(c[1..], item);
      assert [c[0]] + (c[1..] + [item]) == c + [item];
    }
  }

  /** The item under an id, if any. */
  function Lookup(c: Captions, id: string): (r: Option<CaptionItem>)
    ensures r.Some? ==> r.value in c && r.value.segmentId == id
    ensures r.None? ==> forall x :: x in c ==> x.segmentId != id
    decreases |c|
  {
    if |c| == 0 then None
    else if c[0].segmentId == id then Some(c[0])
    else
      assert forall x :: x in c[1..] ==> x in c;
      Lookup(c[1..], id)
  }

  /** After a put, the id holds the new item, and every other id what it held before. */
  lemma PutThenLookup(c: Captions, item: CaptionItem, id: string)
    requires IdsDistinct(c)
    ensures Lookup(Put(c, item), item.segmentId) == Some(item)
    ensures id != item.segmentId ==> Lookup(Put(c, item), id) == Lookup(c, id)
  {
    var r := Put(c, item);
    PutKeepsDistinct(c, item);
    UniqueLookup(r, item);
    if id != item.segmentId {
      match Lookup(c, id)
      case Some(x) =>
        assert x in r;
        UniqueLookup(r, x);
      case None =>
    }
  }

  /** With distinct ids, looking up a member's id finds that member. */
  lemma {:induction false} UniqueLookup(c: Captions, x: CaptionItem)
    requires IdsDistinct(c) && x in c
    ensures Lookup(c, x.segmentId) == Some(x)
    decreases |c|
  {
    if c[0] != x {
      var k :| 0 <= k < |c| && c[k] == x;
      if c[0].segmentId == x.segmentId {
        assert IdOf(c[0]) == IdOf(c[k]);
      } else {
        assert c[1..][k - 1] == x;
        TailDistinct(c);
        UniqueLookup(c[1..], x);
      }
    }
  }

  /** The comparator `a.start_ms - b.start_ms`, as a preorder. */
  predicate StartLe(a: CaptionItem, b: CaptionItem) {
    a.startMs <= b.startMs
  }

  lemma StartLeTotalPreorder()
    ensures Sorting.TotalPreorder(StartLe)
  {
  }

  /** The captions that start at `t`, in their order: what a stable sort must keep in place. */
  function WithStart(c: Captions, t: real): (r: Captions)
    ensures |r| <= |c|
    decreases |c|
  {
    if |c| == 0 then []
    else (if c[0].startMs == t then [c[0]] else []) + WithStart(c[1..], t)
  }

  lemma {:induction false} WithStartAppend(a: Captions, b: Captions, t: real)
    ensures WithStart(a + b, t) == WithStart(a, t) + WithStart(b, t)
    decreases |a|
  {
    if |a| == 0 {
      assert a + b == b;
    } else {
      var head := if a[0].startMs == t then [a[0]] else [];
      assert (a + b)[0] == a[0];
      assert (a + b)[1..] == a[1..] + b;
      WithStartAppend(a[1..], b, t);
      calc {
        WithStart(a + b, t);
        head + WithStart(a[1..] + b, t);
        head + (WithStart(a[1..], t) + WithStart(b, t));
        (head + WithStart(a[1..], t)) + WithStart(b, t);
      }
    }
  }

  lemma {:induction false} WithStartNone(a: Captions, t: real)
    requires forall i :: 0 <= i < |a| ==> a[i].startMs != t
    ensures WithStart(a, t) == []
    decreases |a|
  {
    if |a| > 0 {
      WithStartNone(a[1..], t);
    }
  }

  /** An item inserted into a sorted sequence goes before the items that start when it does. */
  lemma InsertStable(s: Captions, x: CaptionItem, t: real)
    requires Sorting.SortedBy(s, StartLe)
    ensures var k := Sorting.Position(s, x, StartLe);
            WithStart(s[..k] + [x] + s[k..], t) == WithStart([x], t) + WithStart(s, t)
  {
    var k := Sorting.Position(s, x, StartLe);
    assert s == s[..k] + s[k..];
    WithStartAppend(s[..k] + [x], s[k..], t);
    WithStartAppend(s[..k], [x], t);
    WithStartAppend(s[..k], s[k..], t);
    if x.startMs == t {
      WithStartNone(s[..k], t);
    } else {
      assert WithStart([x], t) == [] by {
        assert [x][1..] == [];
      }
    }
  }

  /**
   * `sort((a, b) => a.start_ms - b.start_ms)`. The sort is stable, as
   * `Array.prototype.sort` is: items with equal start times keep their
   * order. Inserting from the last item to the first, each before the equal
   * ones already placed, gives exactly that.
   */
  function SortByStart(c: Captions): (r: Captions)
    ensures |r| == |c|
    ensures Sorting.SortedBy(r, StartLe)
    ensures multiset(r) == multiset(c)
    ensures forall t :: WithStart(r, t) == WithStart(c, t)
    decreases |c|
  {
    if |c| == 0 then []
    else
      StartLeTotalPreorder();
      var rest := SortByStart(c[1..]);
      assert c == [c[0]] + c[1..];
      assert forall t :: WithStart(c, t) == WithStart([c[0]], t) + WithStart(c[1..], t) by {
        forall t ensures WithStart(c, t) == WithStart([c[0]], t) + WithStart(c[1..], t) {
          WithStartAppend([c[0]], c[1..], t);
        }
      }
      assert forall t :: WithStart(Sorting.Insert(rest, c[0], StartLe), t) == WithStart([c[0]], t) + WithStart(rest, t) by {
        forall t ensures WithStart(Sorting.Insert(rest, c[0], StartLe), t) == WithStart([c[0]], t) + WithStart(rest, t) {
          InsertStable(rest, c[0], t);
          var k := Sorting.Position(rest, c[0], StartLe);
          assert Sorting.Insert(rest, c[0], StartLe) == rest[..k] + [c[0]] + rest[k..];
        }
      }
      Sorting.Insert(rest, c[0], StartLe)
  }

  /**
   * A sorted, stable rearrangement is unique: any two sequences sorted by
   * start time that keep the same order among equal start times are equal.
   * So `SortByStart` is the order the hook's stable sort produces.
   */
  lemma {:induction false} StableSortUnique(a: Captions, b: Captions)
    requires Sorting.SortedBy(a, StartLe) && Sorting.SortedBy(b, StartLe)
    requires forall t :: WithStart(a, t) == WithStart(b, t)
    ensures a == b
    decreases |a|
  {
    if |a| == 0 || |b| == 0 {
      if |a| > 0 {
        WithStartHead(a);
        assert false;
      } else if |b| > 0 {
        WithStartHead(b);
        assert false;
      }
    } else {
      HeadIsFirstWithStart(a, b);
      HeadIsFirstWithStart(b, a);
      var m := a[0].startMs;
      assert b[0].startMs == m;
      assert WithStart(a, m)[0] == a[0] && WithStart(b, m)[0] == b[0];
      assert a[0] == b[0];
      forall t ensures WithStart(a[1..], t) == WithStart(b[1..], t) {
        var head := if a[0].startMs == t then [a[0]] else [];
        assert WithStart(a, t) == head + WithStart(a[1..], t);
        assert WithStart(b, t) == head + WithStart(b[1..], t);
        assert WithStart(a[1..], t) == (head + WithStart(a[1..], t))[|head|..];
        assert WithStart(b[1..], t) == (head + WithStart(b[1..], t))[|head|..];
      }
      SortedTail(a);
      SortedTail(b);
      StableSortUnique(a[1..], b[1..]);
      assert a == [a[0]] + a[1..] && b == [b[0]] + b[1..];
    }
  }

  lemma WithStartHead(a: Captions)
    requires |a| > 0
    ensures WithStart(a, a[0].startMs) != []
  {
  }

  /** The head of a sorted sequence starts no later than any item of another with the same captions per start time. */
  lemma HeadIsFirstWithStart(a: Captions, b: Captions)
    requires |a| > 0 && |b| > 0
    requires Sorting.SortedBy(a, StartLe)
    requires forall t :: WithStart(a, t) == WithStart(b, t)
    ensures a[0].startMs <= b[0].startMs
  {
    var t := b[0].startMs;
    assert WithStart(b, t) != [];
    WithStartMember(a, t);
  }

  /** Some item of a sequence starts at `t` when its captions at `t` are not empty. */
  lemma {:induction false} WithStartMember(a: Captions, t: real)
    requires WithStart(a, t) != []
    ensures exists i :: 0 <= i < |a| && a[i].startMs == t
    decreases |a|
  {
    if a[0].startMs != t {
      WithStartMember(a[1..], t);
      var i :| 0 <= i < |a[1..]| && a[1..][i].startMs == t;
      assert a[i + 1] == a[1..][i];
    }
  }

  lemma SortedTail(a: Captions)
    requires |a| > 0 && Sorting.SortedBy(a, StartLe)
    ensures Sorting.SortedBy(a[1..], StartLe)
  {
    forall i, j | 0 <= i < j < |a[1..]| ensures StartLe(a[1..][i], a[1..][j]) {
      assert a[1..][i] == a[i + 1] && a[1..][j] == a[j + 1];
    }
  }

  /**
   * `captions`: the last four items after the stable sort by start time.
   * The window is ordered, drawn from the captions, as large as allowed, and
   * every caption left out starts no later than any caption shown.
   */
  method Window(c: Captions) returns (w: Captions)
    ensures |w| == if |c| < 4 then |c| else 4
    ensures w == SortByStart(c)[|c| - |w|..]
    ensures Sorting.SortedBy(w, StartLe)
    ensures multiset(w) <= multiset(c)
    ensures forall x, y :: x in multiset(c) - multiset(w) && y in w ==> x.startMs <= y.startMs
  {
    var sorted := SortByStart(c);
    var cut := if |sorted| < 4 then 0 else |sorted| - 4;
    w := sorted[cut..];
    SuffixShowsLatest(sorted, cut);
  }

  /** A suffix of a sorted sequence is sorted, drawn from it, and starts no earlier than what it leaves out. */
  lemma SuffixShowsLatest(sorted: Captions, cut: nat)
    requires Sorting.SortedBy(sorted, StartLe) && cut <= |sorted|
    ensures Sorting.SortedBy(sorted[cut..], StartLe)
    ensures multiset(sorted[cut..]) <= multiset(sorted)
    ensures forall x, y :: x in multiset(sorted) - multiset(sorted[cut..]) && y in sorted[cut..] ==> x.startMs <= y.startMs
  {
    var w := sorted[cut..];
    assert sorted == sorted[..cut] + w;
    assert multiset(sorted) == multiset(sorted[..cut]) + multiset(w);
    forall i, j | 0 <= i < j < |w| ensures StartLe(w[i], w[j]) {
      assert w[i] == sorted[cut + i] && w[j] == sorted[cut + j];
    }
    forall x, y | x in multiset(sorted) - multiset(w) && y in w
      ensures x.startMs <= y.startMs
    {
      assert x in sorted[..cut];
      var i :| 0 <= i < cut && sorted[i] == x;
      var j :| 0 <= j < |w| && w[j] == y;
      assert sorted[cut + j] == y;
    }
  }
}

=== FILE: close_route.dfy ===
/** `POST /api/stt/deepgram/close`: end a server-side transcription session. */
module CloseRoute {
  import opened Wrappers
  import opened Js
  import opened Http
  import SS = SessionStore

  /**
   * The handler: 401 without a user, a crash when `session_id` is present but
   * not a string, 400 when it is blank, and otherwise `{ ok: true }` whether
   * or not the session existed.
   */
  function ClosePost(userId: string, body: Option<Json>, reg: SS.Registry): (r: (Response, SS.Registry))
    ensures userId == "" ==> r == (Fail(401, "unauthorized"), reg)
    ensures userId != "" && OptionalTrim(Get(body, "session_id")).TypeError? ==> r == (Response(500, Crash), reg)
    ensures (userId != "" && !OptionalTrim(Get(body, "session_id")).TypeError?
             && !Filled(OptionalTrim(Get(body, "session_id")))) ==> r == (Fail(400, "session_id_required"), reg)
    ensures r.0 == Ok <==> userId != "" && Filled(OptionalTrim(Get(body, "session_id")))
    ensures r.0 == Ok ==> r.1 == SS.Close(reg, Trim(Get(body, "session_id").value.s)).registry
    ensures r.0 == Ok ==> Trim(Get(body, "session_id").value.s) !in r.1
    ensures r.0 != Ok ==> r.1 == reg
  {
    if userId == "" then (Fail(401, "unauthorized"), reg)
    else
      match OptionalTrim(Get(body, "session_id"))
      case TypeError => (Response(500, Crash), reg)
      case Undefined => (Fail(400, "session_id_required"), reg)
      case Text(sid) =>
        if sid == "" then (Fail(400, "session_id_required"), reg)
        else (Ok, SS.Close(reg, sid).registry)
  }

  /** Closing twice answers the same and leaves the same registry as closing once. */
  lemma CloseTwiceSame(userId: string, body: Option<Json>, reg: SS.Registry)
    ensures ClosePost(userId, body, ClosePost(userId, body, reg).1) == ClosePost(userId, body, reg)
  {
    if ClosePost(userId, body, reg).0 == Ok {
      SS.CloseIdempotent(reg, Trim(Get(body, "session_id").value.s));
    }
  }
}

=== FILE: ducking.dfy ===
/**
 * Call-volume ducking: while translated speech plays, the call's speaker is
 * turned down to the ducked volume, and turned back up afterwards to the
 * volume it had before the first duck.
 */
module Ducking {
  import opened Wrappers
  import TranslatorSettings

  /** `isDuckedRef` and `callVolumeBeforeDuckRef`. */
  datatype Duck = Duck(isDucked: bool, before: Option<real>)

  const Initial: Duck := Duck(false, None)

  /** The call's speaker as the page sees it: whether there is one, and its volume when it reports one. */
  datatype Speaker = Speaker(present: bool, volume: Option<real>)

  /** The new state and the volume set on the call's speaker, if any. */
  datatype Ducked = Ducked(state: Duck, setVolume: Option<real>)

  /**
   * `applyDucking(shouldDuck)`. Nothing happens without a speaker or with
   * ducking disabled, nor when the call is already in the asked-for state.
   * Ducking remembers the current volume (1 when unknown) only if nothing is
   * remembered yet; un-ducking restores the remembered volume and keeps it.
   */
  function ApplyDucking(d: Duck, speakerPresent: bool, duckingEnabled: bool, duckedVolume: real,
                        shouldDuck: bool, current: Option<real>): (r: Ducked)
    ensures !speakerPresent || !duckingEnabled || d.isDucked == shouldDuck ==> r == Ducked(d, None)
    ensures speakerPresent && duckingEnabled && d.isDucked != shouldDuck ==>
      && r.state.isDucked == shouldDuck
      && r.setVolume.Some? && 0.0 <= r.setVolume.value <= 1.0
    ensures speakerPresent && duckingEnabled && shouldDuck && !d.isDucked ==>
      && r.setVolume == Some(TranslatorSettings.Clamp01(duckedVolume))
      && r.state.before == (if d.before.Some? then d.before else Some(current.GetOr(1.0)))
    ensures speakerPresent && duckingEnabled && !shouldDuck && d.isDucked ==>
      && r.setVolume == Some(TranslatorSettings.Clamp01(d.before.GetOr(1.0)))
      && r.state.before == d.before
  {
    if !speakerPresent || !duckingEnabled then Ducked(d, None)
    else if shouldDuck then
      if d.isDucked then Ducked(d, None)
      else
        var before := if d.before.None? then Some(current.GetOr(1.0)) else d.before;
        Ducked(Duck(true, before), Some(TranslatorSettings.Clamp01(duckedVolume)))
    else if !d.isDucked then Ducked(d, None)
    else
      var restore := d.before.GetOr(1.0);
      Ducked(Duck(false, d.before), Some(TranslatorSettings.Clamp01(restore)))
  }

  /** The volumes an `applyDucking` call sets on the call's speaker, in order. */
  function Volumes(x: Ducked): seq<real> {
    if x.setVolume.Some? then [x.setVolume.value] else []
  }

  /** Whether a run of the settings effect ducked the call and so left `() => applyDucking(false)` as its cleanup. */
  predicate LeftCleanup(prev: Option<TranslatorSettings.Settings>) {
    prev.Some? && prev.value.readAloudEnabled && prev.value.duckingEnabled
  }

  /**
   * A re-run of the effect tied to the settings. `prev` holds the settings
   * of the previous run (`None` on the first run). React first runs the
   * previous cleanup, which un-ducks through the previous `applyDucking`
   * (ducking still enabled there); then the new run ducks while read-aloud
   * and ducking are both on, and un-ducks otherwise.
   */
  function SyncWithSettings(d: Duck, speakerPresent: bool, prev: Option<TranslatorSettings.Settings>,
                            s: TranslatorSettings.Settings, current: Option<real>): (r: (Duck, seq<real>))
    ensures !speakerPresent ==> r == (d, [])
    ensures !LeftCleanup(prev) && !s.duckingEnabled ==> r == (d, [])
    ensures speakerPresent && s.duckingEnabled ==> r.0.isDucked == s.readAloudEnabled
    ensures speakerPresent && LeftCleanup(prev) ==> r.0.isDucked == (s.readAloudEnabled && s.duckingEnabled)
    ensures speakerPresent && LeftCleanup(prev) && d.isDucked && !(s.readAloudEnabled && s.duckingEnabled) ==>
      r.1 == [TranslatorSettings.Clamp01(d.before.GetOr(1.0))]
    ensures speakerPresent && LeftCleanup(prev) && d.isDucked && s.readAloudEnabled && s.duckingEnabled ==>
      r.1 == [TranslatorSettings.Clamp01(d.before.GetOr(1.0)), TranslatorSettings.Clamp01(s.duckedCallVolume)]
    ensures d.before.Some? ==> r.0.before == d.before
  {
    var cleaned :=
      if LeftCleanup(prev) then
        ApplyDucking(d, speakerPresent, prev.value.duckingEnabled, prev.value.duckedCallVolume, false, current)
      else Ducked(d, None);
    var next := ApplyDucking(cleaned.state, speakerPresent, s.duckingEnabled, s.duckedCallVolume,
                             s.readAloudEnabled && s.duckingEnabled, current);
    assert cleaned.setVolume.None? && next.setVolume.None? ==> Volumes(cleaned) + Volumes(next) == [];
    (next.state, Volumes(cleaned) + Volumes(next))
  }

  /**
   * Turning ducking off while read-aloud has the call ducked hands the call
   * back at the volume it had before.
   */
  lemma DuckingOffRestores(v: real, on: TranslatorSettings.Settings, off: TranslatorSettings.Settings)
    requires on.readAloudEnabled && on.duckingEnabled && !off.duckingEnabled
    ensures var first := SyncWithSettings(Initial, true, None, on, Some(v));
            var second := SyncWithSettings(first.0, true, Some(on), off, None);
            && first.0.isDucked && first.1 == [TranslatorSettings.Clamp01(on.duckedCallVolume)]
            && !second.0.isDucked && second.1 == [TranslatorSettings.Clamp01(v)]
  {
  }

  /** Changing the ducked volume while ducked moves the call to the new level. */
  lemma DuckedVolumeChangeApplies(v: real, on: TranslatorSettings.Settings, louder: TranslatorSettings.Settings)
    requires on.readAloudEnabled && on.duckingEnabled
    requires louder == on.(duckedCallVolume := louder.duckedCallVolume)
    ensures var first := SyncWithSettings(Initial, true, None, on, Some(v));
            var second := SyncWithSettings(first.0, true, Some(on), louder, None);
            && second.0.isDucked
            && second.1 == [TranslatorSettings.Clamp01(v), TranslatorSettings.Clamp01(louder.duckedCallVolume)]
  {
  }

  /** The first duck and un-duck hand the call back at the volume it had (clamped to [0, 1]). */
  lemma DuckRestoreRoundTrip(v: real, duckedVolume: real)
    ensures var down := ApplyDucking(Initial, true, true, duckedVolume, true, Some(v));
            var up := ApplyDucking(down.state, true, true, duckedVolume, false, None);
            down.setVolume == Some(TranslatorSettings.Clamp01(duckedVolume))
            && up.setVolume == Some(TranslatorSettings.Clamp01(v))
            && up.state == Duck(false, Some(v))
  {
  }

  /** Ducking twice, or un-ducking twice, is the same as doing it once. */
  lemma ApplyDuckingIdempotent(d: Duck, sp: bool, en: bool, dv: real, should: bool, cur: Option<real>, cur2: Option<real>)
    ensures var once := ApplyDucking(d, sp, en, dv, should, cur);
            ApplyDucking(once.state, sp, en, dv, should, cur2) == Ducked(once.state, None)
  {
  }

  /**
   * The remembered volume survives a restore: a later duck cycle restores
   * the volume of the first cycle, whatever the call's volume was in between.
   */
  lemma RestoreUsesFirstVolume(v: real, w: real, dv: real)
    ensures var d1 := ApplyDucking(Initial, true, true, dv, true, Some(v)).state;
            var u1 := ApplyDucking(d1, true, true, dv, false, None).state;
            var d2 := ApplyDucking(u1, true, true, dv, true, Some(w)).state;
            ApplyDucking(d2, true, true, dv, false, None).setVolume == Some(TranslatorSettings.Clamp01(v))
  {
  }
}

=== FILE: http.dfy ===
/**
 * The JSON responses the route handlers return, and the request-reading
 * idioms they share.
 */
module Http {
  import opened Wrappers
  import opened Js
  import TS = TranscriptStore

  /** A response body; `Crash` is the framework's answer to an uncaught exception. */
  datatype Body =
    | ErrorBody(error: string)
    | OkBody
    | ItemsBody(items: seq<TS.Row>)
    | TextBody(text: string)
    | SessionBody(sessionId: string)
    | Crash

  datatype Response = Response(status: int, body: Body)

  function Fail(status: int, code: string): (r: Response)
    ensures r.body.ErrorBody? && r.body.error == code && r.status == status
  {
    Response(status, ErrorBody(code))
  }

  const Ok: Response := Response(200, OkBody)

  /** What `x?.trim()` yields on a request field: `undefined`, a trimmed string, or a thrown `TypeError`. */
  datatype Trimmed = Undefined | Text(s: string) | TypeError

  function OptionalTrim(field: Option<Json>): (r: Trimmed)
    ensures field.None? || field == Some(JNull) <==> r.Undefined?
    ensures r.Text? <==> field.Some? && field.value.JStr?
    ensures r.Text? ==> r.s == Trim(field.value.s)
  {
    match field
    case None => Undefined
    case Some(JNull) => Undefined
    case Some(JStr(s)) => Text(Trim(s))
    case Some(_) => TypeError
  }

  /** A trimmed field read as a boolean: present and non-empty. */
  predicate Filled(t: Trimmed) {
    t.Text? && t.s != ""
  }

  /** The query string, first value per name. */
  type Query = map<string, string>

  /** `searchParams.get(name) || ''`. */
  function Param(q: Query, name: string): (v: string)
    ensures name !in q ==> v == ""
    ensures name in q ==> v == q[name]
  {
    if name in q then q[name] else ""
  }
}

=== FILE: ingest_route.dfy ===
/** `POST /api/stt/deepgram/ingest`: forward one chunk of audio to a live session. */
module IngestRoute {
  import opened Wrappers
  import opened Http
  import SS = SessionStore

  /**
   * The handler. Checks run in order: a signed-in user, a `session_id`, a
   * non-empty body (`None` when the body cannot be read), then the session
   * itself, whose absence is 500 `ingest_failed`.
   */
  function IngestPost(userId: string, q: Query, audio: Option<SS.Chunk>, reg: SS.Registry): (r: (Response, SS.Registry))
    ensures userId == "" ==> r == (Fail(401, "unauthorized"), reg)
    ensures userId != "" && Param(q, "session_id") == "" ==> r == (Fail(400, "session_id_required"), reg)
    ensures userId != "" && Param(q, "session_id") != "" && (audio.None? || |audio.value| == 0) ==>
      r == (Fail(400, "empty_audio"), reg)
    ensures r.0 == Ok <==>
      && userId != "" && Param(q, "session_id") != "" && audio.Some? && |audio.value| > 0
      && SS.Ingest(reg, q["session_id"], audio.value).Success?
    ensures r.0 == Ok ==> r.1 == SS.Ingest(reg, q["session_id"], audio.value).value
    ensures r.0 != Ok ==> r.1 == reg
    ensures r.0.status == 500 ==> r.0 == Fail(500, "ingest_failed")
  {
    var sid := Param(q, "session_id");
    if userId == "" then (Fail(401, "unauthorized"), reg)
    else if sid == "" then (Fail(400, "session_id_required"), reg)
    else if audio.None? || |audio.value| == 0 then (Fail(400, "empty_audio"), reg)
    else
      match SS.Ingest(reg, sid, audio.value)
      case Failure(_) => (Fail(500, "ingest_failed"), reg)
      case Success(reg') => (Ok, reg')
  }

  /** Accepted audio reaches the session in order: it is appended after everything sent before. */
  lemma IngestAppendsInOrder(userId: string, q: Query, a: SS.Chunk, b: SS.Chunk, reg: SS.Registry)
    requires IngestPost(userId, q, Some(a), reg).0 == Ok
    requires IngestPost(userId, q, Some(b), IngestPost(userId, q, Some(a), reg).1).0 == Ok
    ensures var sid := q["session_id"];
            var reg2 := IngestPost(userId, q, Some(b), IngestPost(userId, q, Some(a), reg).1).1;
            sid in reg2 && reg2[sid].audio == reg[sid].audio + [a] + [b]
  {
  }
}

=== FILE: js.dfy ===
/**
 * The slice of JavaScript value semantics the pipeline relies on: numbers,
 * parsed JSON values, truthiness, optional chaining, `String.prototype.trim`,
 * `String(n)` for integers, `Math.round`, and the code-point order on strings.
 * Numbers are modelled as exact reals; the non-finite values are kept apart
 * where the code tests for them.
 */
module Js {
  import opened Wrappers

  /** A JavaScript number. */
  datatype Num = Fin(v: real) | NaN | PosInf | NegInf

  /** A value produced by `JSON.parse` (plus the non-finite numbers `1e999` can yield). */
  datatype Json =
    | JNull
    | JBool(b: bool)
    | JNum(n: Num)
    | JStr(s: string)
    | JArr(items: seq<Json>)
    | JObj(fields: map<string, Json>)

  /** `Number.isFinite(x)` for a value that is already a number. */
  predicate IsFinite(n: Num) {
    n.Fin?
  }

  /** JavaScript truthiness; `None` stands for `undefined`. */
  predicate Truthy(j: Option<Json>) {
    match j
    case None => false
    case Some(JNull) => false
    case Some(JBool(b)) => b
    case Some(JNum(n)) => n != NaN && n != Fin(0.0)
    case Some(JStr(s)) => s != ""
    case Some(_) => true
  }

  /** The property read `x?.key` on a parsed JSON value. */
  function Get(j: Option<Json>, key: string): (r: Option<Json>)
    ensures r.Some? <==> j.Some? && j.value.JObj? && key in j.value.fields
  {
    match j
    case Some(JObj(fields)) => if key in fields then Some(fields[key]) else None
    case _ => None
  }

  /** The element read `x?.[i]` on a parsed JSON array. */
  function At(j: Option<Json>, i: nat): (r: Option<Json>)
    ensures r.Some? <==> j.Some? && j.value.JArr? && i < |j.value.items|
  {
    match j
    case Some(JArr(items)) => if i < |items| then Some(items[i]) else None
    case _ => None
  }

  /** The characters `String.prototype.trim` removes: WhiteSpace and LineTerminator. */
  predicate IsWhitespace(c: char) {
    || c == ' ' || c == '\t' || c == '\n' || c == '\r'
    || c == '\U{B}' || c == '\U{C}' || c == '\U{A0}' || c == '\U{FEFF}'
    || c == '\U{1680}' || ('\U{2000}' <= c <= '\U{200A}')
    || c == '\U{2028}' || c == '\U{2029}' || c == '\U{202F}'
    || c == '\U{205F}' || c == '\U{3000}'
  }

  predicate AllWhitespace(s: string) {
    forall i :: 0 <= i < |s| ==> IsWhitespace(s[i])
  }

  /** Drops leading whitespace: the result is the suffix that starts at the first non-blank. */
  function TrimStart(s: string): (r: string)
    ensures |r| <= |s| && r == s[|s| - |r|..]
    ensures AllWhitespace(s[..|s| - |r|])
    ensures r == [] || !IsWhitespace(r[0])
    decreases |s|
  {
    if |s| > 0 && IsWhitespace(s[0]) then
      var r := TrimStart(s[1..]);
      assert s[1..][|s| - 1 - |r|..] == s[|s| - |r|..];
      assert s[..|s| - |r|] == [s[0]] + s[1..][..|s| - 1 - |r|];
      r
    else s
  }

  /** Drops trailing whitespace: the result is the prefix that ends at the last non-blank. */
  function TrimEnd(s: string): (r: string)
    ensures |r| <= |s| && r == s[..|r|]
    ensures AllWhitespace(s[|r|..])
    ensures r == [] || !IsWhitespace(r[|r| - 1])
    decreases |s|
  {
    if |s| > 0 && IsWhitespace(s[|s| - 1]) then TrimEnd(s[..|s| - 1]) else s
  }

  /** Where the trimmed text starts inside `s`. */
  function TrimOffset(s: string): (k: nat)
    ensures k <= |s|
  {
    |s| - |TrimStart(s)|
  }

  /** `s.trim()`: the longest blank-free-at-both-ends infix, cut only at whitespace. */
  function Trim(s: string): (r: string)
    ensures TrimOffset(s) + |r| <= |s|
    ensures r == s[TrimOffset(s)..TrimOffset(s) + |r|]
    ensures AllWhitespace(s[..TrimOffset(s)]) && AllWhitespace(s[TrimOffset(s) + |r|..])
    ensures r == [] || (!IsWhitespace(r[0]) && !IsWhitespace(r[|r| - 1]))
  {
    TrimEnd(TrimStart(s))
  }

  /** Text is blank after trimming exactly when every character is whitespace. */
  lemma TrimEmptyIff(s: string)
    ensures Trim(s) == [] <==> AllWhitespace(s)
  {
    var k := TrimOffset(s);
    if Trim(s) == [] {
      assert TrimStart(s) == [];
      assert s[..k] == s;
    } else {
      var r := Trim(s);
      assert r[0] == s[k];
    }
  }

  /** Trimming twice is trimming once. */
  lemma TrimIdempotent(s: string)
    ensures Trim(Trim(s)) == Trim(s)
  {
    var r := Trim(s);
    assert TrimStart(r) == r;
    assert TrimEnd(r) == r;
  }

  /** `s.trim().length > 0`, stated directly: some character is not whitespace. */
  predicate NonBlank(s: string) {
    !AllWhitespace(s)
  }

  /** Non-blank means exactly that trimming leaves something. */
  lemma NonBlankIff(s: string)
    ensures NonBlank(s) <==> Trim(s) != ""
  {
    TrimEmptyIff(s);
  }

  /** Trimming neither creates nor removes non-blank content. */
  lemma TrimKeepsNonBlank(s: string)
    ensures NonBlank(Trim(s)) <==> NonBlank(s)
  {
    NonBlankIff(s);
    NonBlankIff(Trim(s));
    TrimIdempotent(s);
  }

  /** `Math.round`: the nearest integer, halves rounded up. */
  function Round(x: real): (r: int)
    ensures x - 0.5 < r as real <= x + 0.5
  {
    (x + 0.5).Floor
  }

  predicate IsDigit(c: char) {
    '0' <= c <= '9'
  }

  predicate AllDigits(s: string) {
    forall i :: 0 <= i < |s| ==> IsDigit(s[i])
  }

  function DigitChar(d: nat): (c: char)
    requires d < 10
    ensures IsDigit(c) && c as int - '0' as int == d
  {
    ('0' as int + d) as char
  }

  /** `String(n)` for a non-negative integer: its decimal digits, no leading zero. */
  function NatToString(n: nat): (r: string)
    ensures |r| >= 1 && AllDigits(r)
    ensures r[0] == '0' ==> n == 0
    decreases n
  {
    if n < 10 then [DigitChar(n)] else NatToString(n / 10) + [DigitChar(n % 10)]
  }

  /** The number a string of decimal digits denotes. */
  function DigitsValue(s: string): nat
    requires AllDigits(s)
    decreases |s|
  {
    if |s| == 0 then 0 else 10 * DigitsValue(s[..|s| - 1]) + (s[|s| - 1] as int - '0' as int)
  }

  /** Reading back the digits `String(n)` prints yields `n`. */
  lemma {:induction false} NatToStringRoundTrip(n: nat)
    ensures DigitsValue(NatToString(n)) == n
    decreases n
  {
    if n >= 10 {
      NatToStringRoundTrip(n / 10);
      var s := NatToString(n / 10) + [DigitChar(n % 10)];
      assert s[..|s| - 1] == NatToString(n / 10);
    }
  }

  /** Distinct naturals print distinctly. */
  lemma NatToStringInjective(a: nat, b: nat)
    ensures NatToString(a) == NatToString(b) <==> a == b
  {
    if NatToString(a) == NatToString(b) {
      NatToStringRoundTrip(a);
      NatToStringRoundTrip(b);
    }
  }

  /** `String(i)` for an integer. */
  function IntToString(i: int): (r: string)
    ensures |r| >= 1
    ensures r[0] == '-' <==> i < 0
    ensures r[|r| - 1] != '+'
  {
    if i < 0 then "-" + NatToString(-i) else NatToString(i)
  }

  /** Distinct integers print distinctly. */
  lemma IntToStringInjective(a: int, b: int)
    ensures IntToString(a) == IntToString(b) <==> a == b
  {
    if IntToString(a) == IntToString(b) {
      if a < 0 {
        assert IntToString(a)[1..] == NatToString(-a);
        assert IntToString(b)[1..] == NatToString(-b);
        NatToStringInjective(-a, -b);
      } else {
        NatToStringInjective(a, b);
      }
    }
  }

  /** `String(x)` for a JSON value; non-integral numbers, arrays and objects go through `coerce`. */
  function JsString(j: Json, coerce: Json -> string): (r: string)
    ensures j.JStr? ==> r == j.s
  {
    match j
    case JStr(s) => s
    case JBool(b) => if b then "true" else "false"
    case JNull => "null"
    case JNum(Fin(v)) => if v.Floor as real == v then IntToString(v.Floor) else coerce(j)
    case JNum(NaN) => "NaN"
    case JNum(PosInf) => "Infinity"
    case JNum(NegInf) => "-Infinity"
    case _ => coerce(j)
  }

  /** Two strings that agree up to a separator absent from their heads split alike. */
  lemma {:induction false} SplitAtSeparator(a: string, x: string, b: string, y: string, sep: char)
    requires forall i :: 0 <= i < |a| ==> a[i] != sep
    requires forall i :: 0 <= i < |b| ==> b[i] != sep
    requires a + [sep] + x == b + [sep] + y
    ensures a == b && x == y
    decreases |a|
  {
    if |a| == 0 {
      assert (a + [sep] + x)[0] == sep;
      assert |b| == 0;
      assert x == (a + [sep] + x)[1..];
      assert y == (b + [sep] + y)[1..];
    } else {
      assert (a + [sep] + x)[0] == a[0] != sep;
      assert |b| > 0;
      assert a[0] == (a + [sep] + x)[0] == (b + [sep] + y)[0] == b[0];
      assert a[1..] + [sep] + x == (a + [sep] + x)[1..];
      assert b[1..] + [sep] + y == (b + [sep] + y)[1..];
      SplitAtSeparator(a[1..], x, b[1..], y, sep);
      assert a == [a[0]] + a[1..];
      assert b == [b[0]] + b[1..];
    }
  }

  /** Code-point lexicographic order, the order text comparison is taken to follow. */
  predicate StrLt(a: string, b: string)
    decreases |a|
  {
    if |a| == 0 then |b| > 0
    else if |b| == 0 then false
    else a[0] < b[0] || (a[0] == b[0] && StrLt(a[1..], b[1..]))
  }

  lemma {:induction false} StrLtIrreflexive(a: string)
    ensures !StrLt(a, a)
    decreases |a|
  {
    if |a| > 0 {
      StrLtIrreflexive(a[1..]);
    }
  }

  lemma {:induction false} StrLtTransitive(a: string, b: string, c: string)
    requires StrLt(a, b) && StrLt(b, c)
    ensures StrLt(a, c)
    decreases |a|
  {
    if |a| > 0 && a[0] == b[0] && b[0] == c[0] {
      StrLtTransitive(a[1..], b[1..], c[1..]);
    }
  }

  lemma {:induction false} StrLtConnected(a: string, b: string)
    requires a != b
    ensures StrLt(a, b) || StrLt(b, a)
    decreases |a|
  {
    if |a| > 0 && |b| > 0 && a[0] == b[0] {
      assert a == [a[0]] + a[1..];
      assert b == [b[0]] + b[1..];
      StrLtConnected(a[1..], b[1..]);
    }
  }

  lemma {:induction false} StrLtAsymmetric(a: string, b: string)
    requires StrLt(a, b)
    ensures !StrLt(b, a)
    decreases |a|
  {
    if |a| > 0 && a[0] == b[0] {
      StrLtAsymmetric(a[1..], b[1..]);
    }
  }
}

=== FILE: live_path.dfy ===
/**
 * The live caption path: an `stt.segment` custom event from a call
 * participant is translated (through a per-segment cache), shown as a
 * caption and, when final, queued for local read-aloud.
 */
module LivePath {
  import opened Wrappers
  import opened Js
  import TranslatorSettings
  import CW = CaptionWindow
  import RA = ReadAloud
  import Ducking

  /** The fields of a peer's `stt.segment` the handler uses, typed as the hook declares them. */
  datatype LiveSegment = LiveSegment(
    segmentId: string,
    speakerId: string,
    startMs: real,
    endMs: real,
    isFinal: bool,
    sourceLang: string,
    text: Option<string>)

  /** A custom event: an object tagged `stt.segment`, or anything else. */
  datatype Event = Other | Segment(segment: LiveSegment)

  /** How the translate request went: it failed (network, non-2xx, or a null body), or it answered with `data.text` when that is a string. */
  datatype Reply = Failed | Answered(text: Option<string>)

  type Cache = map<string, string>

  /**
   * The translation cache, the caption map, the read-aloud queue, the call's
   * ducking state and the volumes set on the call's speaker, in order.
   */
  datatype LiveState = LiveState(cache: Cache, captions: CW.Captions, queue: seq<string>,
                                 duck: Ducking.Duck, volumes: seq<real>)

  /** The cache key `${segment_id}:${targetLang}`. */
  function CacheKey(segmentId: string, targetLang: string): (k: string)
    ensures |k| == |segmentId| + 1 + |targetLang|
    ensures k[..|segmentId|] == segmentId
  {
    segmentId + ":" + targetLang
  }

  /** For one target language, distinct segments have distinct cache keys. */
  lemma CacheKeyInjective(a: string, b: string, lang: string)
    ensures CacheKey(a, lang) == CacheKey(b, lang) <==> a == b
  {
    if CacheKey(a, lang) == CacheKey(b, lang) {
      assert |a| == |b|;
      assert a == CacheKey(a, lang)[..|a|];
    }
  }

  /** Every cached translation is a non-empty string, so a cached entry always counts as a hit. */
  predicate CacheFilled(cache: Cache) {
    forall k :: k in cache ==> cache[k] != ""
  }

  /** The text the caption gets for an event that missed the cache. */
  function Translated(reply: Reply, fallback: string): (t: string)
    ensures reply.Failed? ==> t == fallback
    ensures reply.Answered? && reply.text.Some? && reply.text.value != "" ==> t == reply.text.value
    ensures !(reply.Answered? && reply.text.Some? && reply.text.value != "") ==> t == fallback
  {
    match reply
    case Answered(Some(s)) => if s != "" then s else fallback
    case _ => fallback
  }

  /** Whether the handler goes past its guards. */
  predicate Accepted(ev: Event, s: TranslatorSettings.Settings) {
    && ev.Segment?
    && ev.segment.text.Some? && NonBlank(ev.segment.text.value)
    && (s.captionsEnabled || s.readAloudEnabled)
  }

  /**
   * `applyCaption`: store the caption (even with captions off, when only
   * read-aloud is on) and queue final text for the local engine.
   */
  function ApplyCaption(st: LiveState, seg: LiveSegment, t: string, s: TranslatorSettings.Settings, synth: RA.Synth, sp: Ducking.Speaker)
    : (r: (LiveState, Option<RA.Utterance>))
    ensures r.0.cache == st.cache
    ensures r.0.captions == CW.Put(st.captions, CW.CaptionItem(seg.segmentId, seg.speakerId, seg.startMs, seg.endMs, t, seg.isFinal))
    ensures !(s.readAloudEnabled && s.readAloudEngine == "local_tts" && seg.isFinal) ==>
      r.1 == None && r.0.queue == st.queue && r.0.duck == st.duck && r.0.volumes == st.volumes
    ensures s.readAloudEnabled && s.readAloudEngine == "local_tts" && seg.isFinal ==>
      var spoken := RA.Enqueue(st.queue, t, s, synth, st.duck, sp);
      && r.0.queue == spoken.queue && r.1 == spoken.utterance
      && r.0.duck == spoken.ducked.state && r.0.volumes == st.volumes + Ducking.Volumes(spoken.ducked)
  {
    var captions := CW.Put(st.captions, CW.CaptionItem(seg.segmentId, seg.speakerId, seg.startMs, seg.endMs, t, seg.isFinal));
    if s.readAloudEnabled && s.readAloudEngine == "local_tts" && seg.isFinal then
      var spoken := RA.Enqueue(st.queue, t, s, synth, st.duck, sp);
      (LiveState(st.cache, captions, spoken.queue, spoken.ducked.state, st.volumes + Ducking.Volumes(spoken.ducked)), spoken.utterance)
    else (st.(captions := captions), None)
  }

  /** Whether the cache holds a usable (truthy) translation under `key`. */
  predicate Hit(cache: Cache, key: string) {
    key in cache && cache[key] != ""
  }

  /** The text an accepted event is shown with: the cached translation, else what the reply gives. */
  function ShownText(st: LiveState, seg: LiveSegment, s: TranslatorSettings.Settings, reply: Reply): string
    requires seg.text.Some?
  {
    var key := CacheKey(seg.segmentId, s.targetLang);
    if Hit(st.cache, key) then st.cache[key] else Translated(reply, seg.text.value)
  }

  /** Whether the subscribing effect re-runs: a new call, or a change to one of its three listed settings. */
  predicate Resubscribes(held: TranslatorSettings.Settings, current: TranslatorSettings.Settings, newCall: bool) {
    || newCall
    || held.captionsEnabled != current.captionsEnabled
    || held.readAloudEnabled != current.readAloudEnabled
    || held.targetLang != current.targetLang
  }

  /**
   * The settings the custom-event handler sees after a render with
   * `current`. The effect that subscribes it lists only the call,
   * `captionsEnabled`, `readAloudEnabled` and `targetLang`; on any other
   * change the handler, and the `speakNext` and `applyDucking` closures it
   * calls, keep the settings `held` from their subscription.
   */
  function HandlerSettings(held: TranslatorSettings.Settings, current: TranslatorSettings.Settings, newCall: bool)
    : (h: TranslatorSettings.Settings)
    ensures Resubscribes(held, current, newCall) ==> h == current
    ensures !Resubscribes(held, current, newCall) ==> h == held
    ensures h.captionsEnabled == current.captionsEnabled && h.readAloudEnabled == current.readAloudEnabled
    ensures h.targetLang == current.targetLang
  {
    if Resubscribes(held, current, newCall) then current else held
  }

  /**
   * The custom-event handler, under the settings `s` it holds (see
   * `HandlerSettings`). A cached translation is used as is; otherwise
   * the reply decides the text, which is cached only when the request
   * succeeded.
   */
  function OnCustomEvent(st: LiveState, ev: Event, s: TranslatorSettings.Settings, reply: Reply, synth: RA.Synth, sp: Ducking.Speaker)
    : (r: (LiveState, Option<RA.Utterance>))
    ensures !Accepted(ev, s) ==> r == (st, None)
    ensures CacheFilled(st.cache) ==> CacheFilled(r.0.cache)
    ensures RA.NoBlank(st.queue) ==> RA.NoBlank(r.0.queue)
  {
    if !Accepted(ev, s) then (st, None)
    else
      var seg := ev.segment;
      var text := seg.text.value;
      var key := CacheKey(seg.segmentId, s.targetLang);
      if Hit(st.cache, key) then
        ApplyCaption(st, seg, st.cache[key], s, synth, sp)
      else
        match reply
        case Failed => ApplyCaption(st, seg, text, s, synth, sp)
        case Answered(_) =>
          var t := Translated(reply, text);
          ApplyCaption(st.(cache := st.cache[key := t]), seg, t, s, synth, sp)
  }

  /**
   * An accepted event always leaves a caption under its segment id, showing
   * the cached or freshly translated text; other captions are kept.
   */
  lemma AcceptedShowsCaption(st: LiveState, ev: Event, s: TranslatorSettings.Settings, reply: Reply, synth: RA.Synth, sp: Ducking.Speaker)
    requires Accepted(ev, s)
    ensures var r := OnCustomEvent(st, ev, s, reply, synth, sp).0;
            var seg := ev.segment;
            var item := CW.CaptionItem(seg.segmentId, seg.speakerId, seg.startMs, seg.endMs, ShownText(st, seg, s, reply), seg.isFinal);
            && item in r.captions
            && (forall x :: x in r.captions ==> x == item || x in st.captions)
            && (forall x :: x in st.captions && x.segmentId != seg.segmentId ==> x in r.captions)
  {
  }

  /**
   * The cache changes only on a miss answered by the translate route, and
   * then only under this segment's key, to the text shown.
   */
  lemma CacheOnlyOnSuccess(st: LiveState, ev: Event, s: TranslatorSettings.Settings, reply: Reply, synth: RA.Synth, sp: Ducking.Speaker)
    requires Accepted(ev, s)
    ensures var r := OnCustomEvent(st, ev, s, reply, synth, sp).0;
            var key := CacheKey(ev.segment.segmentId, s.targetLang);
            && (Hit(st.cache, key) || reply.Failed? ==> r.cache == st.cache)
            && (!Hit(st.cache, key) && reply.Answered? ==> r.cache == st.cache[key := ShownText(st, ev.segment, s, reply)])
  {
  }

  /** A cache hit makes the reply irrelevant: the caption shows the cached translation. */
  lemma CacheHitIgnoresReply(st: LiveState, ev: Event, s: TranslatorSettings.Settings, r1: Reply, r2: Reply, synth: RA.Synth, sp: Ducking.Speaker)
    requires Accepted(ev, s)
    requires CacheKey(ev.segment.segmentId, s.targetLang) in st.cache
    requires CacheFilled(st.cache)
    ensures OnCustomEvent(st, ev, s, r1, synth, sp) == OnCustomEvent(st, ev, s, r2, synth, sp)
  {
  }

  /** A second delivery of the same segment after a successful translation shows the same text without a new request. */
  lemma RedeliveryUsesCache(st: LiveState, ev: Event, s: TranslatorSettings.Settings, reply: Reply, r2: Reply, synth: RA.Synth, sp: Ducking.Speaker)
    requires Accepted(ev, s) && reply.Answered?
    requires CacheFilled(st.cache)
    ensures var once := OnCustomEvent(st, ev, s, reply, synth, sp).0;
            var key := CacheKey(ev.segment.segmentId, s.targetLang);
            key in once.cache
            && OnCustomEvent(once, ev, s, r2, synth, sp).0.cache == once.cache
  {
  }

  /** With read-aloud off, no event is ever queued or spoken. */
  lemma NoReadAloudNoQueue(st: LiveState, ev: Event, s: TranslatorSettings.Settings, reply: Reply, synth: RA.Synth, sp: Ducking.Speaker)
    requires !s.readAloudEnabled
    ensures OnCustomEvent(st, ev, s, reply, synth, sp).0.queue == st.queue
    ensures OnCustomEvent(st, ev, s, reply, synth, sp).1.None?
    ensures OnCustomEvent(st, ev, s, reply, synth, sp).0.duck == st.duck
    ensures OnCustomEvent(st, ev, s, reply, synth, sp).0.volumes == st.volumes
  {
  }

  /**
   * Switching the read-aloud engine from `gemini_live` to `local_tts`, and
   * nothing else, leaves the subscribed handler on `gemini_live`: a final
   * segment is neither queued nor spoken, and the call is not ducked.
   */
  lemma EngineSwitchAloneKeepsHandlerStale(st: LiveState, ev: Event, held: TranslatorSettings.Settings, reply: Reply,
                                           synth: RA.Synth, sp: Ducking.Speaker)
    requires held.readAloudEngine == "gemini_live"
    ensures var current := held.(readAloudEngine := "local_tts");
            var h := HandlerSettings(held, current, false);
            var r := OnCustomEvent(st, ev, h, reply, synth, sp);
            && h.readAloudEngine == "gemini_live"
            && r.1.None? && r.0.queue == st.queue && r.0.duck == st.duck && r.0.volumes == st.volumes
  {
  }

  /** A re-subscribed handler sees every current setting, the engine and the ducking ones included. */
  lemma ResubscribedSeesCurrent(held: TranslatorSettings.Settings, current: TranslatorSettings.Settings, newCall: bool)
    requires Resubscribes(held, current, newCall)
    ensures var h := HandlerSettings(held, current, newCall);
            h.readAloudEngine == current.readAloudEngine && h.duckingEnabled == current.duckingEnabled
            && h.duckedCallVolume == current.duckedCallVolume && h.readAloudVolume == current.readAloudVolume
  {
  }

  /**
   * A final segment read aloud by the local engine from an idle synthesiser
   * and an empty queue is spoken at once, and its `onstart` ducks the call:
   * to the clamped ducked volume when the call was not ducked yet.
   */
  lemma FinalEventDucks(st: LiveState, ev: Event, s: TranslatorSettings.Settings, reply: Reply, synth: RA.Synth, sp: Ducking.Speaker)
    requires Accepted(ev, s) && ev.segment.isFinal
    requires RA.Ready(s, synth) && st.queue == []
    requires sp.present && s.duckingEnabled
    ensures var r := OnCustomEvent(st, ev, s, reply, synth, sp);
            && r.1.Some?
            && r.0.duck.isDucked
            && (!st.duck.isDucked ==> r.0.volumes == st.volumes + [TranslatorSettings.Clamp01(s.duckedCallVolume)])
  {
    var seg := ev.segment;
    var key := CacheKey(seg.segmentId, s.targetLang);
    NonBlankIff(seg.text.value);
    var t := if Hit(st.cache, key) then st.cache[key] else Translated(reply, seg.text.value);
    assert t != "";
    var st1 := if Hit(st.cache, key) || reply.Failed? then st else st.(cache := st.cache[key := t]);
    assert OnCustomEvent(st, ev, s, reply, synth, sp) == ApplyCaption(st1, seg, if reply.Failed? && !Hit(st.cache, key) then seg.text.value else t, s, synth, sp);
  }
}

=== FILE: poll_path.dfy ===
/**
 * The read-aloud poll loop used with the `gemini_live` engine: every tick
 * asks the poll route for final segments after a cursor, translates each
 * (through the same cache as the live path), shows it, speaks it with the
 * local fallback voice and moves the cursor past it.
 */
module PollPath {
  import opened Wrappers
  import opened Js
  import Http
  import TS = TranscriptStore
  import PollRoute
  import TranslatorSettings
  import CW = CaptionWindow
  import RA = ReadAloud
  import LivePath
  import Ducking

  /** `{ after_start_ms, after_segment_id? }`. */
  datatype Cursor = Cursor(afterStartMs: real, afterSegmentId: Option<string>)

  /** The cursor of a room never polled: before every segment. */
  const Start: Cursor := Cursor(-1.0, None)

  /**
   * `loadCursor`: the stored cursor when its `after_start_ms` is a number,
   * else the start. `stored` is the parsed storage entry; an
   * `after_segment_id` of another type than string is read as absent.
   */
  function LoadCursor(stored: Option<Json>): (c: Cursor)
    ensures Get(stored, "after_start_ms").Some? && Get(stored, "after_start_ms").value.JNum?
            && Get(stored, "after_start_ms").value.n.Fin? ==>
      c.afterStartMs == Get(stored, "after_start_ms").value.n.v
    ensures (!(Get(stored, "after_start_ms").Some? && Get(stored, "after_start_ms").value.JNum?
               && Get(stored, "after_start_ms").value.n.Fin?)) ==> c == Start
    ensures Get(stored, "after_start_ms").Some? && Get(stored, "after_start_ms").value.JNum?
            && Get(stored, "after_start_ms").value.n.Fin? ==>
      c.afterSegmentId == (if Get(stored, "after_segment_id").Some? && Get(stored, "after_segment_id").value.JStr?
                           then Some(Get(stored, "after_segment_id").value.s) else None)
  {
    match Get(stored, "after_start_ms")
    case Some(JNum(Fin(a))) =>
      (match Get(stored, "after_segment_id")
       case Some(JStr(id)) => Cursor(a, Some(id))
       case _ => Cursor(a, None))
    case _ => Start
  }

  /**
   * `saveCursor`: the JSON object written to storage. `JSON.stringify` leaves
   * out an undefined `after_segment_id`, so the object has that key exactly
   * when the cursor carries an id.
   */
  function SaveCursor(c: Cursor): (j: Json)
    ensures j.JObj? && "after_start_ms" in j.fields && j.fields["after_start_ms"] == JNum(Fin(c.afterStartMs))
    ensures "after_segment_id" in j.fields <==> c.afterSegmentId.Some?
    ensures c.afterSegmentId.Some? ==> j.fields["after_segment_id"] == JStr(c.afterSegmentId.value)
    ensures j.fields.Keys <= {"after_start_ms", "after_segment_id"}
  {
    match c.afterSegmentId
    case Some(id) => JObj(map["after_start_ms" := JNum(Fin(c.afterStartMs)), "after_segment_id" := JStr(id)])
    case None => JObj(map["after_start_ms" := JNum(Fin(c.afterStartMs))])
  }

  /** A saved cursor loads back as it was. */
  lemma SaveLoadCursor(c: Cursor)
    ensures LoadCursor(Some(SaveCursor(c))) == c
  {
    var j := Some(SaveCursor(c));
    assert Get(j, "after_start_ms") == Some(JNum(Fin(c.afterStartMs)));
    if c.afterSegmentId.Some? {
      assert Get(j, "after_segment_id") == Some(JStr(c.afterSegmentId.value));
    } else {
      assert Get(j, "after_segment_id").None?;
    }
  }

  /**
   * The tick's request: room, `String(after_start_ms)` (`show` stands for
   * `String` on a number), a truthy `after_segment_id`, and limit 25.
   */
  function Request(c: Cursor, roomId: string, show: real -> string): (q: Http.Query)
    ensures Http.Param(q, "room_id") == roomId
    ensures Http.Param(q, "limit") == "25"
    ensures Http.Param(q, "after_start_ms") == show(c.afterStartMs)
    ensures Http.Param(q, "after_segment_id") == (if c.afterSegmentId.Some? then c.afterSegmentId.value else "")
  {
    var q := map["room_id" := roomId, "after_start_ms" := show(c.afterStartMs), "limit" := "25"];
    match c.afterSegmentId
    case Some(id) => if id != "" then q["after_segment_id" := id] else q
    case None => q
  }

  /** The store query a cursor stands for. */
  function ParamsOf(c: Cursor, roomId: string): TS.ListParams {
    TS.ListParams(
      roomId := roomId,
      afterStartMs := Some(Fin(c.afterStartMs)),
      afterSegmentId := if c.afterSegmentId.Some? && c.afterSegmentId.value != "" then c.afterSegmentId else None,
      limit := Some(Fin(25.0)))
  }

  /**
   * The poll route reads the tick's request back as the cursor's query,
   * provided the number's printed form parses back to it (as `Number` and
   * `String` do for finite numbers).
   */
  lemma RequestDecodes(c: Cursor, roomId: string, show: real -> string, parse: string -> Num)
    requires roomId != ""
    requires show(c.afterStartMs) != "" && parse(show(c.afterStartMs)) == Fin(c.afterStartMs)
    requires parse("25") == Fin(25.0)
    ensures PollRoute.DecodePoll(Request(c, roomId, show), parse) == Success(ParamsOf(c, roomId))
  {
    var q := Request(c, roomId, show);
    var d := PollRoute.DecodePoll(q, parse);
    assert d.value.afterStartMs == Some(Fin(c.afterStartMs));
    assert d.value.limit == Some(Fin(25.0));
  }

  /** The cursor always has a start, so every poll filters by it. */
  lemma CursorAlwaysFilters(c: Cursor, roomId: string)
    ensures !TS.CursorFilterOf(ParamsOf(c, roomId)).NoCursor?
    ensures TS.PageCap(ParamsOf(c, roomId)) == Some(25)
  {
  }

  /**
   * The cursor after an item, as written: `Number(item.start_ms ||
   * cursor.after_start_ms)` keeps the old start when the item's is 0.
   */
  function Advance(c: Cursor, item: TS.Row): (r: Cursor)
    ensures r.afterSegmentId == Some(item.segmentId)
    ensures item.startMs != 0.0 ==> r.afterStartMs == item.startMs
    ensures item.startMs == 0.0 ==> r.afterStartMs == c.afterStartMs
  {
    Cursor(if item.startMs != 0.0 then item.startMs else c.afterStartMs, Some(item.segmentId))
  }

  /**
   * As written, an item starting at 0 (the first words of a server-side
   * session) stays selected by the next poll from the initial cursor, so it
   * is fetched, shown and spoken again on every tick until a later segment
   * arrives.
   */
  lemma AdvanceRefetchesStartZero(c: Cursor, item: TS.Row)
    requires c.afterStartMs < 0.0
    requires item.startMs == 0.0 && item.isFinal && item.segmentId != ""
    ensures TS.Selected(item, ParamsOf(Advance(c, item), item.roomId))
  {
  }

  /** The cursor after an item, as intended: the item's own position in the page order. */
  function AdvanceCorrected(c: Cursor, item: TS.Row): (r: Cursor)
    ensures r.afterSegmentId == Some(item.segmentId)
    ensures r.afterStartMs == item.startMs
  {
    Cursor(item.startMs, Some(item.segmentId))
  }

  /**
   * With the corrected cursor, the next poll selects exactly the final rows
   * of the room that come after the item in page order; the item itself is
   * never selected again.
   */
  lemma AdvanceCorrectedMovesPast(c: Cursor, item: TS.Row, row: TS.Row)
    requires item.segmentId != ""
    ensures var p := ParamsOf(AdvanceCorrected(c, item), item.roomId);
            && !TS.Selected(item, p)
            && (TS.Selected(row, p) <==> row.roomId == item.roomId && row.isFinal && TS.RowLt(item, row))
  {
    TS.RowLtIrreflexive(item);
  }

  /** Which cursor step the loop takes: the hook's step as written (`Advance`), or the corrected one. */
  datatype CursorRule = AsWritten | Corrected

  function Next(rule: CursorRule, c: Cursor, item: TS.Row): Cursor {
    match rule
    case AsWritten => Advance(c, item)
    case Corrected => AdvanceCorrected(c, item)
  }

  /** What the browser offers: whether speech synthesis exists, and the call's speaker. */
  datatype Device = Device(synthAvailable: bool, speaker: Ducking.Speaker)

  /**
   * What the loop keeps across ticks; `notices` counts the fallback toasts
   * shown, `duck` is the call's ducking state and `volumes` the volumes set
   * on the call's speaker, in order.
   */
  datatype PollState = PollState(
    cursor: Cursor,
    cache: LivePath.Cache,
    captions: CW.Captions,
    spoken: seq<RA.Utterance>,
    noticeShown: bool,
    notices: nat,
    duck: Ducking.Duck,
    volumes: seq<real>)

  /** An item is handled only with a segment id and non-blank text. */
  predicate Processable(item: TS.Row) {
    item.segmentId != "" && NonBlank(item.text)
  }

  /** The toast flag and the toast count agree: at most one toast, shown exactly when flagged. */
  predicate NoticeOnce(st: PollState) {
    (st.noticeShown && st.notices == 1) || (!st.noticeShown && st.notices == 0)
  }

  /** The translated text for an item: cached, else the reply's, else the item's trimmed text. */
  function TranslatedText(cache: LivePath.Cache, key: string, reply: LivePath.Reply, text: string): (t: string)
    ensures LivePath.Hit(cache, key) ==> t == cache[key]
    ensures !LivePath.Hit(cache, key) ==> t == LivePath.Translated(reply, text)
    ensures text != "" ==> t != ""
  {
    if LivePath.Hit(cache, key) then cache[key] else LivePath.Translated(reply, text)
  }

  /**
   * The ducking around one fallback utterance: `onstart` ducks the call and
   * `onend` un-ducks it, both through `applyDucking`. The utterance is taken
   * to play through before the next one starts, as the synthesiser's queue
   * plays them.
   */
  function FallbackDucking(d: Ducking.Duck, s: TranslatorSettings.Settings, dev: Device): (r: (Ducking.Duck, seq<real>))
    ensures !(dev.speaker.present && s.duckingEnabled) ==> r == (d, [])
    ensures dev.speaker.present && s.duckingEnabled ==> !r.0.isDucked
    ensures dev.speaker.present && s.duckingEnabled && !d.isDucked ==>
      r.1 == [TranslatorSettings.Clamp01(s.duckedCallVolume),
              TranslatorSettings.Clamp01(if d.before.Some? then d.before.value else dev.speaker.volume.GetOr(1.0))]
    ensures dev.speaker.present && s.duckingEnabled && d.isDucked ==>
      r.1 == [TranslatorSettings.Clamp01(d.before.GetOr(1.0))]
    ensures d.before.Some? ==> r.0.before == d.before
  {
    var down := Ducking.ApplyDucking(d, dev.speaker.present, s.duckingEnabled, s.duckedCallVolume, true, dev.speaker.volume);
    var up := Ducking.ApplyDucking(down.state, dev.speaker.present, s.duckingEnabled, s.duckedCallVolume, false, dev.speaker.volume);
    assert down.setVolume.None? && up.setVolume.None? ==> Ducking.Volumes(down) + Ducking.Volumes(up) == [];
    (up.state, Ducking.Volumes(down) + Ducking.Volumes(up))
  }

  /** The caption an item is shown as: final, under its segment id, with `unknown` for a missing speaker. */
  function ItemCaption(item: TS.Row, t: string): (c: CW.CaptionItem)
    ensures c.segmentId == item.segmentId && c.text == t && c.isFinal
    ensures c.startMs == item.startMs && c.endMs == item.endMs
    ensures c.speakerId != "" && (item.speakerId != "" ==> c.speakerId == item.speakerId)
  {
    CW.CaptionItem(item.segmentId, if item.speakerId != "" then item.speakerId else "unknown", item.startMs, item.endMs, t, true)
  }

  /**
   * One item of a page: translate (caching even the fallback), show it when
   * captions are on, toast once, speak it with the fallback voice (ducking
   * the call around it) when speech synthesis exists, and move the cursor by
   * the rule's step.
   */
  function ProcessItem(rule: CursorRule, st: PollState, item: TS.Row, s: TranslatorSettings.Settings,
                       reply: LivePath.Reply, dev: Device): (r: PollState)
    ensures !Processable(item) ==> r == st
    ensures Processable(item) ==>
      var key := LivePath.CacheKey(item.segmentId, s.targetLang);
      var t := TranslatedText(st.cache, key, reply, Trim(item.text));
      && t != ""
      && (rule.AsWritten? ==> r.cursor == Advance(st.cursor, item))
      && (rule.Corrected? ==> r.cursor == AdvanceCorrected(st.cursor, item))
      && r.cache == (if LivePath.Hit(st.cache, key) then st.cache else st.cache[key := t])
      && r.noticeShown
      && (!s.captionsEnabled ==> r.captions == st.captions)
      && (s.captionsEnabled ==> ItemCaption(item, t) in r.captions)
      && (dev.synthAvailable ==>
            var fallback := FallbackDucking(st.duck, s, dev);
            && r.spoken == st.spoken + [RA.Utterance(t, s.targetLang, TranslatorSettings.Clamp01(s.readAloudVolume))]
            && r.duck == fallback.0
            && r.volumes == st.volumes + fallback.1)
      && (!dev.synthAvailable ==> r.spoken == st.spoken && r.duck == st.duck && r.volumes == st.volumes)
    ensures NoticeOnce(st) ==> NoticeOnce(r)
    ensures LivePath.CacheFilled(st.cache) ==> LivePath.CacheFilled(r.cache)
  {
    if !Processable(item) then st
    else
      var text := Trim(item.text);
      NonBlankIff(item.text);
      var key := LivePath.CacheKey(item.segmentId, s.targetLang);
      var t := TranslatedText(st.cache, key, reply, text);
      var captions := if s.captionsEnabled then CW.Put(st.captions, ItemCaption(item, t)) else st.captions;
      var spoken := if dev.synthAvailable then [RA.Utterance(t, s.targetLang, TranslatorSettings.Clamp01(s.readAloudVolume))] else [];
      var ducked := if dev.synthAvailable then FallbackDucking(st.duck, s, dev) else (st.duck, []);
      PollState(
        cursor := Next(rule, st.cursor, item),
        cache := if LivePath.Hit(st.cache, key) then st.cache else st.cache[key := t],
        captions := captions,
        spoken := st.spoken + spoken,
        noticeShown := true,
        notices := if st.noticeShown then st.notices else st.notices + 1,
        duck := ducked.0,
        volumes := st.volumes + ducked.1)
  }

  /** A page's items in order; `reply` gives the translate route's answer for each item. */
  function ProcessItems(rule: CursorRule, st: PollState, items: seq<TS.Row>, s: TranslatorSettings.Settings,
                        reply: TS.Row -> LivePath.Reply, dev: Device): (r: PollState)
    ensures NoticeOnce(st) ==> NoticeOnce(r)
    ensures LivePath.CacheFilled(st.cache) ==> LivePath.CacheFilled(r.cache)
    decreases |items|
  {
    if |items| == 0 then st
    else
      var st1 := ProcessItem(rule, st, items[0], s, reply(items[0]), dev);
      ProcessItems(rule, st1, items[1..], s, reply, dev)
  }

  /** The index of the last element satisfying `ok`, if any. */
  function LastWhere<T>(xs: seq<T>, ok: T -> bool): (r: Option<nat>)
    ensures r.Some? ==> r.value < |xs| && ok(xs[r.value])
    ensures r.Some? ==> forall j :: r.value < j < |xs| ==> !ok(xs[j])
    ensures r.None? ==> forall j :: 0 <= j < |xs| ==> !ok(xs[j])
    decreases |xs|
  {
    if |xs| == 0 then None
    else match LastWhere(xs[1..], ok)
      case Some(i) => Some(i + 1)
      case None => if ok(xs[0]) then Some(0) else None
  }

  /** The last index is determined by its defining properties. */
  lemma LastWhereUnique<T>(xs: seq<T>, ok: T -> bool, b: Option<nat>)
    requires b.Some? ==> b.value < |xs| && ok(xs[b.value])
    requires b.Some? ==> forall j :: b.value < j < |xs| ==> !ok(xs[j])
    requires b.None? ==> forall j :: 0 <= j < |xs| ==> !ok(xs[j])
    ensures LastWhere(xs, ok) == b
  {
  }

  /** How the last index of a sequence relates to that of its tail. */
  lemma LastWhereShift<T>(xs: seq<T>, ok: T -> bool)
    requires |xs| > 0
    ensures var tail := LastWhere(xs[1..], ok);
            && (tail.Some? ==> LastWhere(xs, ok) == Some(tail.value + 1))
            && (tail.None? && ok(xs[0]) ==> LastWhere(xs, ok) == Some(0))
            && (tail.None? && !ok(xs[0]) ==> LastWhere(xs, ok).None?)
  {
  }

  /** An item moves the cursor by the rule's step exactly when it is handled. */
  lemma ItemCursor(rule: CursorRule, st: PollState, item: TS.Row, s: TranslatorSettings.Settings,
                   reply: LivePath.Reply, dev: Device)
    ensures var c := ProcessItem(rule, st, item, s, reply, dev).cursor;
            && (!Processable(item) ==> c == st.cursor)
            && (Processable(item) && rule.AsWritten? ==> c == Advance(st.cursor, item))
            && (Processable(item) && rule.Corrected? ==> c == AdvanceCorrected(st.cursor, item))
  {
  }

  /** A handled item whose start is not 0: the only items that move the start of the cursor as written. */
  predicate MovesStart(item: TS.Row) {
    Processable(item) && item.startMs != 0.0
  }

  /** The cursor after a page: the rule's step over each handled item in turn. */
  function CursorAfter(rule: CursorRule, c: Cursor, items: seq<TS.Row>): Cursor
    decreases |items|
  {
    if |items| == 0 then c
    else CursorAfter(rule, if Processable(items[0]) then Next(rule, c, items[0]) else c, items[1..])
  }

  /** A page moves the loop's cursor exactly as the cursor fold does. */
  lemma {:induction false} PageCursor(rule: CursorRule, st: PollState, items: seq<TS.Row>,
                                      s: TranslatorSettings.Settings, reply: TS.Row -> LivePath.Reply, dev: Device)
    ensures ProcessItems(rule, st, items, s, reply, dev).cursor == CursorAfter(rule, st.cursor, items)
    decreases |items|
  {
    if |items| > 0 {
      var st1 := ProcessItem(rule, st, items[0], s, reply(items[0]), dev);
      ItemCursor(rule, st, items[0], s, reply(items[0]), dev);
      PageCursor(rule, st1, items[1..], s, reply, dev);
    }
  }

  /** The cursor fold lands on the last handled item, or stays put when there is none. */
  lemma {:induction false} CursorAfterLast(rule: CursorRule, c: Cursor, items: seq<TS.Row>)
    ensures var r := CursorAfter(rule, c, items);
            var last := LastWhere(items, Processable);
            var moved := LastWhere(items, MovesStart);
            && (last.None? ==> r == c)
            && (last.Some? ==> r.afterSegmentId == Some(items[last.value].segmentId))
            && (last.Some? && rule.Corrected? ==> r.afterStartMs == items[last.value].startMs)
            && (rule.AsWritten? ==> r.afterStartMs == if moved.Some? then items[moved.value].startMs else c.afterStartMs)
    decreases |items|
  {
    if |items| > 0 {
      var c1 := if Processable(items[0]) then Next(rule, c, items[0]) else c;
      CursorAfterLast(rule, c1, items[1..]);
      LastWhereShift(items, Processable);
      LastWhereShift(items, MovesStart);
      var tail := LastWhere(items[1..], Processable);
      if tail.Some? {
        assert items[1..][tail.value] == items[tail.value + 1];
      }
      var movedTail := LastWhere(items[1..], MovesStart);
      if movedTail.Some? {
        assert items[1..][movedTail.value] == items[movedTail.value + 1];
      }
    }
  }

  /**
   * After a page, the cursor names the last item handled, or stays where it
   * was when none was. Its start is that item's start with the corrected
   * step; as written, it is the start of the last handled item whose start
   * is not 0, or the old start when there is none.
   */
  lemma CursorOnLastProcessed(rule: CursorRule, st: PollState, items: seq<TS.Row>,
                              s: TranslatorSettings.Settings, reply: TS.Row -> LivePath.Reply, dev: Device)
    ensures var r := ProcessItems(rule, st, items, s, reply, dev);
            var last := LastWhere(items, Processable);
            var moved := LastWhere(items, MovesStart);
            && (last.None? ==> r.cursor == st.cursor)
            && (last.Some? ==> r.cursor.afterSegmentId == Some(items[last.value].segmentId))
            && (last.Some? && rule.Corrected? ==> r.cursor.afterStartMs == items[last.value].startMs)
            && (rule.AsWritten? ==> r.cursor.afterStartMs == if moved.Some? then items[moved.value].startMs else st.cursor.afterStartMs)
  {
    PageCursor(rule, st, items, s, reply, dev);
    CursorAfterLast(rule, st.cursor, items);
  }

  /** When the last handled item is one that moves the start, it is also the last such item. */
  lemma LastMovesStart(items: seq<TS.Row>, k: nat)
    requires LastWhere(items, Processable) == Some(k)
    requires items[k].startMs != 0.0
    ensures LastWhere(items, MovesStart) == Some(k)
  {
    LastWhereUnique(items, MovesStart, Some(k));
  }

  /**
   * No handled item of a page in page order is selected by the next poll,
   * with the corrected step always, and as written whenever the last item
   * handled does not start at 0.
   */
  lemma NoItemRefetched(rule: CursorRule, st: PollState, items: seq<TS.Row>, s: TranslatorSettings.Settings,
                        reply: TS.Row -> LivePath.Reply, dev: Device, roomId: string)
    requires TS.StrictlyAscending(items)
    ensures var r := ProcessItems(rule, st, items, s, reply, dev);
            var last := LastWhere(items, Processable);
            rule.Corrected? || (last.Some? && items[last.value].startMs != 0.0) ==>
              forall i :: 0 <= i < |items| && Processable(items[i]) ==> !TS.Selected(items[i], ParamsOf(r.cursor, roomId))
  {
    CursorOnLastProcessed(rule, st, items, s, reply, dev);
    var r := ProcessItems(rule, st, items, s, reply, dev);
    var last := LastWhere(items, Processable);
    if last.Some? && (rule.Corrected? || items[last.value].startMs != 0.0) {
      if rule.AsWritten? {
        LastMovesStart(items, last.value);
      }
      assert r.cursor == AdvanceCorrected(st.cursor, items[last.value]);
      forall i | 0 <= i < |items| && Processable(items[i])
        ensures !TS.Selected(items[i], ParamsOf(r.cursor, roomId))
      {
        NotAfterLast(items, last.value, i);
      }
    }
  }

  /** An item at or before the cursor's item does not pass the cursor. */
  lemma NotAfterLast(items: seq<TS.Row>, k: nat, i: nat)
    requires TS.StrictlyAscending(items)
    requires i <= k < |items| && items[k].segmentId != ""
    ensures forall c: Cursor, roomId: string :: !TS.Selected(items[i], ParamsOf(AdvanceCorrected(c, items[k]), roomId))
  {
    var l := items[k];
    TS.RowLtIrreflexive(l);
    if i < k {
      assert TS.RowLt(items[i], l);
      if TS.RowLt(l, items[i]) {
        TS.RowLtTransitive(l, items[i], l);
      }
    }
  }

  /** The effect runs only for the `gemini_live` read-aloud engine. */
  predicate Polling(s: TranslatorSettings.Settings): (b: bool)
    ensures b ==> s.readAloudEnabled && s.readAloudEngine != "local_tts"
    ensures b <==> s.readAloudEnabled && s.readAloudEngine == "gemini_live"
  {
    s.readAloudEnabled && s.readAloudEngine == "gemini_live"
  }

  /**
   * The two read-aloud paths never run together: under settings that poll,
   * the local `speakNext` stops at its engine guard, and with read-aloud
   * off neither runs.
   */
  lemma PollingExcludesLocalSpeech(s: TranslatorSettings.Settings, synth: RA.Synth, queue: seq<string>,
                                   d: Ducking.Duck, sp: Ducking.Speaker)
    ensures !(Polling(s) && RA.Ready(s, synth))
    ensures Polling(s) ==> RA.SpeakNext(queue, s, synth, d, sp) == RA.Spoken(queue, None, Ducking.Ducked(d, None))
    ensures !s.readAloudEnabled ==> !Polling(s) && !RA.Ready(s, synth)
  {
  }

  /**
   * One tick: `polled` is the page the poll route answered, `None` for a
   * non-2xx answer; a body without an `items` array is an empty page.
   */
  function Tick(rule: CursorRule, st: PollState, s: TranslatorSettings.Settings, polled: Option<seq<TS.Row>>,
                reply: TS.Row -> LivePath.Reply, dev: Device): (r: PollState)
    ensures !Polling(s) || polled.None? || polled == Some([]) ==> r == st
    ensures NoticeOnce(st) ==> NoticeOnce(r)
    ensures LivePath.CacheFilled(st.cache) ==> LivePath.CacheFilled(r.cache)
  {
    if !Polling(s) then st
    else match polled
      case None => st
      case Some(items) => ProcessItems(rule, st, items, s, reply, dev)
  }

  /**
   * As written, a tick from the initial cursor over a page whose one item
   * starts at 0 leaves that item selected by the next poll, so the next tick
   * handles, shows and speaks it again; with the corrected step it is not
   * selected.
   */
  lemma TickRefetchesStartZero(st: PollState, item: TS.Row, s: TranslatorSettings.Settings,
                               reply: TS.Row -> LivePath.Reply, dev: Device)
    requires Polling(s) && st.cursor.afterStartMs < 0.0
    requires Processable(item) && item.startMs == 0.0 && item.isFinal
    ensures Tick(AsWritten, st, s, Some([item]), reply, dev).cursor == Cursor(st.cursor.afterStartMs, Some(item.segmentId))
    ensures TS.Selected(item, ParamsOf(Tick(AsWritten, st, s, Some([item]), reply, dev).cursor, item.roomId))
    ensures !TS.Selected(item, ParamsOf(Tick(Corrected, st, s, Some([item]), reply, dev).cursor, item.roomId))
  {
    assert [item][1..] == [];
    PageCursor(AsWritten, st, [item], s, reply, dev);
    PageCursor(Corrected, st, [item], s, reply, dev);
    assert CursorAfter(AsWritten, st.cursor, [item]) == Advance(st.cursor, item);
    assert CursorAfter(Corrected, st.cursor, [item]) == AdvanceCorrected(st.cursor, item);
    AdvanceRefetchesStartZero(st.cursor, item);
    AdvanceCorrectedMovesPast(st.cursor, item, item);
  }

  /** Once the call is not ducked, a page spoken with the fallback voice leaves it not ducked. */
  lemma {:induction false} PageKeepsUnducked(rule: CursorRule, st: PollState, items: seq<TS.Row>, s: TranslatorSettings.Settings,
                                             reply: TS.Row -> LivePath.Reply, dev: Device)
    requires s.duckingEnabled && dev.speaker.present && dev.synthAvailable
    requires !st.duck.isDucked
    ensures !ProcessItems(rule, st, items, s, reply, dev).duck.isDucked
    decreases |items|
  {
    if |items| > 0 {
      PageKeepsUnducked(rule, ProcessItem(rule, st, items[0], s, reply(items[0]), dev), items[1..], s, reply, dev);
    }
  }

  /** A handled item spoken with the fallback voice leaves the call not ducked at the end of the page. */
  lemma {:induction false} PageUnducks(rule: CursorRule, st: PollState, items: seq<TS.Row>, s: TranslatorSettings.Settings,
                                       reply: TS.Row -> LivePath.Reply, dev: Device, k: nat)
    requires s.duckingEnabled && dev.speaker.present && dev.synthAvailable
    requires k < |items| && Processable(items[k])
    ensures !ProcessItems(rule, st, items, s, reply, dev).duck.isDucked
    decreases k
  {
    var st1 := ProcessItem(rule, st, items[0], s, reply(items[0]), dev);
    if k == 0 {
      PageKeepsUnducked(rule, st1, items[1..], s, reply, dev);
    } else {
      assert items[1..][k - 1] == items[k];
      PageUnducks(rule, st1, items[1..], s, reply, dev, k - 1);
    }
  }

  /** A page only appends to the volumes set on the call. */
  lemma {:induction false} PageVolumesGrow(rule: CursorRule, st: PollState, items: seq<TS.Row>, s: TranslatorSettings.Settings,
                                           reply: TS.Row -> LivePath.Reply, dev: Device)
    ensures var r := ProcessItems(rule, st, items, s, reply, dev);
            |st.volumes| <= |r.volumes| && r.volumes[..|st.volumes|] == st.volumes
    decreases |items|
  {
    if |items| > 0 {
      var st1 := ProcessItem(rule, st, items[0], s, reply(items[0]), dev);
      ItemVolumesGrow(rule, st, items[0], s, reply(items[0]), dev);
      PageVolumesGrow(rule, st1, items[1..], s, reply, dev);
      PrefixTransitive(st.volumes, st1.volumes, ProcessItems(rule, st1, items[1..], s, reply, dev).volumes);
    }
  }

  /** One item only appends to the volumes set on the call. */
  lemma ItemVolumesGrow(rule: CursorRule, st: PollState, item: TS.Row, s: TranslatorSettings.Settings,
                        reply: LivePath.Reply, dev: Device)
    ensures var r := ProcessItem(rule, st, item, s, reply, dev);
            |st.volumes| <= |r.volumes| && r.volumes[..|st.volumes|] == st.volumes
  {
    var r := ProcessItem(rule, st, item, s, reply, dev);
    assert r.volumes == st.volumes + r.volumes[|st.volumes|..];
  }

  lemma PrefixTransitive<T>(a: seq<T>, b: seq<T>, c: seq<T>)
    requires |a| <= |b| && b[..|a|] == a
    requires |b| <= |c| && c[..|b|] == b
    ensures |a| <= |c| && c[..|a|] == a
  {
    assert c[..|a|] == c[..|b|][..|a|];
  }

  /** From a ducked call, the first volume a page sets is the one saved before the duck. */
  lemma {:induction false} PageFirstVolume(rule: CursorRule, st: PollState, items: seq<TS.Row>, s: TranslatorSettings.Settings,
                                           reply: TS.Row -> LivePath.Reply, dev: Device, k: nat)
    requires s.duckingEnabled && dev.speaker.present && dev.synthAvailable
    requires st.duck.isDucked
    requires k < |items| && Processable(items[k])
    ensures var r := ProcessItems(rule, st, items, s, reply, dev);
            |st.volumes| < |r.volumes| && r.volumes[|st.volumes|] == TranslatorSettings.Clamp01(st.duck.before.GetOr(1.0))
    decreases k
  {
    var st1 := ProcessItem(rule, st, items[0], s, reply(items[0]), dev);
    var r := ProcessItems(rule, st1, items[1..], s, reply, dev);
    if Processable(items[0]) {
      assert st1.volumes == st.volumes + [TranslatorSettings.Clamp01(st.duck.before.GetOr(1.0))];
      PageVolumesGrow(rule, st1, items[1..], s, reply, dev);
      assert r.volumes[|st.volumes|] == r.volumes[..|st1.volumes|][|st.volumes|];
    } else {
      assert items[1..][k - 1] == items[k];
      PageFirstVolume(rule, st1, items[1..], s, reply, dev, k - 1);
    }
  }

  /**
   * In the `gemini_live` mode the settings effect keeps the call ducked, but
   * the end of each fallback utterance un-ducks it: after a page with a
   * handled item the call is not ducked, and the first volume set on it is
   * the one saved before the duck.
   */
  lemma FallbackUndoesReadAloudDuck(rule: CursorRule, st: PollState, items: seq<TS.Row>, s: TranslatorSettings.Settings,
                                    reply: TS.Row -> LivePath.Reply, dev: Device, k: nat)
    requires Polling(s) && s.duckingEnabled && dev.speaker.present && dev.synthAvailable
    requires st.duck.isDucked
    requires k < |items| && Processable(items[k])
    ensures !Tick(rule, st, s, Some(items), reply, dev).duck.isDucked
    ensures var r := Tick(rule, st, s, Some(items), reply, dev);
            |st.volumes| < |r.volumes| && r.volumes[|st.volumes|] == TranslatorSettings.Clamp01(st.duck.before.GetOr(1.0))
  {
    PageUnducks(rule, st, items, s, reply, dev, k);
    PageFirstVolume(rule, st, items, s, reply, dev, k);
  }

  /**
   * The local engine ducks again what the fallback un-ducked: after a
   * `gemini_live` tick has left the call not ducked, a custom-event handler
   * re-subscribed under settings with read-aloud on the local engine (a new
   * call, or a change of captions, read-aloud or target language alongside
   * the engine switch) ducks the call once the next final segment starts
   * being spoken. An engine switch alone does not re-subscribe the handler;
   * `LivePath.EngineSwitchAloneKeepsHandlerStale` covers that case.
   */
  lemma LocalSpeechReducksAfterFallback(rule: CursorRule, st: PollState, items: seq<TS.Row>, s: TranslatorSettings.Settings,
                                        reply: TS.Row -> LivePath.Reply, dev: Device, k: nat,
                                        live: LivePath.LiveState, ev: LivePath.Event, s2: TranslatorSettings.Settings,
                                        liveReply: LivePath.Reply, synth: RA.Synth,
                                        held: TranslatorSettings.Settings, newCall: bool)
    requires Polling(s) && s.duckingEnabled && dev.speaker.present && dev.synthAvailable
    requires st.duck.isDucked
    requires k < |items| && Processable(items[k])
    requires live.duck == Tick(rule, st, s, Some(items), reply, dev).duck && live.queue == []
    requires LivePath.Resubscribes(held, s2, newCall)
    requires s2.duckingEnabled && RA.Ready(s2, synth)
    requires LivePath.Accepted(ev, s2) && ev.segment.isFinal
    ensures !live.duck.isDucked
    ensures var h := LivePath.HandlerSettings(held, s2, newCall);
            var r := LivePath.OnCustomEvent(live, ev, h, liveReply, synth, dev.speaker).0;
            r.duck.isDucked && r.volumes == live.volumes + [TranslatorSettings.Clamp01(s2.duckedCallVolume)]
  {
    FallbackUndoesReadAloudDuck(rule, st, items, s, reply, dev, k);
    LivePath.FinalEventDucks(live, ev, s2, liveReply, synth, dev.speaker);
  }
}

=== FILE: poll_route.dfy ===
/**
 * `GET /api/transcripts/poll`: read the room and the cursor from the query
 * string and return the next page of final segments.
 */
module PollRoute {
  import opened Wrappers
  import opened Js
  import opened Http
  import TS = TranscriptStore

  /** `Number(raw)` for a non-empty query value, or `undefined`; `parse` stands for `Number`. */
  function NumberParam(q: Query, name: string, parse: string -> Num): (r: Option<Num>)
    ensures r.Some? <==> Param(q, name) != ""
    ensures r.Some? ==> r.value == parse(q[name])
  {
    var raw := Param(q, name);
    if raw != "" then Some(parse(raw)) else None
  }

  /** Only a finite number is passed on; NaN and the infinities become `undefined`. */
  function FiniteOnly(n: Option<Num>): (r: Option<Num>)
    ensures r.None? || r.value.Fin?
    ensures n.Some? && n.value.Fin? ==> r == n
    ensures !(n.Some? && n.value.Fin?) ==> r.None?
  {
    if n.Some? && n.value.Fin? then n else None
  }

  /** The query's parameters: `room_id` is required; empty values count as absent. */
  function DecodePoll(q: Query, parse: string -> Num): (r: Result<TS.ListParams, Response>)
    ensures r.Failure? <==> Param(q, "room_id") == ""
    ensures r.Failure? ==> r.error == Fail(400, "room_id_required")
    ensures r.Success? ==> r.value.roomId == Param(q, "room_id") != ""
    ensures r.Success? ==> r.value.afterStartMs.None? || r.value.afterStartMs.value.Fin?
    ensures r.Success? ==> r.value.limit.None? || r.value.limit.value.Fin?
    ensures r.Success? ==> (r.value.afterSegmentId.Some? <==> Param(q, "after_segment_id") != "")
    ensures r.Success? && r.value.afterSegmentId.Some? ==> r.value.afterSegmentId.value == q["after_segment_id"]
    ensures r.Success? && Param(q, "after_start_ms") != "" && parse(q["after_start_ms"]).Fin? ==>
      r.value.afterStartMs == Some(parse(q["after_start_ms"]))
  {
    var roomId := Param(q, "room_id");
    if roomId == "" then Failure(Fail(400, "room_id_required"))
    else
      var afterSegmentId := Param(q, "after_segment_id");
      Success(TS.ListParams(
        roomId := roomId,
        afterStartMs := FiniteOnly(NumberParam(q, "after_start_ms", parse)),
        afterSegmentId := if afterSegmentId != "" then Some(afterSegmentId) else None,
        limit := FiniteOnly(NumberParam(q, "limit", parse))))
  }

  /** Every query the route sends to the store has a cap between 1 and 100. */
  lemma PollAlwaysCapped(q: Query, parse: string -> Num)
    requires DecodePoll(q, parse).Success?
    ensures TS.PageCap(DecodePoll(q, parse).value).Some?
    ensures 1 <= TS.PageCap(DecodePoll(q, parse).value).value <= 100
  {
  }

  /**
   * The handler: 400 without a room, 500 `db_error` when listing throws,
   * otherwise `{ items }` holding the page for the decoded query.
   */
  method PollGet(q: Query, parse: string -> Num, env: TS.Env, table: TS.Table, status: int, bodyIsArray: bool)
    returns (resp: Response)
    requires TS.WellKeyed(table)
    ensures Param(q, "room_id") == "" ==> resp == Fail(400, "room_id_required")
    ensures Param(q, "room_id") != "" && (TS.EnvError(env).Some? || !TS.IsOk(status)) ==>
      resp == Fail(500, "db_error")
    ensures Param(q, "room_id") != "" && TS.EnvError(env).None? && TS.IsOk(status) ==>
      && resp.status == 200 && resp.body.ItemsBody?
      && |resp.body.items| <= 100
      && (!bodyIsArray ==> resp.body.items == [])
      && (bodyIsArray ==> TS.IsPage(table, DecodePoll(q, parse).value, resp.body.items))
  {
    var decoded := DecodePoll(q, parse);
    if decoded.Failure? {
      return decoded.error;
    }
    var p := decoded.value;
    PollAlwaysCapped(q, parse);
    var listed := TS.ListFinal(env, table, p, status, bodyIsArray);
    if listed.Failure? {
      return Fail(500, "db_error");
    }
    return Response(200, ItemsBody(listed.value));
  }
}

=== FILE: read_aloud.dfy ===
/**
 * Local text-to-speech read-aloud: a FIFO queue of caption texts spoken one
 * at a time through the browser's speech synthesis.
 */
module ReadAloud {
  import opened Wrappers
  import TranslatorSettings
  import Ducking

  /** What the page sees of `window.speechSynthesis`; `available` is `'speechSynthesis' in window`. */
  datatype Synth = Synth(available: bool, speaking: bool, pending: bool)

  datatype Utterance = Utterance(text: string, lang: string, volume: real)

  /** The queue left, the utterance started (if any), and what its `onstart` ducking did. */
  datatype Spoken = Spoken(queue: seq<string>, utterance: Option<Utterance>, ducked: Ducking.Ducked)

  /**
   * Whether `speakNext` gets past its guards and may take the head of the
   * queue: read-aloud on, the local engine, speech synthesis present, and
   * nothing speaking or pending.
   */
  predicate Ready(s: TranslatorSettings.Settings, synth: Synth): (b: bool)
    ensures b ==> s.readAloudEnabled && s.readAloudEngine == "local_tts"
    ensures b ==> synth == Synth(true, false, false)
    ensures s.readAloudEnabled && s.readAloudEngine == "local_tts" && synth == Synth(true, false, false) ==> b
  {
    s.readAloudEnabled && s.readAloudEngine == "local_tts" && synth.available && !synth.speaking && !synth.pending
  }

  /**
   * `speakNext`: when read-aloud is on with the local engine and the
   * synthesiser is idle, take the head of the queue and speak it in the
   * target language at the clamped read-aloud volume; an empty head is
   * taken and dropped without speaking. The utterance's `onstart` ducks the
   * call, taken here to happen as the utterance is started.
   */
  function SpeakNext(queue: seq<string>, s: TranslatorSettings.Settings, synth: Synth,
                     d: Ducking.Duck, sp: Ducking.Speaker): (r: Spoken)
    ensures !Ready(s, synth) || queue == [] ==> r == Spoken(queue, None, Ducking.Ducked(d, None))
    ensures Ready(s, synth) && queue != [] ==> r.queue == queue[1..]
    ensures r.utterance.Some? <==> Ready(s, synth) && queue != [] && queue[0] != ""
    ensures r.utterance.Some? ==>
      && r.utterance.value.text == queue[0]
      && r.utterance.value.lang == s.targetLang
      && r.utterance.value.volume == TranslatorSettings.Clamp01(s.readAloudVolume)
    ensures r.utterance.None? || !sp.present || !s.duckingEnabled ==> r.ducked == Ducking.Ducked(d, None)
    ensures r.utterance.Some? && sp.present && s.duckingEnabled ==> r.ducked.state.isDucked
    ensures r.utterance.Some? && sp.present && s.duckingEnabled && !d.isDucked ==>
      r.ducked.setVolume == Some(TranslatorSettings.Clamp01(s.duckedCallVolume))
    ensures d.before.Some? ==> r.ducked.state.before == d.before
  {
    if !Ready(s, synth) || queue == [] then Spoken(queue, None, Ducking.Ducked(d, None))
    else if queue[0] == "" then Spoken(queue[1..], None, Ducking.Ducked(d, None))
    else
      Spoken(queue[1..], Some(Utterance(queue[0], s.targetLang, TranslatorSettings.Clamp01(s.readAloudVolume))),
             Ducking.ApplyDucking(d, sp.present, s.duckingEnabled, s.duckedCallVolume, true, sp.volume))
  }

  /** Queue a final caption and try to speak. */
  function Enqueue(queue: seq<string>, text: string, s: TranslatorSettings.Settings, synth: Synth,
                   d: Ducking.Duck, sp: Ducking.Speaker): (r: Spoken)
    ensures !Ready(s, synth) ==> r == Spoken(queue + [text], None, Ducking.Ducked(d, None))
    ensures Ready(s, synth) ==> r.queue == (queue + [text])[1..]
    ensures Ready(s, synth) && queue == [] && text != "" ==>
      r.utterance == Some(Utterance(text, s.targetLang, TranslatorSettings.Clamp01(s.readAloudVolume)))
  {
    SpeakNext(queue + [text], s, synth, d, sp)
  }

  /**
   * The chain of `onend` callbacks: with the synthesiser idle after every
   * utterance, the queue is spoken head first until it is empty or a blank
   * entry stops the chain. The result holds the utterances, the queue left
   * and the ducking state after every `onstart`.
   */
  function Drain(queue: seq<string>, s: TranslatorSettings.Settings, d: Ducking.Duck, sp: Ducking.Speaker)
    : (r: (seq<Utterance>, seq<string>, Ducking.Duck))
    ensures |r.0| + |r.1| <= |queue|
    ensures r.1 == queue[|queue| - |r.1|..]
    ensures r.0 == [] ==> r.2 == d
    ensures r.0 != [] && sp.present && s.duckingEnabled ==> r.2.isDucked
    decreases |queue|
  {
    var step := SpeakNext(queue, s, Synth(true, false, false), d, sp);
    match step.utterance
    case None => ([], step.queue, d)
    case Some(u) =>
      var rest := Drain(step.queue, s, step.ducked.state, sp);
      ([u] + rest.0, rest.1, rest.2)
  }

  function Texts(us: seq<Utterance>): (r: seq<string>)
    ensures |r| == |us|
    ensures forall i :: 0 <= i < |us| ==> r[i] == us[i].text
  {
    if |us| == 0 then [] else [us[0].text] + Texts(us[1..])
  }

  predicate NoBlank(queue: seq<string>) {
    forall i :: 0 <= i < |queue| ==> queue[i] != ""
  }

  /** With read-aloud on, a queue without blank entries is spoken in full and in order. */
  lemma {:induction false} DrainSpeaksInOrder(queue: seq<string>, s: TranslatorSettings.Settings,
                                              d: Ducking.Duck, sp: Ducking.Speaker)
    requires s.readAloudEnabled && s.readAloudEngine == "local_tts"
    requires NoBlank(queue)
    ensures Texts(Drain(queue, s, d, sp).0) == queue
    ensures Drain(queue, s, d, sp).1 == []
    decreases |queue|
  {
    if |queue| > 0 {
      var step := SpeakNext(queue, s, Synth(true, false, false), d, sp);
      assert step.queue == queue[1..];
      DrainSpeaksInOrder(queue[1..], s, step.ducked.state, sp);
      var rest := Drain(queue[1..], s, step.ducked.state, sp);
      assert Drain(queue, s, d, sp).0 == [step.utterance.value] + rest.0;
      assert Texts(Drain(queue, s, d, sp).0) == [queue[0]] + Texts(rest.0);
      assert queue == [queue[0]] + queue[1..];
    }
  }

  /** `stopReadAloud`: empty the queue (the synthesiser is cancelled) and un-duck the call. */
  function Stop(d: Ducking.Duck, sp: Ducking.Speaker, s: TranslatorSettings.Settings)
    : (r: (seq<string>, Ducking.Ducked))
    ensures r.0 == []
    ensures !r.1.state.isDucked || !sp.present || !s.duckingEnabled
    ensures !d.isDucked ==> r.1 == Ducking.Ducked(d, None)
  {
    ([], Ducking.ApplyDucking(d, sp.present, s.duckingEnabled, s.duckedCallVolume, false, sp.volume))
  }

  /** Turning read-aloud off stops it; the caller un-ducks and speaks nothing more. */
  lemma StopThenSilent(queue: seq<string>, d: Ducking.Duck, s: TranslatorSettings.Settings, synth: Synth, sp: Ducking.Speaker)
    requires !s.readAloudEnabled
    ensures var stopped := Stop(d, Ducking.Speaker(true, None), s);
            SpeakNext(stopped.0, s, synth, stopped.1.state, sp) == Spoken([], None, Ducking.Ducked(stopped.1.state, None))
    ensures SpeakNext(queue, s, synth, d, sp) == Spoken(queue, None, Ducking.Ducked(d, None))
  {
  }
}

=== FILE: segment_route.dfy ===
/**
 * `POST /api/transcripts/segment`: validate an `stt.segment` payload and
 * upsert it into the transcript table.
 */
module SegmentRoute {
  import opened Wrappers
  import opened Js
  import opened Http
  import TS = TranscriptStore

  /** A string that is not blank after trimming. */
  predicate IsNonEmptyString(v: Option<Json>): (b: bool)
    ensures b ==> v.Some? && v.value.JStr? && v.value.s != ""
  {
    v.Some? && v.value.JStr? && NonBlank(v.value.s)
  }

  /** The check is the source's `trim().length > 0` on a string. */
  lemma IsNonEmptyStringIff(v: Option<Json>)
    ensures IsNonEmptyString(v) <==> v.Some? && v.value.JStr? && |Trim(v.value.s)| > 0
  {
    if v.Some? && v.value.JStr? {
      NonBlankIff(v.value.s);
    }
  }

  /** A number other than NaN and the infinities. */
  predicate IsFiniteNumber(v: Option<Json>): (b: bool)
    ensures b ==> v.Some? && v.value.JNum?
    ensures v == Some(JNum(NaN)) || v == Some(JNum(PosInf)) || v == Some(JNum(NegInf)) ==> !b
    ensures b <==> exists x: real {:trigger Fin(x)} :: v == Some(JNum(Fin(x)))
  {
    if v.Some? && v.value.JNum? && v.value.n.Fin? then
      assert v == Some(JNum(Fin(v.value.n.v)));
      true
    else false
  }

  /** `typeof value === 'boolean'`. */
  predicate IsBoolean(v: Option<Json>): (b: bool)
    ensures b <==> v == Some(JBool(true)) || v == Some(JBool(false))
  {
    v.Some? && v.value.JBool?
  }

  /** The six fields that must be strings with a non-whitespace character. */
  const TextKeys: set<string> := {"room_id", "track_id", "speaker_id", "segment_id", "source_lang", "text"}

  /** The payload check: the type tag, six non-blank strings, two finite numbers and a boolean. */
  predicate ValidPayload(body: Option<Json>): (b: bool)
    ensures b ==> body.Some? && body.value.JObj? && Get(body, "type") == Some(JStr("stt.segment"))
    ensures b ==> Get(body, "is_final").Some? && Get(body, "is_final").value.JBool?
    ensures b ==> forall k :: k in TextKeys ==> IsNonEmptyString(Get(body, k))
    ensures b ==> Get(body, "start_ms").Some? && Get(body, "start_ms").value.JNum? && Get(body, "start_ms").value.n.Fin?
    ensures b ==> Get(body, "end_ms").Some? && Get(body, "end_ms").value.JNum? && Get(body, "end_ms").value.n.Fin?
    ensures (&& Get(body, "type") == Some(JStr("stt.segment"))
             && (forall k :: k in TextKeys ==> IsNonEmptyString(Get(body, k)))
             && IsFiniteNumber(Get(body, "start_ms")) && IsFiniteNumber(Get(body, "end_ms"))
             && IsBoolean(Get(body, "is_final"))) ==> b
  {
    && Get(body, "type") == Some(JStr("stt.segment"))
    && IsNonEmptyString(Get(body, "room_id"))
    && IsNonEmptyString(Get(body, "track_id"))
    && IsNonEmptyString(Get(body, "speaker_id"))
    && IsNonEmptyString(Get(body, "segment_id"))
    && IsFiniteNumber(Get(body, "start_ms"))
    && IsFiniteNumber(Get(body, "end_ms"))
    && IsBoolean(Get(body, "is_final"))
    && IsNonEmptyString(Get(body, "source_lang"))
    && IsNonEmptyString(Get(body, "text"))
  }

  /** `confidence` is kept only when it is a number; anything else is stored as null. */
  function ConfidenceOf(v: Option<Json>): (c: Option<real>)
    ensures c.Some? <==> v.Some? && v.value.JNum? && v.value.n.Fin?
    ensures c.Some? ==> v == Some(JNum(Fin(c.value)))
  {
    match v
    case Some(JNum(Fin(x))) => Some(x)
    case _ => None
  }

  /** Reads a validated payload into a row, the strings as sent (not trimmed). */
  function DecodeSegment(body: Option<Json>): (r: Result<TS.Row, Response>)
    ensures r.Success? <==> ValidPayload(body)
    ensures r.Failure? ==> r.error == Fail(400, "invalid_payload")
    ensures r.Success? ==>
      && Some(JStr(r.value.roomId)) == Get(body, "room_id")
      && Some(JStr(r.value.trackId)) == Get(body, "track_id")
      && Some(JStr(r.value.speakerId)) == Get(body, "speaker_id")
      && Some(JStr(r.value.segmentId)) == Get(body, "segment_id")
      && Some(JNum(Fin(r.value.startMs))) == Get(body, "start_ms")
      && Some(JNum(Fin(r.value.endMs))) == Get(body, "end_ms")
      && Some(JBool(r.value.isFinal)) == Get(body, "is_final")
      && r.value.confidence == ConfidenceOf(Get(body, "confidence"))
      && Some(JStr(r.value.sourceLang)) == Get(body, "source_lang")
      && Some(JStr(r.value.text)) == Get(body, "text")
  {
    if !ValidPayload(body) then Failure(Fail(400, "invalid_payload"))
    else
      Success(TS.Row(
        roomId := Get(body, "room_id").value.s,
        trackId := Get(body, "track_id").value.s,
        speakerId := Get(body, "speaker_id").value.s,
        segmentId := Get(body, "segment_id").value.s,
        startMs := Get(body, "start_ms").value.n.v,
        endMs := Get(body, "end_ms").value.n.v,
        isFinal := Get(body, "is_final").value.b,
        confidence := ConfidenceOf(Get(body, "confidence")),
        sourceLang := Get(body, "source_lang").value.s,
        text := Get(body, "text").value.s))
  }

  /** The payload a client sends for a row; an absent confidence is left out. */
  function EncodeSegment(row: TS.Row): Json {
    var fields := map[
      "type" := JStr("stt.segment"),
      "room_id" := JStr(row.roomId),
      "track_id" := JStr(row.trackId),
      "speaker_id" := JStr(row.speakerId),
      "segment_id" := JStr(row.segmentId),
      "start_ms" := JNum(Fin(row.startMs)),
      "end_ms" := JNum(Fin(row.endMs)),
      "is_final" := JBool(row.isFinal),
      "source_lang" := JStr(row.sourceLang),
      "text" := JStr(row.text)];
    match row.confidence
    case Some(c) => JObj(fields["confidence" := JNum(Fin(c))])
    case None => JObj(fields)
  }

  /** Every text field of the row is non-blank. */
  predicate Postable(row: TS.Row) {
    && NonBlank(row.roomId) && NonBlank(row.trackId) && NonBlank(row.speakerId)
    && NonBlank(row.segmentId) && NonBlank(row.sourceLang) && NonBlank(row.text)
  }

  /** The fields the handler reads back from an encoded row. */
  lemma EncodedFields(row: TS.Row)
    ensures var j := Some(EncodeSegment(row));
      && Get(j, "type") == Some(JStr("stt.segment"))
      && Get(j, "room_id") == Some(JStr(row.roomId))
      && Get(j, "track_id") == Some(JStr(row.trackId))
      && Get(j, "speaker_id") == Some(JStr(row.speakerId))
      && Get(j, "segment_id") == Some(JStr(row.segmentId))
      && Get(j, "start_ms") == Some(JNum(Fin(row.startMs)))
      && Get(j, "end_ms") == Some(JNum(Fin(row.endMs)))
      && Get(j, "is_final") == Some(JBool(row.isFinal))
      && Get(j, "source_lang") == Some(JStr(row.sourceLang))
      && Get(j, "text") == Some(JStr(row.text))
      && ConfidenceOf(Get(j, "confidence")) == row.confidence
  {
  }

  /** A payload carrying a row's fields passes validation exactly when the row's text fields are non-blank. */
  lemma FieldsValid(j: Option<Json>, row: TS.Row)
    requires Get(j, "type") == Some(JStr("stt.segment"))
    requires Get(j, "room_id") == Some(JStr(row.roomId))
    requires Get(j, "track_id") == Some(JStr(row.trackId))
    requires Get(j, "speaker_id") == Some(JStr(row.speakerId))
    requires Get(j, "segment_id") == Some(JStr(row.segmentId))
    requires Get(j, "start_ms") == Some(JNum(Fin(row.startMs)))
    requires Get(j, "end_ms") == Some(JNum(Fin(row.endMs)))
    requires Get(j, "is_final") == Some(JBool(row.isFinal))
    requires Get(j, "source_lang") == Some(JStr(row.sourceLang))
    requires Get(j, "text") == Some(JStr(row.text))
    ensures ValidPayload(j) <==> Postable(row)
  {
    assert IsNonEmptyString(Get(j, "room_id")) == NonBlank(row.roomId);
    assert IsNonEmptyString(Get(j, "track_id")) == NonBlank(row.trackId);
    assert IsNonEmptyString(Get(j, "speaker_id")) == NonBlank(row.speakerId);
    assert IsNonEmptyString(Get(j, "segment_id")) == NonBlank(row.segmentId);
    assert IsNonEmptyString(Get(j, "source_lang")) == NonBlank(row.sourceLang);
    assert IsNonEmptyString(Get(j, "text")) == NonBlank(row.text);
  }

  /** The encoding of a row passes validation exactly when its text fields are non-blank. */
  lemma EncodedValid(row: TS.Row)
    ensures ValidPayload(Some(EncodeSegment(row))) <==> Postable(row)
  {
    EncodedFields(row);
    FieldsValid(Some(EncodeSegment(row)), row);
  }

  /** A row with non-blank text fields survives the trip through the payload unchanged, and no other row is accepted. */
  lemma EncodeDecodeRoundTrip(row: TS.Row)
    ensures DecodeSegment(Some(EncodeSegment(row))) == (if Postable(row) then Success(row) else Failure(Fail(400, "invalid_payload")))
  {
    EncodedValid(row);
    if Postable(row) {
      EncodedFields(row);
    }
  }

  /** The handler: 400 on a bad payload, 500 `db_error` when the upsert throws, else `{ ok: true }`. */
  function SegmentPost(body: Option<Json>, env: TS.Env, table: TS.Table, status: int): (r: (Response, TS.Table))
    ensures !ValidPayload(body) ==> r == (Fail(400, "invalid_payload"), table)
    ensures ValidPayload(body) ==>
      var row := DecodeSegment(body).value;
      match TS.Upsert(env, table, row, status)
      case Success(t') => r == (Ok, t') && t'[row.segmentId] == row
      case Failure(_) => r == (Fail(500, "db_error"), table)
    ensures r.0.status == 200 <==> ValidPayload(body) && TS.Upsert(env, table, DecodeSegment(body).value, status).Success?
  {
    match DecodeSegment(body)
    case Failure(resp) => (resp, table)
    case Success(row) =>
      match TS.Upsert(env, table, row, status)
      case Success(t') => (Ok, t')
      case Failure(_) => (Fail(500, "db_error"), table)
  }

  /** Posting the same payload twice leaves the table as posting it once. */
  lemma RepostIdempotent(body: Option<Json>, env: TS.Env, table: TS.Table, status: int)
    requires SegmentPost(body, env, table, status).0 == Ok
    ensures SegmentPost(body, env, SegmentPost(body, env, table, status).1, status)
            == SegmentPost(body, env, table, status)
  {
    var row := DecodeSegment(body).value;
    TS.UpsertIdempotent(env, table, row, status);
  }
}

=== FILE: session_route.dfy ===
/**
 * `POST /api/stt/deepgram/session`: start a server-side transcription
 * session for the signed-in user.
 */
module SessionRoute {
  import opened Wrappers
  import opened Js
  import opened Http
  import SS = SessionStore

  /**
   * The parameters the route passes to session creation, or the response it
   * gives without creating one. A `room_id`, `source_lang` or `stream_url`
   * that is present but not a string makes `.trim()` throw outside the
   * handler's `try`, which the framework answers with a crash.
   */
  function DecodeSession(userId: string, body: Option<Json>): (r: Result<SS.CreateParams, Response>)
    ensures userId == "" ==> r == Failure(Fail(401, "unauthorized"))
    ensures userId != "" && OptionalTrim(Get(body, "room_id")).TypeError? ==> r == Failure(Response(500, Crash))
    ensures userId != "" && !OptionalTrim(Get(body, "room_id")).TypeError? && !Filled(OptionalTrim(Get(body, "room_id"))) ==>
      r == Failure(Fail(400, "room_id_required"))
    ensures userId != "" && Filled(OptionalTrim(Get(body, "room_id")))
            && (OptionalTrim(Get(body, "source_lang")).TypeError? || OptionalTrim(Get(body, "stream_url")).TypeError?) ==>
      r == Failure(Response(500, Crash))
    ensures r.Failure? ==> r.error.status in {400, 401, 500}
    ensures r.Success? ==>
      && Filled(OptionalTrim(Get(body, "room_id")))
      && r.value.roomId == Trim(Get(body, "room_id").value.s) != ""
      && r.value.speakerId == userId
      && r.value.trackId == Some("mic")
      && r.value.model.None?
      && r.value.sourceLang != ""
      && (Filled(OptionalTrim(Get(body, "source_lang"))) ==> r.value.sourceLang == Trim(Get(body, "source_lang").value.s))
      && (!Filled(OptionalTrim(Get(body, "source_lang"))) ==> r.value.sourceLang == "multi")
      && (r.value.streamUrl.Some? <==> Get(body, "stream_url").Some? && Get(body, "stream_url").value.JStr?)
      && (r.value.streamUrl.Some? ==> r.value.streamUrl.value == Trim(Get(body, "stream_url").value.s))
  {
    if userId == "" then Failure(Fail(401, "unauthorized"))
    else
      match OptionalTrim(Get(body, "room_id"))
      case TypeError => Failure(Response(500, Crash))
      case Undefined => Failure(Fail(400, "room_id_required"))
      case Text(roomId) =>
        if roomId == "" then Failure(Fail(400, "room_id_required"))
        else
          var lang := OptionalTrim(Get(body, "source_lang"));
          var url := OptionalTrim(Get(body, "stream_url"));
          if lang.TypeError? || url.TypeError? then Failure(Response(500, Crash))
          else
            Success(SS.CreateParams(
              roomId := roomId,
              speakerId := userId,
              sourceLang := if Filled(lang) then lang.s else "multi",
              trackId := Some("mic"),
              model := None,
              streamUrl := if url.Text? then Some(url.s) else None))
  }

  /** The handler: `{ session_id }` on success, 500 `deepgram_session_failed` when creation throws. */
  function SessionPost(userId: string, body: Option<Json>, reg: SS.Registry, id: string, now: int,
                       deepgramKey: string, connectOk: bool): (r: (Response, SS.Registry))
    ensures DecodeSession(userId, body).Failure? ==> r == (DecodeSession(userId, body).error, reg)
    ensures DecodeSession(userId, body).Success? && (deepgramKey == "" || !connectOk) ==>
      r == (Fail(500, "deepgram_session_failed"), reg)
    ensures r.0.status == 200 <==> DecodeSession(userId, body).Success? && deepgramKey != "" && connectOk
    ensures r.0.status == 200 ==>
      && r.0.body == SessionBody(id)
      && id in r.1 && r.1[id].speakerId == userId && r.1[id].trackId == "mic" && r.1[id].model == "nova-2"
      && r.1[id].roomId != "" && r.1[id].sourceLang != ""
    ensures r.0.status == 200 ==>
      var p := DecodeSession(userId, body).value;
      && r.1[id] == SS.NewSession(id, now, p)
      && r.1[id].roomId == Trim(Get(body, "room_id").value.s)
      && r.1[id].sourceLang == p.sourceLang
      && r.1[id].streamUrl == p.streamUrl
      && (forall k :: k in reg && k != id ==> k in r.1 && r.1[k] == reg[k])
  {
    match DecodeSession(userId, body)
    case Failure(resp) => (resp, reg)
    case Success(p) =>
      match SS.Create(reg, p, id, now, deepgramKey, connectOk)
      case Failure(_) => (Fail(500, "deepgram_session_failed"), reg)
      case Success(created) => (Response(200, SessionBody(created.sessionId)), created.registry)
  }

  /** A session started by the route speaks `multi` when no language was given. */
  lemma DefaultLanguageIsMulti(userId: string, body: Option<Json>, reg: SS.Registry, id: string, now: int, key: string)
    requires DecodeSession(userId, body).Success?
    requires Get(body, "source_lang").None?
    requires key != ""
    ensures var r := SessionPost(userId, body, reg, id, now, key, true);
            r.0.status == 200 && r.1[id].sourceLang == "multi" && SS.ProviderLanguage(r.1[id]) == "multi"
  {
  }
}

=== FILE: session_store.dfy ===
/**
 * The server-side registry of live speech-to-text sessions: one record per
 * session id, with the set of attached event-stream listeners, a closed flag
 * and a once-only persistence-error flag. Provider events are pure functions
 * from an event to an optional segment plus the notices broadcast to the
 * listeners. The provider connection is reduced to whether it is connected
 * and the audio it has been sent; persistence goes through the transcript
 * table model with the server's status as an oracle.
 */
module SessionStore {
  import opened Wrappers
  import opened Js
  import TS = TranscriptStore

  /** One attached event-stream listener. */
  type Controller = nat

  type Chunk = seq<bv8>

  /** The upstream audio pull, which only a session with a stream URL starts. */
  datatype Pull = NoPull | Pulling | PullAborted

  datatype Session = Session(
    id: string,
    createdAt: int,
    roomId: string,
    speakerId: string,
    trackId: string,
    sourceLang: string,
    model: string,
    streamUrl: Option<string>,
    pull: Pull,
    connected: bool,
    audio: seq<Chunk>,
    sequence: nat,
    controllers: set<Controller>,
    closed: bool,
    hasPersistErrorNotified: bool)

  type Registry = map<string, Session>

  /** Every registered session sits under its own id and is open. */
  predicate Live(reg: Registry) {
    forall id :: id in reg ==> reg[id].id == id && !reg[id].closed
  }

  /** The server-sent events a session emits. */
  datatype Notice =
    | Hello(sessionId: string)
    | Opened(sessionId: string)
    | StreamError(sessionId: string, message: string)
    | SegmentNotice(segment: TS.Row)
    | PersistError(sessionId: string, error: TS.StoreError)
    | ProviderError(sessionId: string, message: string)
    | ProviderClosed(sessionId: string)

  /** One notice sent to a set of listeners. */
  datatype Delivery = Delivery(to: set<Controller>, notice: Notice)

  // ---------------------------------------------------------------------
  // Registry operations
  // ---------------------------------------------------------------------

  datatype CreateParams = CreateParams(
    roomId: string,
    speakerId: string,
    sourceLang: string,
    trackId: Option<string>,
    model: Option<string>,
    streamUrl: Option<string>)

  datatype CreateError = DeepgramKeyMissing | ConnectFailed

  datatype Created = Created(registry: Registry, sessionId: string)

  /** A freshly created session: track `mic` unless given, language `multi` and model `nova-2` unless non-empty. */
  function NewSession(id: string, now: int, p: CreateParams): (s: Session)
    ensures s.id == id && s.roomId == p.roomId && s.speakerId == p.speakerId
    ensures p.trackId.None? ==> s.trackId == "mic"
    ensures p.trackId.Some? ==> s.trackId == p.trackId.value
    ensures s.sourceLang == (if p.sourceLang == "" then "multi" else p.sourceLang)
    ensures s.model == (if p.model.None? || p.model.value == "" then "nova-2" else p.model.value)
    ensures s.streamUrl == p.streamUrl && s.createdAt == now
    ensures s.controllers == {} && s.audio == [] && s.connected && s.pull == NoPull
    ensures !s.closed && !s.hasPersistErrorNotified
  {
    Session(
      id := id,
      createdAt := now,
      roomId := p.roomId,
      speakerId := p.speakerId,
      trackId := p.trackId.GetOr("mic"),
      sourceLang := if p.sourceLang == "" then "multi" else p.sourceLang,
      model := if p.model.None? || p.model.value == "" then "nova-2" else p.model.value,
      streamUrl := p.streamUrl,
      pull := NoPull,
      connected := true,
      audio := [],
      sequence := 0,
      controllers := {},
      closed := false,
      hasPersistErrorNotified := false)
  }

  /** The language the provider connection is opened with: `auto` asks for `multi`. */
  function ProviderLanguage(s: Session): (lang: string)
    ensures s.sourceLang == "auto" ==> lang == "multi"
    ensures s.sourceLang != "auto" ==> lang == s.sourceLang
  {
    if s.sourceLang == "auto" then "multi" else s.sourceLang
  }

  /**
   * `createDeepgramSession`: `id` stands for the random UUID and `now` for the
   * clock. A missing key or a failed connection throws and registers nothing.
   */
  function Create(reg: Registry, p: CreateParams, id: string, now: int, deepgramKey: string, connectOk: bool)
    : (r: Result<Created, CreateError>)
    ensures deepgramKey == "" ==> r == Failure(DeepgramKeyMissing)
    ensures deepgramKey != "" && !connectOk ==> r == Failure(ConnectFailed)
    ensures r.Success? <==> deepgramKey != "" && connectOk
    ensures r.Success? ==> r.value.sessionId == id && id in r.value.registry
    ensures r.Success? ==> r.value.registry[id] == NewSession(id, now, p)
    ensures r.Success? ==> forall k :: k in reg && k != id ==> k in r.value.registry && r.value.registry[k] == reg[k]
    ensures r.Success? && Live(reg) ==> Live(r.value.registry)
  {
    if deepgramKey == "" then Failure(DeepgramKeyMissing)
    else if !connectOk then Failure(ConnectFailed)
    else Success(Created(reg[id := NewSession(id, now, p)], id))
  }

  datatype Attached = Attached(registry: Registry, session: Option<Session>, sent: seq<Delivery>)

  /** `addSseController`: refuses an unknown or closed session; otherwise registers `c` and greets it alone. */
  function AddSseController(reg: Registry, sid: string, c: Controller): (r: Attached)
    ensures sid !in reg || reg[sid].closed ==> r == Attached(reg, None, [])
    ensures sid in reg && !reg[sid].closed ==>
      && r.session.Some?
      && r.registry == reg[sid := reg[sid].(controllers := reg[sid].controllers + {c})]
      && r.sent == [Delivery({c}, Hello(sid))]
    ensures Live(reg) ==> Live(r.registry)
  {
    if sid !in reg || reg[sid].closed then Attached(reg, None, [])
    else
      var s := reg[sid].(controllers := reg[sid].controllers + {c});
      Attached(reg[sid := s], Some(s), [Delivery({c}, Hello(sid))])
  }

  /** `removeSseController`: a no-op for an unknown session; otherwise `c` is no longer attached. */
  function RemoveSseController(reg: Registry, sid: string, c: Controller): (r: Registry)
    ensures sid !in reg ==> r == reg
    ensures sid in reg ==> r == reg[sid := reg[sid].(controllers := reg[sid].controllers - {c})]
    ensures sid in reg ==> c !in r[sid].controllers
    ensures Live(reg) ==> Live(r)
  {
    if sid !in reg then reg
    else reg[sid := reg[sid].(controllers := reg[sid].controllers - {c})]
  }

  /** Removing the same listener twice is removing it once. */
  lemma RemoveTwiceHarmless(reg: Registry, sid: string, c: Controller)
    ensures RemoveSseController(RemoveSseController(reg, sid, c), sid, c) == RemoveSseController(reg, sid, c)
  {
    if sid in reg {
      var s := reg[sid];
      assert s.controllers - {c} - {c} == s.controllers - {c};
    }
  }

  /** Attaching a new listener and detaching it again leaves the registry as it was. */
  lemma AttachDetachRoundTrip(reg: Registry, sid: string, c: Controller)
    requires sid in reg && !reg[sid].closed
    requires c !in reg[sid].controllers
    ensures RemoveSseController(AddSseController(reg, sid, c).registry, sid, c) == reg
  {
    var s := reg[sid];
    assert s.controllers + {c} - {c} == s.controllers;
    assert s.(controllers := s.controllers) == s;
  }

  datatype IngestError = SessionNotFound

  /** `ingestDeepgramAudio`: throws for an unknown or closed session; otherwise forwards the chunk. */
  function Ingest(reg: Registry, sid: string, chunk: Chunk): (r: Result<Registry, IngestError>)
    ensures r.Failure? <==> sid !in reg || reg[sid].closed
    ensures r.Success? ==> r.value == reg[sid := reg[sid].(audio := reg[sid].audio + [chunk])]
    ensures r.Success? && Live(reg) ==> Live(r.value)
  {
    if sid !in reg || reg[sid].closed then Failure(SessionNotFound)
    else Success(reg[sid := reg[sid].(audio := reg[sid].audio + [chunk])])
  }

  datatype CloseOutcome = CloseOutcome(registry: Registry, released: Option<Session>)

  /** The session's resources after close: flagged closed, pull aborted, provider disconnected. */
  function Released(s: Session): (r: Session)
    ensures r.closed && !r.connected && r.pull != Pulling
    ensures s.pull == Pulling ==> r.pull == PullAborted
    ensures r.id == s.id && r.controllers == s.controllers && r.audio == s.audio
  {
    s.(closed := true, pull := if s.pull == Pulling then PullAborted else s.pull, connected := false)
  }

  /** `closeDeepgramSession`: an unknown id returns at once; otherwise release and unregister. */
  function Close(reg: Registry, sid: string): (r: CloseOutcome)
    ensures sid !in r.registry
    ensures sid !in reg ==> r == CloseOutcome(reg, None)
    ensures sid in reg ==> r.registry == reg - {sid} && r.released == Some(Released(reg[sid]))
    ensures Live(reg) ==> Live(r.registry)
  {
    if sid !in reg then CloseOutcome(reg, None)
    else CloseOutcome(reg - {sid}, Some(Released(reg[sid])))
  }

  /** A second close finds nothing and changes nothing. */
  lemma CloseIdempotent(reg: Registry, sid: string)
    ensures Close(Close(reg, sid).registry, sid) == CloseOutcome(Close(reg, sid).registry, None)
  {
  }

  /** After close, ingest throws `session_not_found` and no listener can attach. */
  lemma ClosedSessionRefusesWork(reg: Registry, sid: string, chunk: Chunk, c: Controller)
    ensures Ingest(Close(reg, sid).registry, sid, chunk) == Failure(SessionNotFound)
    ensures AddSseController(Close(reg, sid).registry, sid, c).session.None?
  {
  }

  // ---------------------------------------------------------------------
  // Provider transcript events
  // ---------------------------------------------------------------------

  datatype Word = Word(speaker: Option<int>)

  datatype Alternative = Alternative(transcript: Option<string>, words: Option<seq<Word>>, confidence: Option<real>)

  /**
   * A provider event as the transcript handler reads it: `kind` is `data.type`,
   * `alternatives` is `data.channel.alternatives` (empty when absent), and a
   * `None` number stands for a field that is missing or not a number.
   */
  datatype TranscriptEvent = TranscriptEvent(
    kind: Option<string>,
    alternatives: seq<Alternative>,
    isFinal: bool,
    speechFinal: bool,
    start: Option<real>,
    duration: Option<real>)

  datatype Normalized = Normalized(transcript: string, words: seq<Word>)

  /** `normalizeTranscript`: the top alternative's trimmed transcript, or nothing when blank or absent. */
  function NormalizeTranscript(ev: TranscriptEvent): (r: Option<Normalized>)
    ensures r.None? <==> (|ev.alternatives| == 0 || ev.alternatives[0].transcript.None?
                          || AllWhitespace(ev.alternatives[0].transcript.value))
    ensures r.Some? ==> r.value.transcript == Trim(ev.alternatives[0].transcript.value)
    ensures r.Some? ==> r.value.words == ev.alternatives[0].words.GetOr([])
  {
    if |ev.alternatives| == 0 then None
    else
      var alt := ev.alternatives[0];
      match alt.transcript
      case None => None
      case Some(raw) =>
        TrimEmptyIff(raw);
        var t := Trim(raw);
        if t == "" then None else Some(Normalized(t, alt.words.GetOr([])))
  }

  /** The distinct numeric speaker tags of the words. */
  function Speakers(words: seq<Word>): (r: set<int>)
    ensures forall i :: 0 <= i < |words| && words[i].speaker.Some? ==> words[i].speaker.value in r
    ensures forall x :: x in r ==> exists i :: 0 <= i < |words| && words[i].speaker == Some(x)
    decreases |words|
  {
    if |words| == 0 then {}
    else
      var rest := Speakers(words[1..]);
      assert forall x :: x in rest ==> exists i :: 0 <= i < |words| && words[i].speaker == Some(x) by {
        forall x | x in rest
          ensures exists i :: 0 <= i < |words| && words[i].speaker == Some(x)
        {
          var j :| 0 <= j < |words[1..]| && words[1..][j].speaker == Some(x);
          assert words[j + 1].speaker == Some(x);
        }
      }
      assert forall i :: 1 <= i < |words| && words[i].speaker.Some? ==> words[1..][i - 1] == words[i];
      match words[0].speaker
      case Some(x) => {x} + rest
      case None => rest
  }

  /** Index of the first word with a numeric speaker, or `|words|` when there is none. */
  function FirstTagged(words: seq<Word>): (k: nat)
    ensures k <= |words|
    ensures forall i :: 0 <= i < k ==> words[i].speaker.None?
    ensures k < |words| ==> words[k].speaker.Some?
    decreases |words|
  {
    if |words| == 0 then 0
    else if words[0].speaker.Some? then 0
    else 1 + FirstTagged(words[1..])
  }

  /**
   * `inferDiarizeSpeaker`: nothing when no word is tagged; the one speaker
   * when all tags agree; otherwise the first tag marked ambiguous with `+`.
   */
  function InferDiarizeSpeaker(words: seq<Word>): (r: Option<string>)
    ensures r.None? <==> Speakers(words) == {}
    ensures forall x :: Speakers(words) == {x} ==> r == Some(IntToString(x))
    ensures |Speakers(words)| > 1 ==>
      FirstTagged(words) < |words| && r == Some(IntToString(words[FirstTagged(words)].speaker.value) + "+")
    ensures r.Some? ==> |r.value| >= 1 && (r.value[|r.value| - 1] == '+' <==> |Speakers(words)| > 1)
  {
    var speakers := Speakers(words);
    var k := FirstTagged(words);
    if k == |words| then None
    else
      var first := words[k].speaker.value;
      assert first in speakers;
      if |speakers| > 1 then Some(IntToString(first) + "+") else
        assert |speakers - {first}| == 0;
        assert speakers == {first};
        Some(IntToString(first))
  }

  datatype Bounds = Bounds(startMs: nat, endMs: nat)

  /**
   * Seconds to milliseconds: `max(0, round(start * 1000))` and
   * `max(startMs, round((start + duration) * 1000))`, missing values read as 0.
   */
  function MsBounds(start: Option<real>, duration: Option<real>): (b: Bounds)
    ensures b.startMs <= b.endMs
    ensures start.GetOr(0.0) >= 0.0 ==>
      start.GetOr(0.0) * 1000.0 - 0.5 < b.startMs as real <= start.GetOr(0.0) * 1000.0 + 0.5
    ensures start.GetOr(0.0) * 1000.0 < -0.5 ==> b.startMs == 0
    ensures (start.GetOr(0.0) + duration.GetOr(0.0)) * 1000.0 - 0.5 < b.endMs as real
    ensures b.endMs == b.startMs
            || (b.endMs as real <= (start.GetOr(0.0) + duration.GetOr(0.0)) * 1000.0 + 0.5)
  {
    var s := start.GetOr(0.0);
    var d := duration.GetOr(0.0);
    var rs := Round(s * 1000.0);
    var startMs: nat := if rs > 0 then rs else 0;
    var re := Round((s + d) * 1000.0);
    Bounds(startMs, if re > startMs then re else startMs)
  }

  /** An event with no duration is a point: it ends where it starts. */
  lemma NoDurationIsPoint(start: Option<real>)
    ensures MsBounds(start, None).endMs == MsBounds(start, None).startMs
    ensures MsBounds(start, None) == MsBounds(start, Some(0.0))
  {
  }

  /** The id shared by every revision of one utterance. */
  function SegmentId(sessionId: string, startMs: nat, tag: string): (id: string)
    ensures |id| > 7 + |sessionId| && id[..7 + |sessionId| + 1] == "seg_dg_" + sessionId + "_"
  {
    "seg_dg_" + sessionId + "_" + NatToString(startMs) + "_" + tag
  }

  /** Within a session, the id names the start and the label exactly. */
  lemma SegmentIdInjective(sessionId: string, a: nat, la: string, b: nat, lb: string)
    ensures SegmentId(sessionId, a, la) == SegmentId(sessionId, b, lb) <==> a == b && la == lb
  {
    if SegmentId(sessionId, a, la) == SegmentId(sessionId, b, lb) {
      var prefix := "seg_dg_" + sessionId + "_";
      var da := NatToString(a);
      var db := NatToString(b);
      assert SegmentId(sessionId, a, la) == prefix + (da + ['_'] + la);
      assert SegmentId(sessionId, b, lb) == prefix + (db + ['_'] + lb);
      assert da + ['_'] + la == SegmentId(sessionId, a, la)[|prefix|..];
      assert db + ['_'] + lb == SegmentId(sessionId, b, lb)[|prefix|..];
      SplitAtSeparator(da, la, db, lb, '_');
      NatToStringInjective(a, b);
    }
  }

  /** The label the id carries: the diarized speaker, else the session's speaker. */
  function SpeakerLabel(s: Session, n: Normalized): string {
    InferDiarizeSpeaker(n.words).GetOr(s.speakerId)
  }

  /** The segment a non-blank transcript event becomes. */
  function SegmentOf(s: Session, ev: TranscriptEvent, n: Normalized): (row: TS.Row)
    requires |ev.alternatives| > 0
    ensures row.segmentId == SegmentId(s.id, MsBounds(ev.start, ev.duration).startMs, SpeakerLabel(s, n))
    ensures 0.0 <= row.startMs <= row.endMs
    ensures var b := MsBounds(ev.start, ev.duration); row.startMs == b.startMs as real && row.endMs == b.endMs as real
    ensures row.confidence == ev.alternatives[0].confidence
    ensures row.isFinal <==> ev.isFinal || ev.speechFinal
    ensures row.roomId == s.roomId && row.trackId == s.trackId && row.speakerId == s.speakerId
    ensures row.sourceLang == s.sourceLang && row.text == n.transcript
  {
    var b := MsBounds(ev.start, ev.duration);
    TS.Row(
      roomId := s.roomId,
      trackId := s.trackId,
      speakerId := s.speakerId,
      segmentId := SegmentId(s.id, b.startMs, SpeakerLabel(s, n)),
      startMs := b.startMs as real,
      endMs := b.endMs as real,
      isFinal := ev.isFinal || ev.speechFinal,
      confidence := ev.alternatives[0].confidence,
      sourceLang := s.sourceLang,
      text := n.transcript)
  }

  datatype TranscriptOutcome = TranscriptOutcome(
    session: Session,
    table: TS.Table,
    segment: Option<TS.Row>,
    sent: seq<Delivery>)

  /**
   * The transcript handler. A closed session, a `SpeechStarted` marker or a
   * blank transcript yield nothing. Otherwise the segment, interim or final,
   * is upserted; a failed upsert sends `persist_error` only if the session has
   * not sent one yet; and the segment is broadcast in every case.
   */
  function OnTranscript(s: Session, ev: TranscriptEvent, env: TS.Env, table: TS.Table, status: int)
    : (o: TranscriptOutcome)
    ensures (s.closed || ev.kind == Some("SpeechStarted") || NormalizeTranscript(ev).None?)
            <==> o.segment.None?
    ensures o.segment.None? ==> o == TranscriptOutcome(s, table, None, [])
    ensures o.segment.Some? ==>
      && o.segment.value == SegmentOf(s, ev, NormalizeTranscript(ev).value)
      && |o.sent| >= 1
      && o.sent[|o.sent| - 1] == Delivery(s.controllers, SegmentNotice(o.segment.value))
    ensures o.segment.Some? && TS.Upsert(env, table, o.segment.value, status).Success? ==>
      && o.table == TS.Upsert(env, table, o.segment.value, status).value
      && o.sent == [Delivery(s.controllers, SegmentNotice(o.segment.value))]
      && o.session == s
    ensures o.segment.Some? && TS.Upsert(env, table, o.segment.value, status).Failure? ==>
      && o.table == table
      && o.session == s.(hasPersistErrorNotified := true)
      && (s.hasPersistErrorNotified ==> |o.sent| == 1)
      && (!s.hasPersistErrorNotified ==> |o.sent| == 2 && o.sent[0] == Delivery(s.controllers,
            PersistError(s.id, TS.Upsert(env, table, o.segment.value, status).error)))
  {
    if s.closed || ev.kind == Some("SpeechStarted") then TranscriptOutcome(s, table, None, [])
    else
      match NormalizeTranscript(ev)
      case None => TranscriptOutcome(s, table, None, [])
      case Some(n) =>
        var row := SegmentOf(s, ev, n);
        var broadcast := Delivery(s.controllers, SegmentNotice(row));
        match TS.Upsert(env, table, row, status)
        case Success(t') => TranscriptOutcome(s, t', Some(row), [broadcast])
        case Failure(e) =>
          if s.hasPersistErrorNotified then
            TranscriptOutcome(s, table, Some(row), [broadcast])
          else
            TranscriptOutcome(s.(hasPersistErrorNotified := true), table, Some(row),
                              [Delivery(s.controllers, PersistError(s.id, e)), broadcast])
  }

  /** Interim events are persisted like final ones: the table then holds the interim revision. */
  lemma InterimIsPersisted(s: Session, ev: TranscriptEvent, env: TS.Env, table: TS.Table, status: int)
    requires !s.closed && ev.kind != Some("SpeechStarted") && NormalizeTranscript(ev).Some?
    requires !ev.isFinal && !ev.speechFinal
    requires TS.EnvError(env).None? && TS.IsOk(status)
    ensures var o := OnTranscript(s, ev, env, table, status);
            o.segment.Some? && !o.segment.value.isFinal
            && o.segment.value.segmentId in o.table && o.table[o.segment.value.segmentId] == o.segment.value
  {
  }

  /** A transcript event together with the status the store answers its upsert with. */
  datatype Attempt = Attempt(event: TranscriptEvent, status: int)

  datatype RunOutcome = RunOutcome(session: Session, table: TS.Table, sent: seq<Delivery>)

  /** Feeds a session a series of transcript events in order. */
  function RunTranscripts(s: Session, env: TS.Env, table: TS.Table, attempts: seq<Attempt>): RunOutcome
    decreases |attempts|
  {
    if |attempts| == 0 then RunOutcome(s, table, [])
    else
      var o := OnTranscript(s, attempts[0].event, env, table, attempts[0].status);
      var rest := RunTranscripts(o.session, env, o.table, attempts[1..]);
      RunOutcome(rest.session, rest.table, o.sent + rest.sent)
  }

  function CountPersistErrors(sent: seq<Delivery>): nat
    decreases |sent|
  {
    if |sent| == 0 then 0
    else (if sent[0].notice.PersistError? then 1 else 0) + CountPersistErrors(sent[1..])
  }

  lemma {:induction false} CountPersistErrorsAppend(a: seq<Delivery>, b: seq<Delivery>)
    ensures CountPersistErrors(a + b) == CountPersistErrors(a) + CountPersistErrors(b)
    decreases |a|
  {
    if |a| == 0 {
      assert a + b == b;
    } else {
      assert (a + b)[0] == a[0];
      assert (a + b)[1..] == a[1..] + b;
      CountPersistErrorsAppend(a[1..], b);
    }
  }

  /**
   * However many upserts fail, a session sends `persist_error` at most once,
   * and never again once it has sent one.
   */
  lemma {:induction false} PersistErrorAtMostOnce(s: Session, env: TS.Env, table: TS.Table, attempts: seq<Attempt>)
    ensures CountPersistErrors(RunTranscripts(s, env, table, attempts).sent)
            <= (if s.hasPersistErrorNotified then 0 else 1)
    ensures s.hasPersistErrorNotified ==> RunTranscripts(s, env, table, attempts).session.hasPersistErrorNotified
    decreases |attempts|
  {
    if |attempts| > 0 {
      var o := OnTranscript(s, attempts[0].event, env, table, attempts[0].status);
      var rest := RunTranscripts(o.session, env, o.table, attempts[1..]);
      PersistErrorAtMostOnce(o.session, env, o.table, attempts[1..]);
      CountPersistErrorsAppend(o.sent, rest.sent);
      if o.segment.Some? {
        var row := o.segment.value;
        assert CountPersistErrors([Delivery(s.controllers, SegmentNotice(row))]) == 0;
        if |o.sent| == 2 {
          assert o.sent[1..] == [Delivery(s.controllers, SegmentNotice(row))];
        }
      }
    }
  }

  // ---------------------------------------------------------------------
  // Other provider events
  // ---------------------------------------------------------------------

  datatype Step = Step(registry: Registry, sent: seq<Delivery>)

  /** The open event: announce it, and start pulling when a stream URL is set. */
  function OnOpen(s: Session): (r: (Session, seq<Delivery>))
    ensures r.1 == [Delivery(s.controllers, Opened(s.id))]
    ensures (s.streamUrl.Some? && s.streamUrl.value != "") ==> r.0.pull == Pulling
    ensures !(s.streamUrl.Some? && s.streamUrl.value != "") ==> r.0 == s
  {
    var s' := if s.streamUrl.Some? && s.streamUrl.value != "" then s.(pull := Pulling) else s;
    (s', [Delivery(s.controllers, Opened(s.id))])
  }

  /** A failed upstream pull is reported unless the session is already closed. */
  function OnStreamFailure(s: Session, message: string): (sent: seq<Delivery>)
    ensures s.closed <==> sent == []
  {
    if s.closed then [] else [Delivery(s.controllers, StreamError(s.id, message))]
  }

  /** The provider's error event: a notice to every listener, and the session stays open. */
  function OnProviderError(reg: Registry, s: Session, message: string): (r: Step)
    ensures r.registry == reg
    ensures r.sent == [Delivery(s.controllers, ProviderError(s.id, message))]
  {
    Step(reg, [Delivery(s.controllers, ProviderError(s.id, message))])
  }

  /** The provider's close event: a notice to every listener, then close. */
  function OnProviderClose(reg: Registry, s: Session): (r: Step)
    ensures s.id !in r.registry
    ensures r.registry == Close(reg, s.id).registry
    ensures r.sent == [Delivery(s.controllers, ProviderClosed(s.id))]
  {
    Step(Close(reg, s.id).registry, [Delivery(s.controllers, ProviderClosed(s.id))])
  }

  /** After a provider error the session still accepts audio; after a provider close it does not. */
  lemma ErrorKeepsSessionOpen(reg: Registry, sid: string, message: string, chunk: Chunk)
    requires Live(reg) && sid in reg
    ensures Ingest(OnProviderError(reg, reg[sid], message).registry, sid, chunk).Success?
    ensures Ingest(OnProviderClose(reg, reg[sid]).registry, sid, chunk).Failure?
  {
  }

  /** Routes a transcript event to a registered session and stores its updated flag. */
  function DispatchTranscript(reg: Registry, sid: string, ev: TranscriptEvent, env: TS.Env, table: TS.Table, status: int)
    : (r: (Registry, TS.Table, seq<Delivery>))
    ensures sid !in reg ==> r == (reg, table, [])
    ensures Live(reg) ==> Live(r.0)
    ensures r.0.Keys == reg.Keys
  {
    if sid !in reg then (reg, table, [])
    else
      var o := OnTranscript(reg[sid], ev, env, table, status);
      (reg[sid := o.session], o.table, o.sent)
  }
}

=== FILE: sorting.dfy ===
/**
 * Ordered insertion into a sorted sequence, the building block for the two
 * ordered views the pipeline produces: the store's page of segments and the
 * client's caption window.
 */
module Sorting {

  /** `le` is a total preorder: any two values compare, and comparison chains. */
  ghost predicate TotalPreorder<T(!new)>(le: (T, T) -> bool) {
    && (forall a, b :: le(a, b) || le(b, a))
    && (forall a, b, c :: le(a, b) && le(b, c) ==> le(a, c))
  }

  predicate SortedBy<T>(s: seq<T>, le: (T, T) -> bool) {
    forall i, j :: 0 <= i < j < |s| ==> le(s[i], s[j])
  }

  /** No two elements share a key. */
  predicate KeysDistinct<T, K(==)>(s: seq<T>, key: T -> K) {
    forall i, j :: 0 <= i < j < |s| ==> key(s[i]) != key(s[j])
  }

  /** The first index whose element `x` may precede. */
  function Position<T>(s: seq<T>, x: T, le: (T, T) -> bool): (k: nat)
    ensures k <= |s|
    ensures forall i :: 0 <= i < k ==> !le(x, s[i])
    ensures k < |s| ==> le(x, s[k])
    decreases |s|
  {
    if |s| == 0 then 0 else if le(x, s[0]) then 0 else 1 + Position(s[1..], x, le)
  }

  lemma InsertAtPositionSorted<T(!new)>(s: seq<T>, x: T, le: (T, T) -> bool, k: nat)
    requires SortedBy(s, le) && TotalPreorder(le)
    requires k == Position(s, x, le)
    ensures SortedBy(s[..k] + [x] + s[k..], le)
  {
    var r := s[..k] + [x] + s[k..];
    forall i, j | 0 <= i < j < |r|
      ensures le(r[i], r[j])
    {
      if j < k {
        assert r[i] == s[i] && r[j] == s[j];
      } else if j == k {
        assert r[i] == s[i] && r[j] == x;
        assert le(x, s[i]) || le(s[i], x);
      } else if i < k {
        assert r[i] == s[i] && r[j] == s[j - 1];
      } else if i == k {
        assert r[i] == x && r[j] == s[j - 1];
        assert le(x, s[k]);
        if j - 1 > k {
          assert le(s[k], s[j - 1]);
        }
      } else {
        assert r[i] == s[i - 1] && r[j] == s[j - 1];
      }
    }
  }

  /** Inserts `x` into the sorted `s`, after every element it may not precede. */
  function Insert<T(!new)>(s: seq<T>, x: T, le: (T, T) -> bool): (r: seq<T>)
    requires SortedBy(s, le) && TotalPreorder(le)
    ensures SortedBy(r, le)
    ensures multiset(r) == multiset(s) + multiset{x}
    ensures |r| == |s| + 1
    ensures forall y :: y in r <==> y == x || y in s
  {
    var k := Position(s, x, le);
    InsertAtPositionSorted(s, x, le, k);
    assert s == s[..k] + s[k..];
    var r := s[..k] + [x] + s[k..];
    assert multiset(r) == multiset(s[..k]) + multiset{x} + multiset(s[k..]);
    assert forall y :: y in r <==> y in multiset(r);
    r
  }

  /** Inserting an element with a fresh key keeps keys distinct. */
  lemma InsertKeepsKeysDistinct<T(!new), K>(s: seq<T>, x: T, le: (T, T) -> bool, key: T -> K)
    requires SortedBy(s, le) && TotalPreorder(le)
    requires KeysDistinct(s, key)
    requires forall i :: 0 <= i < |s| ==> key(s[i]) != key(x)
    ensures KeysDistinct(Insert(s, x, le), key)
  {
    var k := Position(s, x, le);
    var r := Insert(s, x, le);
    assert r == s[..k] + [x] + s[k..];
    forall i, j | 0 <= i < j < |r|
      ensures key(r[i]) != key(r[j])
    {
      if j < k {
        assert r[i] == s[i] && r[j] == s[j];
      } else if j == k {
        assert r[i] == s[i] && r[j] == x;
      } else if i < k {
        assert r[i] == s[i] && r[j] == s[j - 1];
      } else if i == k {
        assert r[i] == x && r[j] == s[j - 1];
      } else {
        assert r[i] == s[i - 1] && r[j] == s[j - 1];
      }
    }
  }
}

=== FILE: transcript_store.dfy ===
/**
 * The transcript table behind the REST client: rows keyed by `segment_id`,
 * written with an upsert that merges duplicates, and read back as pages of
 * final rows for one room, ordered by `(start_ms, segment_id)` and cut after
 * a cursor. The HTTP exchange is an oracle: the server's status code and
 * whether its body was a JSON array are parameters; on a 2xx status the
 * server is taken to have applied the write or evaluated the query.
 */
module TranscriptStore {
  import opened Wrappers
  import opened Js
  import Sorting

  /** One row of `transcript_segments` (also the shape of a broadcast segment). */
  datatype Row = Row(
    roomId: string,
    trackId: string,
    speakerId: string,
    segmentId: string,
    startMs: real,
    endMs: real,
    isFinal: bool,
    confidence: Option<real>,
    sourceLang: string,
    text: string)

  type Table = map<string, Row>

  /** The table's primary key: every row is stored under its own `segment_id`. */
  predicate WellKeyed(t: Table) {
    forall k :: k in t ==> t[k].segmentId == k
  }

  /** The two environment variables the client reads; an unset variable reads as "". */
  datatype Env = Env(url: string, serviceRoleKey: string)

  datatype StoreError =
    | UrlMissing
    | ServiceRoleKeyMissing
    | UpsertFailed(status: int)
    | ListFailed(status: int)

  /** The error reading the environment throws, if any; checked before any request. */
  function EnvError(env: Env): (r: Option<StoreError>)
    ensures r.None? <==> env.url != "" && env.serviceRoleKey != ""
    ensures env.url == "" ==> r == Some(UrlMissing)
    ensures env.url != "" && env.serviceRoleKey == "" ==> r == Some(ServiceRoleKeyMissing)
  {
    if env.url == "" then Some(UrlMissing)
    else if env.serviceRoleKey == "" then Some(ServiceRoleKeyMissing)
    else None
  }

  /** `Response.ok`. */
  predicate IsOk(status: int) {
    200 <= status <= 299
  }

  /** The server side of an upsert with `on_conflict=segment_id` and merge-duplicates. */
  function Write(t: Table, row: Row): (t': Table)
    ensures row.segmentId in t' && t'[row.segmentId] == row
    ensures t'.Keys == t.Keys + {row.segmentId}
    ensures forall k :: k in t && k != row.segmentId ==> t'[k] == t[k]
  {
    t[row.segmentId := row]
  }

  /** `upsertTranscriptSegment`: fails on a missing setting or a non-2xx status, else writes. */
  function Upsert(env: Env, t: Table, row: Row, status: int): (r: Result<Table, StoreError>)
    ensures EnvError(env).Some? ==> r == Failure(EnvError(env).value)
    ensures EnvError(env).None? && !IsOk(status) ==> r == Failure(UpsertFailed(status))
    ensures r.Success? <==> EnvError(env).None? && IsOk(status)
    ensures r.Success? ==> row.segmentId in r.value && r.value[row.segmentId] == row
    ensures r.Success? ==> r.value.Keys == t.Keys + {row.segmentId}
    ensures r.Success? ==> forall k :: k in t && k != row.segmentId ==> r.value[k] == t[k]
  {
    match EnvError(env)
    case Some(e) => Failure(e)
    case None => if IsOk(status) then Success(Write(t, row)) else Failure(UpsertFailed(status))
  }

  /** Writes keep the table keyed by `segment_id`. */
  lemma WriteKeepsWellKeyed(t: Table, row: Row)
    requires WellKeyed(t)
    ensures WellKeyed(Write(t, row))
  {
  }

  /** Upserting the same row twice leaves the table as upserting it once. */
  lemma UpsertIdempotent(env: Env, t: Table, row: Row, status: int)
    requires Upsert(env, t, row, status).Success?
    ensures Upsert(env, Upsert(env, t, row, status).value, row, status) == Upsert(env, t, row, status)
  {
    assert Write(Write(t, row), row) == Write(t, row);
  }

  /** A later write to the same `segment_id` replaces every field of the earlier one. */
  lemma LastWriteWins(t: Table, a: Row, b: Row)
    requires a.segmentId == b.segmentId
    ensures Write(Write(t, a), b) == Write(t, b)
    ensures |Write(Write(t, a), b)| == |Write(t, b)|
  {
  }

  // ---------------------------------------------------------------------
  // Listing final segments
  // ---------------------------------------------------------------------

  /** The parameters of `listFinalTranscriptSegments`; `None` is `undefined`. */
  datatype ListParams = ListParams(
    roomId: string,
    afterStartMs: Option<Num>,
    afterSegmentId: Option<string>,
    limit: Option<Num>)

  /** `Math.min(100, x)` on a JavaScript number. */
  function MinHundred(n: Num): Num {
    match n
    case NaN => NaN
    case PosInf => Fin(100.0)
    case NegInf => NegInf
    case Fin(v) => Fin(if v < 100.0 then v else 100.0)
  }

  /** `Math.max(1, x)` on a JavaScript number. */
  function MaxOne(n: Num): Num {
    match n
    case NaN => NaN
    case PosInf => PosInf
    case NegInf => Fin(1.0)
    case Fin(v) => Fin(if v > 1.0 then v else 1.0)
  }

  /** `Math.max(1, Math.min(100, limit ?? 20))`. */
  function EffectiveLimit(limit: Option<Num>): (r: Num)
    ensures limit.None? ==> r == Fin(20.0)
    ensures r.NaN? <==> limit == Some(NaN)
    ensures !r.NaN? ==> r.Fin? && 1.0 <= r.v <= 100.0
    ensures limit.Some? && limit.value.Fin? && 1.0 <= limit.value.v <= 100.0 ==> r == limit.value
    ensures limit.Some? && limit.value.Fin? && limit.value.v < 1.0 ==> r == Fin(1.0)
    ensures limit.Some? && limit.value.Fin? && limit.value.v > 100.0 ==> r == Fin(100.0)
    ensures limit == Some(PosInf) ==> r == Fin(100.0)
    ensures limit == Some(NegInf) ==> r == Fin(1.0)
  {
    MaxOne(MinHundred(limit.GetOr(Fin(20.0))))
  }

  /** How many rows a page may hold; a NaN limit (never sent by the poll route) caps nothing. */
  function PageCap(p: ListParams): (cap: Option<nat>)
    ensures cap.None? <==> p.limit == Some(NaN)
    ensures cap.Some? ==> 1 <= cap.value <= 100
    ensures p.limit.None? ==> cap == Some(20)
  {
    var l := EffectiveLimit(p.limit);
    if l.Fin? then Some(if l.v >= 0.0 then l.v.Floor else 0) else None
  }

  /** The cursor condition the query carries. */
  datatype CursorFilter =
    | NoCursor
    | AfterStart(startMs: real)
    | AfterPair(startMs: real, segmentId: string)

  /** A finite `after_start_ms` sets the cursor; a truthy `after_segment_id` adds the tie-break. */
  function CursorFilterOf(p: ListParams): (c: CursorFilter)
    ensures c.NoCursor? <==> !(p.afterStartMs.Some? && p.afterStartMs.value.Fin?)
    ensures c.AfterPair? <==> (&& p.afterStartMs.Some? && p.afterStartMs.value.Fin?
                               && p.afterSegmentId.Some? && p.afterSegmentId.value != "")
    ensures !c.NoCursor? ==> c.startMs == p.afterStartMs.value.v
    ensures c.AfterPair? ==> c.segmentId == p.afterSegmentId.value
  {
    match p.afterStartMs
    case Some(Fin(a)) =>
      (match p.afterSegmentId
       case Some(id) => if id != "" then AfterPair(a, id) else AfterStart(a)
       case None => AfterStart(a))
    case _ => NoCursor
  }

  predicate PassesCursor(row: Row, c: CursorFilter) {
    match c
    case NoCursor => true
    case AfterStart(a) => row.startMs > a
    case AfterPair(a, id) => row.startMs > a || (row.startMs == a && StrLt(id, row.segmentId))
  }

  /** The query's row filter: the room, `is_final = true`, and the cursor. */
  predicate Selected(row: Row, p: ListParams) {
    row.roomId == p.roomId && row.isFinal && PassesCursor(row, CursorFilterOf(p))
  }

  /** `order=start_ms.asc,segment_id.asc`, as a preorder. */
  predicate RowLe(a: Row, b: Row) {
    a.startMs < b.startMs
    || (a.startMs == b.startMs && (a.segmentId == b.segmentId || StrLt(a.segmentId, b.segmentId)))
  }

  /** The strict version of the page order. */
  predicate RowLt(a: Row, b: Row) {
    a.startMs < b.startMs || (a.startMs == b.startMs && StrLt(a.segmentId, b.segmentId))
  }

  function SegmentIdOf(r: Row): string {
    r.segmentId
  }

  lemma RowLeTotalPreorder()
    ensures Sorting.TotalPreorder(RowLe)
  {
    forall a: Row, b: Row
      ensures RowLe(a, b) || RowLe(b, a)
    {
      if a.segmentId != b.segmentId {
        StrLtConnected(a.segmentId, b.segmentId);
      }
    }
    forall a: Row, b: Row, c: Row | RowLe(a, b) && RowLe(b, c)
      ensures RowLe(a, c)
    {
      if StrLt(a.segmentId, b.segmentId) && StrLt(b.segmentId, c.segmentId) {
        StrLtTransitive(a.segmentId, b.segmentId, c.segmentId);
      }
    }
  }

  lemma RowLtTransitive(a: Row, b: Row, c: Row)
    requires RowLt(a, b) && RowLt(b, c)
    ensures RowLt(a, c)
  {
    if StrLt(a.segmentId, b.segmentId) && StrLt(b.segmentId, c.segmentId) {
      StrLtTransitive(a.segmentId, b.segmentId, c.segmentId);
    }
  }

  lemma RowLtIrreflexive(a: Row)
    ensures !RowLt(a, a)
  {
    StrLtIrreflexive(a.segmentId);
  }

  predicate StrictlyAscending(rows: seq<Row>) {
    forall i, j :: 0 <= i < j < |rows| ==> RowLt(rows[i], rows[j])
  }

  /**
   * `rows` is the answer to query `p` on table `t`: selected rows of the
   * table in strictly ascending page order, at most the cap, and every
   * selected row left out lies after all of them and only because the cap
   * was reached.
   */
  ghost predicate IsPage(t: Table, p: ListParams, rows: seq<Row>) {
    && StrictlyAscending(rows)
    && (forall i :: 0 <= i < |rows| ==>
          rows[i].segmentId in t && t[rows[i].segmentId] == rows[i] && Selected(rows[i], p))
    && (PageCap(p).Some? ==> |rows| <= PageCap(p).value)
    && (forall k :: k in t && Selected(t[k], p) && t[k] !in rows ==>
          && PageCap(p).Some? && |rows| == PageCap(p).value
          && forall i :: 0 <= i < |rows| ==> RowLt(rows[i], t[k]))
  }

  /** The row is the table's row under its own `segment_id`. */
  predicate InTable(t: Table, r: Row) {
    r.segmentId in t && t[r.segmentId] == r
  }

  /** Gathers every selected row of the table, in page order. */
  method CollectSelected(t: Table, p: ListParams) returns (acc: seq<Row>)
    requires WellKeyed(t)
    ensures Sorting.SortedBy(acc, RowLe)
    ensures Sorting.KeysDistinct(acc, SegmentIdOf)
    ensures forall r :: r in acc ==> InTable(t, r) && Selected(r, p)
    ensures forall k :: k in t && Selected(t[k], p) ==> t[k] in acc
  {
    RowLeTotalPreorder();
    var keys := t.Keys;
    acc := [];
    while keys != {}
      invariant keys <= t.Keys
      invariant Sorting.SortedBy(acc, RowLe)
      invariant Sorting.KeysDistinct(acc, SegmentIdOf)
      invariant forall r :: r in acc ==> InTable(t, r) && r.segmentId !in keys && Selected(r, p)
      invariant forall k :: k in t && k !in keys && Selected(t[k], p) ==> t[k] in acc
      decreases keys
    {
      var k :| k in keys;
      keys := keys - {k};
      if Selected(t[k], p) {
        assert forall i :: 0 <= i < |acc| ==> acc[i] in acc;
        Sorting.InsertKeepsKeysDistinct(acc, t[k], RowLe, SegmentIdOf);
        acc := Sorting.Insert(acc, t[k], RowLe);
      }
    }
  }

  /** Sorted by the preorder with distinct ids means strictly ascending. */
  lemma DistinctSortedIsStrict(acc: seq<Row>)
    requires Sorting.SortedBy(acc, RowLe)
    requires Sorting.KeysDistinct(acc, SegmentIdOf)
    ensures StrictlyAscending(acc)
  {
    forall i, j | 0 <= i < j < |acc|
      ensures RowLt(acc[i], acc[j])
    {
      assert RowLe(acc[i], acc[j]);
      assert SegmentIdOf(acc[i]) != SegmentIdOf(acc[j]);
    }
  }

  /** Evaluates the query on the table: collect the selected rows in order, then cut at the cap. */
  method SelectPage(t: Table, p: ListParams) returns (rows: seq<Row>)
    requires WellKeyed(t)
    ensures IsPage(t, p, rows)
  {
    var acc := CollectSelected(t, p);
    DistinctSortedIsStrict(acc);
    var cap := PageCap(p);
    if cap.Some? && cap.value < |acc| {
      rows := acc[..cap.value];
      assert forall i :: 0 <= i < |rows| ==> rows[i] in acc;
      forall k | k in t && Selected(t[k], p) && t[k] !in rows
        ensures forall i :: 0 <= i < |rows| ==> RowLt(rows[i], t[k])
      {
        var j :| 0 <= j < |acc| && acc[j] == t[k];
        assert j >= cap.value;
      }
    } else {
      rows := acc;
      assert forall i :: 0 <= i < |rows| ==> rows[i] in acc;
    }
  }

  /**
   * `listFinalTranscriptSegments`: the environment is checked before any
   * request; a non-2xx status throws with that status; a body that is not a
   * JSON array reads as no rows; otherwise the rows are the query's page.
   */
  method ListFinal(env: Env, t: Table, p: ListParams, status: int, bodyIsArray: bool)
    returns (r: Result<seq<Row>, StoreError>)
    requires WellKeyed(t)
    ensures EnvError(env).Some? ==> r == Failure(EnvError(env).value)
    ensures EnvError(env).None? && !IsOk(status) ==> r == Failure(ListFailed(status))
    ensures EnvError(env).None? && IsOk(status) && !bodyIsArray ==> r == Success([])
    ensures EnvError(env).None? && IsOk(status) && bodyIsArray ==> r.Success? && IsPage(t, p, r.value)
  {
    var e := EnvError(env);
    if e.Some? {
      return Failure(e.value);
    }
    if !IsOk(status) {
      return Failure(ListFailed(status));
    }
    if !bodyIsArray {
      return Success([]);
    }
    var rows := SelectPage(t, p);
    return Success(rows);
  }

  /** The row a cursor `(a, id)` stands for, as far as the page order sees it. */
  function CursorRow(a: real, id: string): Row {
    Row("", "", "", id, a, a, true, None, "", "")
  }

  /**
   * Paging forward: when the next query's cursor is the last row of a page,
   * every row of the next page lies strictly after every row of this one, so
   * the two pages never overlap.
   */
  lemma NextPageFollows(t: Table, p: ListParams, rows: seq<Row>, p2: ListParams, rows2: seq<Row>)
    requires IsPage(t, p, rows) && |rows| > 0
    requires p2.afterStartMs == Some(Fin(rows[|rows| - 1].startMs))
    requires p2.afterSegmentId == Some(rows[|rows| - 1].segmentId)
    requires rows[|rows| - 1].segmentId != ""
    requires IsPage(t, p2, rows2)
    ensures forall i, j :: 0 <= i < |rows| && 0 <= j < |rows2| ==> RowLt(rows[i], rows2[j])
  {
    var last := rows[|rows| - 1];
    forall i, j | 0 <= i < |rows| && 0 <= j < |rows2|
      ensures RowLt(rows[i], rows2[j])
    {
      assert Selected(rows2[j], p2);
      assert RowLt(last, rows2[j]);
      if i < |rows| - 1 {
        RowLtTransitive(rows[i], last, rows2[j]);
      }
    }
  }
}

=== FILE: translate_route.dfy ===
/**
 * `POST /api/translator/translate`: translate a caption through the Gemini
 * API, falling back to the untranslated text whenever anything goes wrong.
 */
module TranslateRoute {
  import opened Wrappers
  import opened Js
  import opened Http

  /** The request as the handler reads it; `coerce` stands for `String(x)` on non-primitive values. */
  datatype Request = Request(text: string, sourceLang: string, targetLang: string)

  /** `!body?.text || !body?.target_lang` rejects; otherwise the fields are coerced with `String`. */
  function DecodeRequest(body: Option<Json>, coerce: Json -> string): (r: Result<Request, Response>)
    ensures r.Failure? <==> !Truthy(Get(body, "text")) || !Truthy(Get(body, "target_lang"))
    ensures r.Failure? ==> r.error == Fail(400, "invalid_request")
    ensures r.Success? ==> r.value.text == Trim(JsString(Get(body, "text").value, coerce))
    ensures r.Success? && !Truthy(Get(body, "source_lang")) ==> r.value.sourceLang == "auto"
    ensures (r.Success? && Get(body, "source_lang").Some? && Get(body, "source_lang").value.JStr?
             && Get(body, "source_lang").value.s != "") ==> r.value.sourceLang == Get(body, "source_lang").value.s
    ensures r.Success? && Get(body, "target_lang").value.JStr? ==> r.value.targetLang == Get(body, "target_lang").value.s
  {
    var text := Get(body, "text");
    var target := Get(body, "target_lang");
    if !Truthy(text) || !Truthy(target) then Failure(Fail(400, "invalid_request"))
    else
      var source := Get(body, "source_lang");
      Success(Request(
        text := Trim(JsString(text.value, coerce)),
        sourceLang := if Truthy(source) then JsString(source.value, coerce) else "auto",
        targetLang := JsString(target.value, coerce)))
  }

  const Instruction: string := "Return only the translation with no extra punctuation or quotes.\n\n"

  /** The prompt: the source language is named unless it is `auto`, and the text closes it. */
  function Prompt(req: Request): (p: string)
    ensures req.sourceLang == "auto" ==> p == "Translate the following text to " + req.targetLang + ".\n" + Instruction + "TEXT:\n" + req.text
    ensures req.sourceLang != "auto" ==>
      p == "Translate the following text from " + req.sourceLang + " to " + req.targetLang + ".\n" + Instruction + "TEXT:\n" + req.text
    ensures |p| >= |req.text| && p[|p| - |req.text|..] == req.text
  {
    var from := if req.sourceLang == "auto" then "" else "from " + req.sourceLang + " ";
    var p := "Translate the following text " + from + "to " + req.targetLang + ".\n" + Instruction + "TEXT:\n" + req.text;
    assert p == ("Translate the following text " + from + "to " + req.targetLang + ".\n" + Instruction + "TEXT:\n") + req.text;
    p
  }

  /** `data?.candidates?.[0]?.content?.parts?.[0]?.text`, trimmed when it is a string. */
  function ParseGeminiText(data: Option<Json>): (r: Option<string>)
    ensures r.Some? ==> r.value == Trim(r.value)
    ensures var t := Get(At(Get(Get(At(Get(data, "candidates"), 0), "content"), "parts"), 0), "text");
            (r.Some? <==> t.Some? && t.value.JStr?) && (r.Some? ==> r.value == Trim(t.value.s))
  {
    var t := Get(At(Get(Get(At(Get(data, "candidates"), 0), "content"), "parts"), 0), "text");
    match t
    case Some(JStr(s)) =>
      TrimIdempotent(s);
      Some(Trim(s))
    case _ => None
  }

  /** How the Gemini call went: the fetch threw, or it answered with a status and a body (`None` when it is not JSON). */
  datatype GeminiReply = FetchThrew | Replied(ok: bool, data: Option<Json>)

  /** What the handler does with the checked request. */
  datatype Plan = Answer(resp: Response) | AskGemini(prompt: string, fallback: string)

  /** The steps before the call: reject, answer an empty text, answer without a key, or build the prompt. */
  function PlanTranslate(body: Option<Json>, coerce: Json -> string, geminiKey: string): (r: Plan)
    ensures DecodeRequest(body, coerce).Failure? ==> r == Answer(Fail(400, "invalid_request"))
    ensures DecodeRequest(body, coerce).Success? ==>
      var req := DecodeRequest(body, coerce).value;
      && (req.text == "" ==> r == Answer(Response(200, TextBody(""))))
      && (req.text != "" && geminiKey == "" ==> r == Answer(Response(200, TextBody(req.text))))
      && (req.text != "" && geminiKey != "" ==> r == AskGemini(Prompt(req), req.text))
  {
    match DecodeRequest(body, coerce)
    case Failure(resp) => Answer(resp)
    case Success(req) =>
      if req.text == "" then Answer(Response(200, TextBody("")))
      else if geminiKey == "" then Answer(Response(200, TextBody(req.text)))
      else AskGemini(Prompt(req), req.text)
  }

  /** The usable translation in a reply: the parsed text of an ok reply, when it is non-empty. */
  function Translation(reply: GeminiReply): (t: Option<string>)
    ensures t.Some? ==> t.value != ""
    ensures reply.FetchThrew? || !reply.ok ==> t.None?
    ensures reply.Replied? && reply.ok ==>
      var p := ParseGeminiText(reply.data); (p.Some? && p.value != "" ==> t == p) && (!(p.Some? && p.value != "") ==> t.None?)
  {
    match reply
    case FetchThrew => None
    case Replied(ok, data) =>
      if !ok then None
      else
        match ParseGeminiText(data)
        case Some(x) => if x != "" then Some(x) else None
        case None => None
  }

  /**
   * The answer after the call, `translated || text`: the translation when
   * an ok reply parses to non-empty text, else the original text.
   */
  function CompleteTranslate(fallback: string, reply: GeminiReply): (resp: Response)
    ensures resp.status == 200 && resp.body.TextBody?
    ensures Translation(reply).Some? ==> resp.body.text == Translation(reply).value
    ensures Translation(reply).None? ==> resp.body.text == fallback
  {
    match reply
    case FetchThrew => Response(200, TextBody(fallback))
    case Replied(ok, data) =>
      if !ok then Response(200, TextBody(fallback))
      else
        match ParseGeminiText(data)
        case Some(t) => Response(200, TextBody(if t != "" then t else fallback))
        case None => Response(200, TextBody(fallback))
  }

  /** The whole handler. */
  function TranslatePost(body: Option<Json>, coerce: Json -> string, geminiKey: string, reply: GeminiReply): (resp: Response)
    ensures resp.status == 400 <==> DecodeRequest(body, coerce).Failure?
    ensures resp.status == 200 <==> DecodeRequest(body, coerce).Success?
  {
    match PlanTranslate(body, coerce, geminiKey)
    case Answer(resp) => resp
    case AskGemini(_, fallback) => CompleteTranslate(fallback, reply)
  }

  /**
   * A request with non-blank text always gets non-empty text back: the
   * trimmed input when Gemini is absent or fails, its non-empty answer otherwise.
   */
  lemma NeverBlankAnswer(body: Option<Json>, coerce: Json -> string, geminiKey: string, reply: GeminiReply)
    requires DecodeRequest(body, coerce).Success? && DecodeRequest(body, coerce).value.text != ""
    ensures var resp := TranslatePost(body, coerce, geminiKey, reply);
            resp.status == 200 && resp.body.TextBody? && resp.body.text != ""
    ensures geminiKey == "" || reply.FetchThrew? || !reply.ok ==>
            TranslatePost(body, coerce, geminiKey, reply) == Response(200, TextBody(DecodeRequest(body, coerce).value.text))
  {
    var req := DecodeRequest(body, coerce).value;
    var plan := PlanTranslate(body, coerce, geminiKey);
    if geminiKey == "" {
      assert plan.Answer? && plan.resp == Response(200, TextBody(req.text));
    } else {
      assert plan == AskGemini(Prompt(req), req.text);
      var resp := CompleteTranslate(req.text, reply);
      assert TranslatePost(body, coerce, geminiKey, reply) == resp;
      assert resp.body.text != "" by {
        if Translation(reply).None? {
          assert resp.body.text == req.text;
        }
      }
    }
  }

  /**
   * With non-blank text and a key, an ok reply carrying a non-empty parsed
   * translation is answered with that translation; any other reply is
   * answered with the trimmed input.
   */
  lemma AnswerIsTranslation(body: Option<Json>, coerce: Json -> string, geminiKey: string, ok: bool, data: Option<Json>)
    requires DecodeRequest(body, coerce).Success? && DecodeRequest(body, coerce).value.text != ""
    requires geminiKey != ""
    ensures var t := ParseGeminiText(data);
            ok && t.Some? && t.value != "" ==> TranslatePost(body, coerce, geminiKey, Replied(ok, data)) == Response(200, TextBody(t.value))
    ensures var t := ParseGeminiText(data);
            !(ok && t.Some? && t.value != "") ==>
            TranslatePost(body, coerce, geminiKey, Replied(ok, data)) == Response(200, TextBody(DecodeRequest(body, coerce).value.text))
  {
    var req := DecodeRequest(body, coerce).value;
    assert PlanTranslate(body, coerce, geminiKey) == AskGemini(Prompt(req), req.text);
    assert TranslatePost(body, coerce, geminiKey, Replied(ok, data)) == CompleteTranslate(req.text, Replied(ok, data));
  }

  /** The untranslated fallback the handler answers is already trimmed: asking again changes nothing. */
  lemma FallbackIsTrimmed(body: Option<Json>, coerce: Json -> string)
    requires DecodeRequest(body, coerce).Success?
    ensures var t := DecodeRequest(body, coerce).value.text; Trim(t) == t
  {
    TrimIdempotent(JsString(Get(body, "text").value, coerce));
  }
}

=== FILE: translator_settings.dfy ===
/**
 * The translator's settings record: its defaults, how a stored copy is
 * merged over them on load, and the save/load round trip through local
 * storage.
 */
module TranslatorSettings {
  import opened Wrappers
  import opened Js

  datatype Settings = Settings(
    sourceLang: string,
    targetLang: string,
    sttEngine: string,
    captionsEnabled: bool,
    readAloudEnabled: bool,
    readAloudEngine: string,
    outputDeviceId: string,
    duckingEnabled: bool,
    duckedCallVolume: real,
    broadcastCaptionsEnabled: bool,
    readAloudVolume: real)

  /** `clamp01`: the nearest value in [0, 1]. */
  function Clamp01(x: real): (r: real)
    ensures 0.0 <= r <= 1.0
    ensures 0.0 <= x <= 1.0 ==> r == x
    ensures x < 0.0 ==> r == 0.0
    ensures x > 1.0 ==> r == 1.0
  {
    if x < 0.0 then 0.0 else if x > 1.0 then 1.0 else x
  }

  /** `clamp01` on a number that may be infinite, as a stored `1e999` would be. */
  function Clamp01Num(n: Num): (r: Option<real>)
    ensures r.None? <==> n.NaN?
    ensures r.Some? ==> 0.0 <= r.value <= 1.0
    ensures n.Fin? ==> r == Some(Clamp01(n.v))
  {
    match n
    case Fin(v) => Some(Clamp01(v))
    case PosInf => Some(1.0)
    case NegInf => Some(0.0)
    case NaN => None
  }

  const Defaults: Settings := Settings(
    sourceLang := "en-US",
    targetLang := "en-US",
    sttEngine := "browser",
    captionsEnabled := true,
    readAloudEnabled := false,
    readAloudEngine := "local_tts",
    outputDeviceId := "default",
    duckingEnabled := true,
    duckedCallVolume := 0.35,
    broadcastCaptionsEnabled := false,
    readAloudVolume := 0.9)

  /** A stored string field, else the default. */
  function StrOr(stored: Option<Json>, key: string, default: string): (r: string)
    ensures Get(stored, key).Some? && Get(stored, key).value.JStr? ==> r == Get(stored, key).value.s
    ensures !(Get(stored, key).Some? && Get(stored, key).value.JStr?) ==> r == default
  {
    match Get(stored, key)
    case Some(JStr(s)) => s
    case _ => default
  }

  /** A stored boolean field, else the default. */
  function BoolOr(stored: Option<Json>, key: string, default: bool): (r: bool)
    ensures Get(stored, key).Some? && Get(stored, key).value.JBool? ==> r == Get(stored, key).value.b
    ensures !(Get(stored, key).Some? && Get(stored, key).value.JBool?) ==> r == default
  {
    match Get(stored, key)
    case Some(JBool(b)) => b
    case _ => default
  }

  /** A stored finite number, else the default. */
  function RealOr(stored: Option<Json>, key: string, default: real): (r: real)
    ensures Get(stored, key).Some? && Get(stored, key).value.JNum? && Get(stored, key).value.n.Fin? ==>
      r == Get(stored, key).value.n.v
    ensures !(Get(stored, key).Some? && Get(stored, key).value.JNum? && Get(stored, key).value.n.Fin?) ==>
      r == default
  {
    match Get(stored, key)
    case Some(JNum(Fin(v))) => v
    case _ => default
  }

  /** The loaded value of a text field: the stored one when `key` holds a string, else the default. */
  predicate LoadedStr(stored: Option<Json>, key: string, default: string, v: string) {
    if Get(stored, key).Some? && Get(stored, key).value.JStr? then v == Get(stored, key).value.s else v == default
  }

  /** The loaded value of a switch: the stored one when `key` holds a boolean, else the default. */
  predicate LoadedBool(stored: Option<Json>, key: string, default: bool, v: bool) {
    if Get(stored, key).Some? && Get(stored, key).value.JBool? then v == Get(stored, key).value.b else v == default
  }

  /**
   * The initial settings: the defaults, overlaid by every field of the stored
   * object, with the stored read-aloud volume clamped to [0, 1] when it is a
   * number. `stored` is the parsed storage entry (`None` when absent or not
   * JSON).
   */
  function Load(stored: Option<Json>): (s: Settings)
    ensures stored.None? ==> s == Defaults
    ensures LoadedStr(stored, "sourceLang", Defaults.sourceLang, s.sourceLang)
    ensures LoadedStr(stored, "targetLang", Defaults.targetLang, s.targetLang)
    ensures LoadedStr(stored, "sttEngine", Defaults.sttEngine, s.sttEngine)
    ensures LoadedStr(stored, "readAloudEngine", Defaults.readAloudEngine, s.readAloudEngine)
    ensures LoadedStr(stored, "outputDeviceId", Defaults.outputDeviceId, s.outputDeviceId)
    ensures LoadedBool(stored, "captionsEnabled", Defaults.captionsEnabled, s.captionsEnabled)
    ensures LoadedBool(stored, "readAloudEnabled", Defaults.readAloudEnabled, s.readAloudEnabled)
    ensures LoadedBool(stored, "duckingEnabled", Defaults.duckingEnabled, s.duckingEnabled)
    ensures LoadedBool(stored, "broadcastCaptionsEnabled", Defaults.broadcastCaptionsEnabled, s.broadcastCaptionsEnabled)
    ensures Get(stored, "duckedCallVolume").Some? && Get(stored, "duckedCallVolume").value.JNum?
            && Get(stored, "duckedCallVolume").value.n.Fin? ==>
      s.duckedCallVolume == Get(stored, "duckedCallVolume").value.n.v
    ensures !(Get(stored, "duckedCallVolume").Some? && Get(stored, "duckedCallVolume").value.JNum?
              && Get(stored, "duckedCallVolume").value.n.Fin?) ==>
      s.duckedCallVolume == Defaults.duckedCallVolume
    ensures 0.0 <= s.readAloudVolume <= 1.0
    ensures Get(stored, "readAloudVolume").Some? && Get(stored, "readAloudVolume").value.JNum?
            && Get(stored, "readAloudVolume").value.n.Fin? ==>
      s.readAloudVolume == Clamp01(Get(stored, "readAloudVolume").value.n.v)
    ensures Get(stored, "readAloudVolume") == Some(JNum(PosInf)) ==> s.readAloudVolume == 1.0
    ensures Get(stored, "readAloudVolume") == Some(JNum(NegInf)) ==> s.readAloudVolume == 0.0
    ensures !(Get(stored, "readAloudVolume").Some? && Get(stored, "readAloudVolume").value.JNum?) ==>
      s.readAloudVolume == Defaults.readAloudVolume
  {
    Settings(
      sourceLang := StrOr(stored, "sourceLang", Defaults.sourceLang),
      targetLang := StrOr(stored, "targetLang", Defaults.targetLang),
      sttEngine := StrOr(stored, "sttEngine", Defaults.sttEngine),
      captionsEnabled := BoolOr(stored, "captionsEnabled", Defaults.captionsEnabled),
      readAloudEnabled := BoolOr(stored, "readAloudEnabled", Defaults.readAloudEnabled),
      readAloudEngine := StrOr(stored, "readAloudEngine", Defaults.readAloudEngine),
      outputDeviceId := StrOr(stored, "outputDeviceId", Defaults.outputDeviceId),
      duckingEnabled := BoolOr(stored, "duckingEnabled", Defaults.duckingEnabled),
      duckedCallVolume := RealOr(stored, "duckedCallVolume", Defaults.duckedCallVolume),
      broadcastCaptionsEnabled := BoolOr(stored, "broadcastCaptionsEnabled", Defaults.broadcastCaptionsEnabled),
      readAloudVolume :=
        match Get(stored, "readAloudVolume")
        case Some(JNum(n)) => Clamp01Num(n).GetOr(Defaults.readAloudVolume)
        case _ => Defaults.readAloudVolume)
  }

  /** The eleven keys of a settings object. */
  const SettingsKeys: set<string> := {
    "sourceLang", "targetLang", "sttEngine", "captionsEnabled", "readAloudEnabled", "readAloudEngine",
    "outputDeviceId", "duckingEnabled", "duckedCallVolume", "broadcastCaptionsEnabled", "readAloudVolume"}

  /**
   * `JSON.stringify(settings)`, as the effect that persists every change
   * writes it: an object with exactly the eleven settings keys, the volumes
   * as finite numbers.
   */
  function Save(s: Settings): (j: Json)
    ensures j.JObj? && j.fields.Keys == SettingsKeys
    ensures j.fields["duckedCallVolume"] == JNum(Fin(s.duckedCallVolume))
    ensures j.fields["readAloudVolume"] == JNum(Fin(s.readAloudVolume))
  {
    JObj(map[
      "sourceLang" := JStr(s.sourceLang),
      "targetLang" := JStr(s.targetLang),
      "sttEngine" := JStr(s.sttEngine),
      "captionsEnabled" := JBool(s.captionsEnabled),
      "readAloudEnabled" := JBool(s.readAloudEnabled),
      "readAloudEngine" := JStr(s.readAloudEngine),
      "outputDeviceId" := JStr(s.outputDeviceId),
      "duckingEnabled" := JBool(s.duckingEnabled),
      "duckedCallVolume" := JNum(Fin(s.duckedCallVolume)),
      "broadcastCaptionsEnabled" := JBool(s.broadcastCaptionsEnabled),
      "readAloudVolume" := JNum(Fin(s.readAloudVolume))])
  }

  /** The text fields read back from the saved object as they were written. */
  lemma SavedTextFields(s: Settings)
    ensures var j := Some(Save(s));
      && Get(j, "sourceLang") == Some(JStr(s.sourceLang))
      && Get(j, "targetLang") == Some(JStr(s.targetLang))
      && Get(j, "sttEngine") == Some(JStr(s.sttEngine))
      && Get(j, "readAloudEngine") == Some(JStr(s.readAloudEngine))
      && Get(j, "outputDeviceId") == Some(JStr(s.outputDeviceId))
  {
  }

  /** The switches and volumes read back from the saved object as they were written. */
  lemma SavedOtherFields(s: Settings)
    ensures var j := Some(Save(s));
      && Get(j, "captionsEnabled") == Some(JBool(s.captionsEnabled))
      && Get(j, "readAloudEnabled") == Some(JBool(s.readAloudEnabled))
      && Get(j, "duckingEnabled") == Some(JBool(s.duckingEnabled))
      && Get(j, "duckedCallVolume") == Some(JNum(Fin(s.duckedCallVolume)))
      && Get(j, "broadcastCaptionsEnabled") == Some(JBool(s.broadcastCaptionsEnabled))
      && Get(j, "readAloudVolume") == Some(JNum(Fin(s.readAloudVolume)))
  {
  }

  /** Saved settings load back unchanged, provided the read-aloud volume was already in range. */
  lemma SaveLoadRoundTrip(s: Settings)
    requires 0.0 <= s.readAloudVolume <= 1.0
    ensures Load(Some(Save(s))) == s
  {
    SavedTextFields(s);
    SavedOtherFields(s);
  }

  /** Whatever is stored, loading, saving and loading again gives what the first load gave. */
  /**
   * The defaults are what an empty store loads, they survive a save and a
   * load, read-aloud starts off, and both volumes lie in [0, 1].
   */
  lemma DefaultsStable()
    ensures Load(None) == Defaults
    ensures Load(Some(Save(Defaults))) == Defaults
    ensures !Defaults.readAloudEnabled && Defaults.captionsEnabled && Defaults.duckingEnabled
    ensures 0.0 <= Defaults.readAloudVolume <= 1.0 && 0.0 <= Defaults.duckedCallVolume <= 1.0
  {
    SaveLoadRoundTrip(Defaults);
  }

  lemma LoadSaveLoadStable(stored: Option<Json>)
    ensures Load(Some(Save(Load(stored)))) == Load(stored)
  {
    SaveLoadRoundTrip(Load(stored));
  }
}

=== FILE: wrappers.dfy ===
/** Failure-compatible wrappers used across the model. */
module Wrappers {

  /** A value that may be absent: `undefined`/`null` in the original. */
  datatype Option<+T> = None | Some(value: T) {

    /** The wrapped value, or `default` when absent (the `??` operator). */
    function GetOr(default: T): T {
      match this
      case Some(v) => v
      case None => default
    }
  }

  /** The outcome of an operation that may throw. */
  datatype Result<+R, +E> = Success(value: R) | Failure(error: E)
}
